=== FILE: README.md ===
# CSXCAD core in Dafny

CSXCAD describes the geometry of an electromagnetic field simulation:

- a `ContinuousStructure` holds a list of **properties** (materials, metals, dump boxes and so on);
- each property owns **primitives** (boxes, multi-boxes, polygons) that place it in space;
- a rectilinear **grid** (`CSRectGrid`) holds the mesh lines of the three directions;
- a **background material** fills the rest;
- **parameters** (constant and linear, collected in a parameter set that sweeps through them) and **parameter scalars** (a number or an expression) feed the geometry;
- a **transform** (a 4x4 affine matrix and the list of operations that built it) places primitives;
- small **string utilities** convert and split numbers;
- the Python helper `SmoothMeshLines` refines a list of mesh lines so no gap exceeds a maximum and neighbouring spacings grow by a bounded ratio.

The model is written in the source's own form:

- Objects whose methods update fields in place are Dafny classes with those fields: grid, background, properties and primitives, boxes, multi-boxes, polygons, dump box, transform, parameters, parameter set and structure.
- C++ arrays of six bound-box values and the 16 matrix entries stay `array<real>`.
- Pure computations are functions.
- Every loop of the source is a method with its invariants, proved against a specification function. Examples:
  - `FindWinner` against `Best`;
  - `GetBoundBox` against `BoundBox`;
  - `NextSweepPos(1)` against an odometer;
  - `SplitString2Int` against `String2IntAll(NonEmpty(Chunks(...)))`.
- What the source promises is proved about those functions as lemmas. Examples:
  - split/join round trips;
  - `Snap2LineNumber` picks the nearest line;
  - the bound box encloses every box;
  - every sweep value stays on its grid;
  - refined mesh lines stay sorted and within the input's bounds.

`Unique` in `SmoothMeshLines.py` deletes the earlier of two lines that are closer than the threshold: `np.delete` removes the index of the first line of each close pair.

Floating-point numbers are modelled as exact reals and C++ `int`/`unsigned int` as unbounded integers. Wrap-around and clamping are written out where the source relies on them:

- unique IDs wrap modulo 2^32;
- `String2Int` clamps to the 32-bit range;
- a negative sub-sampling value wraps to a large unsigned factor.

## Model

| member | source | states |
|---|---|---|
| BackgroundMaterial.Background.constructor | src/CSBackgroundMaterial.cpp:26-30 | A new background is vacuum: relative permittivity and permeability 1, both conductivities 0. |
| BackgroundMaterial.Background.Reset | src/CSBackgroundMaterial.cpp:32-38 | Resetting restores vacuum values and keeps the background valid. |
| BackgroundMaterial.Background.SetEpsilon | src/CSBackgroundMaterial.cpp:40-48 | A relative permittivity below 1 is refused and the old value kept; otherwise it is stored; validity is preserved. |
| BackgroundMaterial.Background.SetMue | src/CSBackgroundMaterial.cpp:50-58 | A relative permeability below 1 is refused and the old value kept; otherwise it is stored. |
| BackgroundMaterial.Background.SetKappa | src/CSBackgroundMaterial.cpp:60-68 | A negative electric conductivity is refused and the old value kept; otherwise it is stored. |
| BackgroundMaterial.Background.SetSigma | src/CSBackgroundMaterial.cpp:70-78 | A negative magnetic conductivity is refused and the old value kept; otherwise it is stored. |
| BoundBoxes.Dimension | src/CSPrimMultiBox.cpp:167-173 | The dimension of a bound box is at most 3. It is 0 exactly when every axis is degenerate and 3 exactly when none is. |
| BoundBoxes.DimensionSum | src/CSPrimMultiBox.cpp:167-173 | The dimension is the number of axes whose lower and upper bounds differ. |
| BoundBoxes.ZeroFill | src/CSPrimMultiBox.cpp:132 | The six bound-box entries become 0. |
| BoundBoxes.CountDimension | src/CSPrimMultiBox.cpp:167-173 | The loop over the three axes returns the dimension of the box. |
| SortedLines.SortUnique | src/CSRectGrid.cpp:234-242 | Sorting and dropping duplicates gives a strictly ascending list with exactly the same set of values, and no longer than the input. |
| SortedLines.SortLines | src/CSRectGrid.cpp:234-242 | The insertion loop computes SortUnique of its input. |
| SortedLines.SortUniqueOfSorted | src/CSRectGrid.cpp:234-242 | A strictly ascending list is left unchanged by sorting. |
| SortedLines.SortUniqueIdempotent | src/CSRectGrid.cpp:234-242 | Sorting twice is sorting once. |
| SortedLines.StrictlySortedBySet | src/CSRectGrid.cpp:234-242 | Two strictly ascending lists with the same set of values are equal, so the sorted result is unique. |
| Useful.ConvertInt | src/CSUseful.cpp:24-29 | The decimal text of an integer is non-empty, starts with '-' exactly for a negative number and is otherwise all digits. |
| Useful.String2Int | src/CSUseful.cpp:31-37 | Reading an integer always gives a 32-bit value. |
| Useful.ConvertIntRoundTrip | src/CSUseful.cpp:24-37 | Reading back the text of any 32-bit integer gives that integer. |
| Useful.NatDigitsValue | src/CSUseful.cpp:24-29 | The digits written for a natural number have that number as their value. |
| Useful.String2IntSnoc | src/CSUseful.cpp:31-37 | A non-digit character (such as the delimiter) left after a number does not change the number read. |
| Useful.Fields | src/CSUseful.cpp:49-94 | Splitting at the delimiter gives at least one field, and no field contains the delimiter. |
| Useful.NonEmptyAt | src/CSUseful.cpp:90 | Every kept field is non-empty and is one of the fields. |
| Useful.SplitString2Vector | src/CSUseful.cpp:72-94 | The split loop returns exactly the non-empty fields between delimiters, in order. |
| Useful.SplitString2Double | src/CSUseful.cpp:49-70 | The split loop returns, in order, the values of the non-empty fields that read completely as numbers. |
| Useful.SplitString2Int | src/CSUseful.cpp:145-160 | The split loop reads every non-empty chunk, delimiter included, as an integer. |
| Useful.SplitIntPerField | src/CSUseful.cpp:145-160 | Reading the chunks with their delimiters gives the same integers as reading the bare fields. |
| Useful.CombineVector2String | src/CSUseful.cpp:97-107 | The loop joins the formatted values with the delimiter. |
| Useful.JoinFields | src/CSUseful.cpp:72-94 | For a text that does not end in the delimiter, joining its fields with the delimiter gives back the text. |
| Useful.FieldsOfJoin | src/CSUseful.cpp:72-94 | Splitting a join of delimiter-free parts gives back the parts. |
| Useful.SplitVectorJoinRoundTrip | src/CSUseful.cpp:72-94 | For a text with no empty field, joining the result of SplitString2Vector gives back the text. |
| Useful.CombineSplitRoundTrip | src/CSUseful.cpp:49-107 | When every formatted value reads back as itself and is non-empty and delimiter-free, splitting the combined string returns the values. |
| Properties.CoordInRange | src/CSPrimitives.cpp:54-75 | A Cartesian point is in range exactly when every coordinate lies between the smaller and the larger of the two corners. |
| Properties.SeparatedDisjoint | src/CSPrimitives.cpp:160-169 | When the boxes are separated along some axis, no point lies in both. |
| Properties.SetAttrLookup | src/CSProperties.cpp:156-169 | After setting an attribute, looking it up gives the new value and every other lookup is unchanged. An existing name keeps the list length; distinct names stay distinct. |
| Properties.RemoveAttrLookup | src/CSProperties.cpp:171-183 | After removing an attribute, its lookup is empty and every other lookup is unchanged. |
| Properties.BestIsFirstHighest | src/CSProperties.cpp:315-334 | The winner is a hit with the highest priority among all hits, and no earlier hit has that priority. There is none exactly when nothing is hit. |
| Properties.IdCounter.constructor | src/CSPrimitives.cpp:34 | The global primitive ID counter starts at 0. |
| Properties.Primitive.constructor | src/CSPrimitives.cpp:101-106 | A new primitive takes the next unique ID and default settings, and registers with the property it is given. |
| Properties.Primitive.Init | src/CSPrimitives.cpp:108-124 | The counter's value becomes the ID and the counter advances by one. No property and no transform, priority 0, unused, Cartesian mesh, undefined coordinate systems, zero bound box, dimension 0. |
| Properties.Primitive.SetProperty | src/CSPrimitives.cpp:133-140 | The primitive leaves its old property's list and joins the new property's list. |
| Properties.Primitive.IsInsideBox | src/CSPrimitives.cpp:150-170 | 0 when the bound box is unknown, a transform is set, or the bound box is in another coordinate system; otherwise -1 exactly when the boxes are separated along some axis, and 1 when they are not. |
| Properties.Property.constructor | src/CSProperties.cpp:74-89 | A new property has the given ID, any type, Cartesian input, no attributes and no primitives. |
| Properties.Property.ExistAttribute | src/CSProperties.cpp:136-144 | True exactly when the name is among the attribute names. |
| Properties.Property.GetAttributeValue | src/CSProperties.cpp:146-154 | The value stored under the name, or the empty string when there is none. |
| Properties.Property.SetAttributeValue | src/CSProperties.cpp:156-169 | The first attribute with the name gets the value; an unknown name is appended with its value. |
| Properties.Property.RemoveAttribute | src/CSProperties.cpp:171-183 | The first attribute with the name is removed together with its value; an unknown name changes nothing. |
| Properties.Property.HasPrimitive | src/CSProperties.cpp:269-277 | True exactly when the primitive is non-null and in the property's list. |
| Properties.Property.AddPrimitive | src/CSProperties.cpp:258-267 | A primitive already in the list changes nothing. Otherwise it is appended, its property becomes this one and its old owner's list loses it. |
| Properties.Property.RemovePrimitive | src/CSProperties.cpp:279-291 | The first occurrence is removed and the primitive's property is cleared; a primitive not in the list is left alone. |
| Properties.Property.TakePrimitive | src/CSProperties.cpp:304-311 | An index past the end gives null and changes nothing; otherwise the primitive at the index is removed from the list and returned. |
| Properties.Property.SetCoordInputType | src/CSProperties.cpp:100-107 | The input coordinate system is set, and copied to every primitive's mesh type only when asked. The model writes nothing else; the primitives' own `Update` that the source runs after the copy is left out. |
| Properties.Property.FindWinner | src/CSProperties.cpp:315-334 | The loop returns the first highest-priority primitive that contains the point, and its priority, or null. |
| Properties.Property.CheckCoordInPrimitive | src/CSProperties.cpp:313-338 | Returns the winner of FindWinner and, when asked, marks it used; no other primitive's used flag changes. |
| ContinuousStructure.NextID | src/ContinuousStructure.cpp:80 | The unique-ID counter after a post-increment: one more, wrapping to 0 after the largest unsigned 32-bit value. |
| ContinuousStructure.OfTypeAppend | src/ContinuousStructure.cpp:152-166 | Selecting by type distributes over concatenation of property lists. |
| ContinuousStructure.OfTypeMembers | src/ContinuousStructure.cpp:152-166 | The properties selected by a type mask are exactly those of the list whose type shares a bit with the mask. |
| ContinuousStructure.AllPrimitivesMembers | src/ContinuousStructure.cpp:182-195 | The collected primitives are exactly the primitives owned by some listed property. |
| ContinuousStructure.EdgesCover | src/ContinuousStructure.cpp:239-247 | Both bounds along the axis of every primitive with an accurate bound box are collected, and only such bounds. |
| ContinuousStructure.InsertedEdgesOnGrid | src/ContinuousStructure.cpp:232-250 | After the insertion, both edges of every such primitive are mesh lines of that direction, and the lines are strictly ascending. |
| ContinuousStructure.Structure.constructor | src/ContinuousStructure.cpp:54-59 | A new structure has no properties, an ID counter of 0, a drawing tolerance of 0, a Cartesian mesh and an empty grid. |
| ContinuousStructure.Structure.UpdateIDs | src/ContinuousStructure.cpp:667-671 | Every property's ID becomes its index in the list; for a property listed twice, the last index wins. |
| ContinuousStructure.Structure.AddProperty | src/ContinuousStructure.cpp:74-82 | A null property changes nothing. Otherwise the property takes the structure's mesh type (down to its primitives), the next unique ID and its list position as ID, and is appended. The model writes nothing else; the primitives' own `Update` run by the mesh-type copy is left out. |
| ContinuousStructure.Structure.GetIndex | src/ContinuousStructure.cpp:142-148 | -1 for null or an unlisted property, otherwise its first index. |
| ContinuousStructure.Structure.DeleteProperty | src/ContinuousStructure.cpp:119-126 | An index past the end changes nothing; otherwise that property is removed. |
| ContinuousStructure.Structure.GetQtyPropertyType | src/ContinuousStructure.cpp:152-157 | Counts the properties whose type shares a bit with the mask. |
| ContinuousStructure.Structure.GetPropertyByType | src/ContinuousStructure.cpp:159-166 | Returns those properties, in list order. |
| ContinuousStructure.Structure.GetAllPrimitives | src/ContinuousStructure.cpp:182-195 | Concatenates the primitive lists of the selected properties. |
| ContinuousStructure.Structure.InsertEdges2Grid | src/ContinuousStructure.cpp:232-250 | A direction outside 0..2 is refused and changes nothing. Otherwise the direction's lines become the sorted, duplicate-free union of the old lines and the collected edges. |
| ContinuousStructure.Structure.AddEdges | src/ContinuousStructure.cpp:239-247 | The loop appends the two edges of each accurate bound box, in primitive order. |
| ContinuousStructure.Structure.Scan | src/ContinuousStructure.cpp:283-304 | The loop over the properties keeps the first property whose local winner has the highest priority. |
| ContinuousStructure.Structure.SearchByCoordPriority | src/ContinuousStructure.cpp:283-304 | The winning property and primitive are those of Best over the local winners' priorities, and every reported primitive belongs to a listed property. |
| ContinuousStructure.Structure.GetPropertyByCoordPriority | src/ContinuousStructure.cpp:276-310 | Returns the winner as above. A primitive becomes used only if it is the winner with marking on, or a local winner while the drawing tolerance, passed as the mark flag, is non-zero. |
| ContinuousStructure.Structure.MarkFound | src/ContinuousStructure.cpp:305-306 | Marks every reported primitive, or only the winner, as used. |
| RectGrid.GetLine | src/CSRectGrid.cpp:141-146 | The line at the index, or 0 for a bad direction or index. |
| RectGrid.GetQtyLines | src/CSRectGrid.cpp:159-164 | The number of lines of a valid direction, 0 otherwise. |
| RectGrid.GetDimension | src/CSRectGrid.cpp:201-211 | -1 exactly when a direction has no line, 3 exactly when every direction has more than one, 0 exactly when each has one. |
| RectGrid.Snap | src/CSRectGrid.cpp:181-199 | An empty direction gives no line and false. Below the first line: 0 and false. Past the last line: the last index and false. The flag is true exactly when the value lies between the first and last line. |
| RectGrid.SnapNearest | src/CSRectGrid.cpp:181-199 | On sorted lines, the chosen line is at least as close to the value as any other line. |
| RectGrid.GapPointsCount | src/CSRectGrid.cpp:221-229 | Refining by a factor adds factor - 1 points in each of the gaps. |
| RectGrid.GapPointsInside | src/CSRectGrid.cpp:221-229 | Every added point lies between the first and last line of sorted lines. |
| RectGrid.Refined | src/CSRectGrid.cpp:221-230 | The refined lines are strictly ascending and keep every old line. |
| RectGrid.RefinedWithinBounds | src/CSRectGrid.cpp:221-230 | Refining sorted lines adds nothing outside their range. |
| RectGrid.IncreaseResolutionSpec | src/CSRectGrid.cpp:217-231 | The intended refinement: a factor outside 2..9 leaves the grid unchanged. |
| RectGrid.IncreaseResolutionAsWritten | src/CSRectGrid.cpp:217-231 | The refinement with the guard as written: it keeps the three directions, and its behaviour for factor 10 is shown by IncreaseResolutionFactorTen. |
| RectGrid.IncreaseResolutionFactorTen | src/CSRectGrid.cpp:220 | With factor 10 the guard as written lets the refinement run and a line appears at 0.1, while the intended guard leaves the grid alone. |
| RectGrid.Grid.constructor | src/CSRectGrid.cpp:26-30 | A new grid has no lines, unit 1 and a Cartesian mesh. |
| RectGrid.Grid.AddDiscLine | src/CSRectGrid.cpp:47-50 | A line is appended to a valid direction; a bad direction changes nothing. |
| RectGrid.Grid.RemoveDiscLineAt | src/CSRectGrid.cpp:96-103 | Succeeds exactly for a valid direction and index, removing that line; otherwise nothing changes. |
| RectGrid.Grid.RemoveDiscLineValue | src/CSRectGrid.cpp:105-113 | Succeeds exactly when the value is a line of the direction, removing its first occurrence; otherwise nothing changes. |
| RectGrid.Grid.Clear | src/CSRectGrid.cpp:115-121 | All lines are removed and the unit is reset to 1. |
| RectGrid.Grid.ClearLines | src/CSRectGrid.cpp:123-127 | The lines of a valid direction are removed; a bad direction changes nothing. |
| RectGrid.Grid.SetLine | src/CSRectGrid.cpp:133-139 | Succeeds exactly for a valid direction and index. The line then has the value; every other line and every count is unchanged. |
| RectGrid.Grid.Sort | src/CSRectGrid.cpp:234-242 | The lines of a valid direction are sorted with duplicates removed. |
| RectGrid.Grid.Snap2LineNumber | src/CSRectGrid.cpp:181-199 | The search loop returns Snap for a valid direction, and no line and false otherwise. |
| RectGrid.Grid.IsValid | src/CSRectGrid.cpp:258-264 | The mesh is valid exactly when every direction has at least two lines, that is when the dimension is 3. |
| RectGrid.Grid.AddGapPoints | src/CSRectGrid.cpp:224-228 | The inner loop appends the factor - 1 evenly spaced points inside one gap. |
| RectGrid.Grid.AddAllGapPoints | src/CSRectGrid.cpp:221-229 | The outer loop appends the points of every gap. |
| RectGrid.Grid.IncreaseResolution | src/CSRectGrid.cpp:217-231 | The new lines are IncreaseResolutionSpec of the old ones. |
| ParameterObjects.SnapInRange | src/ParameterObjects.cpp:220-231 | A linear parameter's value after SetValue lies in [min, max] and, with a positive step, on the grid min + k * step. |
| ParameterObjects.SnapOfGridPoint | src/ParameterObjects.cpp:227 | A grid value inside [min, max] is stored exactly. |
| ParameterObjects.StepFits | src/ParameterObjects.h:117 | From the k-th grid value one more step fits below max exactly when k + 1 is below CountSteps: a sweep visits CountSteps values. |
| ParameterObjects.SnapValue | src/ParameterObjects.cpp:220-231 | The clamp-and-round computation returns Snap. |
| ParameterObjects.Parameter.constructor | src/ParameterObjects.cpp:122-129 | A constant parameter with the name and value, sweep enabled. |
| ParameterObjects.Parameter.LinearParameter | src/ParameterObjects.cpp:191-202 | A max below min is raised to min and a negative step becomes 0. The value is the snapped initial value, so the parameter is valid. |
| ParameterObjects.Parameter.SetValue | src/ParameterObjects.cpp:220-231 | A constant stores the value as given; a linear parameter stores Snap of it and stays on its grid. |
| ParameterObjects.Parameter.IncreaseStep | src/ParameterObjects.cpp:233-238 | Succeeds exactly for a linear parameter whose next step stays within max, then holding the snapped next value. On failure the value is unchanged. |
| ParameterObjects.Parameter.InitSweep | src/ParameterObjects.h:114 | A linear parameter restarts at min; a constant is unchanged. |
| ParameterObjects.LastSteppable | src/ParameterObjects.cpp:405-418 | The last parameter that can still step, or -1: none after it can. |
| ParameterObjects.Odometer | src/ParameterObjects.cpp:403-421 | A full-sweep move succeeds exactly when some parameter can still step. |
| ParameterObjects.OdometerInRange | src/ParameterObjects.cpp:403-421 | A move keeps every linear value in range and on its grid. |
| ParameterObjects.OdometerAdvancesOneStep | src/ParameterObjects.cpp:403-421 | The parameter that moves advances by exactly one step, and everything before it is untouched. |
| ParameterObjects.FirstSteppable | src/ParameterObjects.cpp:422-435 | The first parameter from a position on that can still step, or the list's length: none before it can. |
| ParameterObjects.FullSweepCount | src/ParameterObjects.cpp:362-369 | When some parameter sweeps, the full sweep counts at least one position. |
| ParameterObjects.ProductPositive | src/ParameterObjects.cpp:366-367 | A product of positive step counts is positive, so the count restarts only at the first sweeping parameter. |
| ParameterObjects.CountStepsPositive | src/ParameterObjects.h:117 | Every parameter counts at least one step. |
| ParameterObjects.Parameter.CountSteps | src/ParameterObjects.h:117 | A constant counts 1. A linear parameter with a positive step counts the grid values min + k * step up to max: the last counted value lies within max and the next is beyond it. |
| ParameterObjects.StepCountBrackets | src/ParameterObjects.h:117 | The number of steps brackets max between its last grid value and the next. |
| ParameterObjects.ParameterSet.constructor | src/ParameterObjects.cpp:277-280 | An empty set. The model starts the sweep position at 0, which the source leaves unset until `InitSweep` (see Left out). |
| ParameterObjects.ParameterSet.InitSweep | src/ParameterObjects.cpp:379-387 | Every sweeping parameter restarts at its min, every other parameter keeps its value, and the sweep position returns to the first parameter. |
| ParameterObjects.ParameterSet.LinkParameter | src/ParameterObjects.cpp:287-292 | The parameter is appended and the new count returned. |
| ParameterObjects.ParameterSet.DeleteParameterAt | src/ParameterObjects.cpp:294-301 | An index past the end changes nothing; otherwise that entry is removed. The new count is returned. |
| ParameterObjects.ParameterSet.DeleteParameter | src/ParameterObjects.cpp:303-316 | The first entry that is the parameter is removed; otherwise nothing changes. The new count is returned. |
| ParameterObjects.ParameterSet.GetParameterString | src/ParameterObjects.cpp:441-450 | The names joined with the spacer. |
| ParameterObjects.ParameterSet.CountSweepSteps | src/ParameterObjects.cpp:357-377 | Mode 1 gives the product of the sweeping parameters' step counts, or 0 when none sweeps. Mode 2 gives their sum, and any other mode 0. |
| ParameterObjects.ParameterSet.FullSweepSteps | src/ParameterObjects.cpp:363-369 | The full-sweep loop returns the product of the sweeping parameters' step counts, or 0 when none sweeps. |
| ParameterObjects.ParameterSet.SingleSweepSteps | src/ParameterObjects.cpp:371-373 | The one-at-a-time loop returns the sum of the sweeping parameters' step counts. |
| ParameterObjects.ParameterSet.WalkBack | src/ParameterObjects.cpp:405-419 | Walking back from the last parameter, the first that can step takes one step. Every sweeping one after it restarts at min, and those before it are untouched. |
| ParameterObjects.ParameterSet.NextSweepPosFull | src/ParameterObjects.cpp:403-421 | Mode 1 performs exactly one odometer move. |
| ParameterObjects.ParameterSet.NextSweepPosSingle | src/ParameterObjects.cpp:422-435 | The sweep position moves to the first parameter, from it on, that can still step, and that parameter takes one step. The result is true exactly when there is one. Every other value is unchanged. A position outside the list gives false and changes nothing. |
| ParameterObjects.ParameterSet.NextSweepPos | src/ParameterObjects.cpp:399-438 | Mode 1 is the odometer move. Mode 2 moves the position to FirstSteppable and succeeds exactly when that is inside the list. Any other mode gives false and changes nothing. |
| ParameterObjects.ParameterScalar.constructor | src/ParameterObjects.cpp:516-523 | A plain, modified scalar with value 0 and no text. |
| ParameterObjects.ParameterScalar.SetValue | src/ParameterObjects.cpp:574-579 | A plain number: parameter mode off, the value stored, the text cleared. |
| ParameterObjects.ParameterScalar.SetValueText | src/ParameterObjects.cpp:552-572 | Empty text gives -1 and changes nothing. Text that reads completely as a number is stored as that number. Any other text is kept as an expression in parameter mode. |
| PrimBox.Interleave | src/CSPrimBox.cpp:62-71 | The bound box interleaves the two corners axis by axis. |
| PrimBox.OrientedProperties | src/CSPrimBox.cpp:74-80 | Orienting orders each axis using the same two values, keeps the dimension, and leaves an ordered box unchanged. |
| PrimBox.Orient | src/CSPrimBox.cpp:74-80 | The swap loop computes Oriented. |
| PrimBox.Box.constructor | src/CSPrimBox.cpp:28-34 | A box with the two corners, Cartesian mesh, undefined coordinate systems, dimension 0. |
| PrimBox.Box.FillCorners | src/CSPrimBox.cpp:62-71 | The corner loop fills the interleaved corners and counts the dimension. |
| PrimBox.Box.GetBoundBox | src/CSPrimBox.cpp:57-85 | With preserved orientation: the corners as given, and valid. Otherwise the ordered box, valid exactly when the primitive's coordinate system is undefined or the mesh's. The dimension is set. |
| PrimMultiBox.Lo | src/CSPrimMultiBox.cpp:138-164 | The smaller of a box's two values along an axis. |
| PrimMultiBox.Hi | src/CSPrimMultiBox.cpp:138-164 | The larger of a box's two values along an axis. |
| PrimMultiBox.StageStep | src/CSPrimMultiBox.cpp:136-165 | Merging axis a of box i moves the partial bound box one axis on; after three axes it is the bound box of the first i + 1 boxes. |
| PrimMultiBox.BoundEnclosesBoxes | src/CSPrimMultiBox.cpp:134-166 | The merged bounds enclose every box along each axis and are attained by some box. |
| PrimMultiBox.BoundBoxOrdered | src/CSPrimMultiBox.cpp:129-175 | The bound box is ordered on every axis. |
| PrimMultiBox.InBoxBetween | src/CSPrimMultiBox.cpp:177-207 | A point is inside a box exactly when each coordinate lies between the box's smaller and larger value. |
| PrimMultiBox.InsideWithinBoundBox | src/CSPrimMultiBox.cpp:177-207 | A point inside any box lies inside the bound box. |
| PrimMultiBox.MultiBox.constructor | src/CSPrimMultiBox.cpp:42-46 | No coordinates, Cartesian mesh, undefined bound-box system, dimension 0. |
| PrimMultiBox.MultiBox.SetCoord | src/CSPrimMultiBox.cpp:54-58 | A valid index gets the value; any other index changes nothing. |
| PrimMultiBox.MultiBox.AddCoord | src/CSPrimMultiBox.cpp:66-69 | The value is appended. |
| PrimMultiBox.MultiBox.GetCoord | src/CSPrimMultiBox.cpp:98-103 | The coordinate at a valid index, 0 otherwise. |
| PrimMultiBox.MultiBox.GetQtyBoxes | src/CSPrimMultiBox.cpp:209 | The number of complete groups of six coordinates. |
| PrimMultiBox.MultiBox.ClearOverlap | src/CSPrimMultiBox.cpp:122-127 | Trailing coordinates that do not complete a box are dropped and the box count is kept. |
| PrimMultiBox.MultiBox.AddBox | src/CSPrimMultiBox.cpp:76-86 | After clearing the overlap, six coordinates are appended: a copy of the given box when it exists, zeros otherwise. The count grows by one. |
| PrimMultiBox.MultiBox.DeleteBox | src/CSPrimMultiBox.cpp:88-95 | A box that does not exist changes nothing; otherwise its six coordinates are removed. |
| PrimMultiBox.MultiBox.GetBoundBox | src/CSPrimMultiBox.cpp:129-175 | The six entries are BoundBox of the coordinates, ordered, with the dimension counted. The result is never accurate. |
| PrimMultiBox.MultiBox.MergeBox | src/CSPrimMultiBox.cpp:136-165 | Merging box i extends the bound box of the first i boxes to that of the first i + 1. |
| PrimMultiBox.MultiBox.MergeAxis | src/CSPrimMultiBox.cpp:138-164 | One axis of the bound box takes the merged bounds; the rest is unchanged. |
| PrimMultiBox.MultiBox.IsInside | src/CSPrimMultiBox.cpp:177-207 | True exactly when the point lies in some box. |
| PrimPolygon.QtyVertices | src/CSPrimPolygon.cpp:95 | The number of complete coordinate pairs. |
| PrimPolygon.ExtremesEnclose | src/CSPrimPolygon.cpp:118-128 | The minimum and maximum bound every vertex's coordinate and are attained by a vertex. |
| PrimPolygon.Place | src/CSPrimPolygon.cpp:129-135 | The normal axis is pinned at the elevation and the two in-plane axes take the extremes, in cyclic order. |
| PrimPolygon.PolygonBoundEncloses | src/CSPrimPolygon.cpp:118-135 | The polygon's bound box is ordered and encloses every vertex in the plane. |
| PrimPolygon.Crossing | src/CSPrimPolygon.cpp:186-197 | An edge contributes -1, 0 or 1 to the winding number, and non-zero only when it crosses the point's height. |
| PrimPolygon.WindingBeyondVertices | src/CSPrimPolygon.cpp:159-206 | With every vertex on one side of the point's height, the winding number is 0. |
| PrimPolygon.OutsideVerticalSpan | src/CSPrimPolygon.cpp:159-206 | A point above or below every vertex is on no edge and has winding number 0. |
| PrimPolygon.UnitSquareWinding | src/CSPrimPolygon.cpp:159-206 | The centre of a counter-clockwise unit square has winding number 1. |
| PrimPolygon.UnitSquareWindingClockwise | src/CSPrimPolygon.cpp:159-206 | Traversed clockwise, the winding number is -1. |
| PrimPolygon.UnitSquareOutside | src/CSPrimPolygon.cpp:159-206 | A point to the right of the square is on no edge and has winding number 0. |
| PrimPolygon.PlaceBounds | src/CSPrimPolygon.cpp:129-135 | The six assignments write Place. |
| PrimPolygon.Polygon.constructor | src/CSPrimPolygon.cpp:44-50 | No coordinates, normal direction 0, elevation 0, zero bound box not yet marked accurate. |
| PrimPolygon.Polygon.SetCoord | src/CSPrimPolygon.cpp:58-61 | A valid index gets the value; any other index changes nothing. |
| PrimPolygon.Polygon.AddCoord | src/CSPrimPolygon.cpp:68-71 | The value is appended. |
| PrimPolygon.Polygon.GetCoord | src/CSPrimPolygon.cpp:83-87 | The coordinate at a valid index, 0 otherwise. |
| PrimPolygon.Polygon.GetQtyCoords | src/CSPrimPolygon.cpp:95 | The number of complete coordinate pairs. |
| PrimPolygon.Polygon.SetNormDir | src/CSPrimPolygon.cpp:106 | A direction in 0..2 is stored; any other is ignored. |
| PrimPolygon.Polygon.GetBoundBox | src/CSPrimPolygon.cpp:108-143 | Fewer than two coordinates: a zero box and true, as the source returns its non-null box pointer as the result. Otherwise PolygonBound, not accurate, with the dimension counted. |
| PrimPolygon.Polygon.Update | src/CSPrimPolygon.cpp:244-245 | The bounding box that IsInside consults becomes PolygonBound of the current coordinates, with GetBoundBox's accuracy flag (a zero box for fewer than two coordinates). |
| PrimPolygon.Polygon.Extremes | src/CSPrimPolygon.cpp:118-128 | The loop finds the minimum and maximum of both in-plane coordinates. |
| PrimPolygon.Polygon.IsInside | src/CSPrimPolygon.cpp:145-207 | Inside exactly when the polygon has at least two coordinates, the point is within the bound box, and in the plane it is on an edge or has a non-zero winding number. |
| PrimPolygon.Polygon.WindingTest | src/CSPrimPolygon.cpp:159-206 | The edge loop decides inside exactly when the point is on some edge or the winding number is non-zero. |
| PropDumpBox.ToUnsigned | src/CSPropDumpBox.cpp:62 | The int to unsigned conversion: in range, the identity on valid values, and adds 2^32 to a negative 32-bit value. |
| PropDumpBox.MergeSampling | src/CSPropDumpBox.cpp:61-62 | Each of the first three axes the values cover takes its value when it is at least 1. |
| PropDumpBox.MergeResolution | src/CSPropDumpBox.cpp:95-96 | Each of the first three axes the values cover takes its value when it is not negative. |
| PropDumpBox.SpreadSingle | src/CSPropDumpBox.cpp:89-94 | A single value stands for all three axes. |
| PropDumpBox.MergeSamplingKeepsBounds | src/CSPropDumpBox.cpp:43-49 | Sub-sampling factors stay at least 1 and within 32 bits. |
| PropDumpBox.SingleResolutionAllAxes | src/CSPropDumpBox.cpp:89-94 | One non-negative resolution sets all three axes. |
| PropDumpBox.NegativeSamplingWraps | src/CSPropDumpBox.cpp:60-62 | A -1 in a sub-sampling string becomes the factor 2^32 - 1. |
| PropDumpBox.Map32 | src/CSPropDumpBox.cpp:60-62 | Every integer read converted to unsigned. |
| PropDumpBox.DumpBox.constructor | src/CSPropDumpBox.cpp:22-24 | A new dump box is initialised as by Init. |
| PropDumpBox.DumpBox.Init | src/CSPropDumpBox.cpp:27-41 | Types, mode and level 0, factors and resolutions 1, both flags cleared. |
| PropDumpBox.DumpBox.SetSubSamplingFlag | src/CSPropDumpBox.h:59 | The sub-sampling flag takes the given value; the three factors and the resolution flag are kept. |
| PropDumpBox.DumpBox.SetOptResolutionFlag | src/CSPropDumpBox.h:68 | The optimal-resolution flag takes the given value; the three resolutions and the sub-sampling flag are kept. |
| PropDumpBox.DumpBox.SetSubSampling | src/CSPropDumpBox.cpp:43-49 | A valid axis and a factor of at least 1 set that factor and the flag; otherwise nothing changes. |
| PropDumpBox.DumpBox.SetSubSamplingAll | src/CSPropDumpBox.cpp:51-55 | The three factors become MergeSampling of the array. |
| PropDumpBox.DumpBox.SetSubSamplingEach | src/CSPropDumpBox.cpp:53-54 | The loop over the first three values computes MergeSampling, and sets the flag exactly when some value is accepted. |
| PropDumpBox.DumpBox.SetSubSamplingText | src/CSPropDumpBox.cpp:57-63 | The factors become MergeSampling of the string's integers, converted to unsigned. |
| PropDumpBox.DumpBox.GetSubSampling | src/CSPropDumpBox.cpp:65-69 | The factor of a valid axis, 1 otherwise, and always at least 1. |
| PropDumpBox.DumpBox.SetOptResolution | src/CSPropDumpBox.cpp:71-77 | A valid axis and a non-negative value set that resolution and the flag; otherwise nothing changes. |
| PropDumpBox.DumpBox.SetOptResolutionEach | src/CSPropDumpBox.cpp:95-96 | The loop over the first three values computes MergeResolution. |
| PropDumpBox.DumpBox.SetOptResolutionAll | src/CSPropDumpBox.cpp:79-83 | The three resolutions become MergeResolution of the array. |
| PropDumpBox.DumpBox.SetOptResolutionText | src/CSPropDumpBox.cpp:85-97 | The resolutions become MergeResolution of the string's numbers, one number standing for all three axes. |
| PropDumpBox.DumpBox.GetOptResolution | src/CSPropDumpBox.cpp:99-103 | The resolution of a valid axis, 1 otherwise. |
| Transform.NameTypeRoundTrip | src/CSTransform.cpp:568-648 | Every operation's name reads back as the same operation with the same argument count. |
| Transform.TypeNameRoundTrip | src/CSTransform.cpp:568-648 | Every recognised name is the name of the operation it yields. |
| Transform.UnknownName | src/CSTransform.cpp:597-647 | The name given to an unknown operation is not recognised, so unknown operations and names agree. |
| Transform.GetNameByType | src/CSTransform.cpp:568-601 | Exactly the eight operation codes have a name other than "Unknown", and only "Unknown" has no arguments. |
| Transform.GetTypeByName | src/CSTransform.cpp:603-648 | A name gives an operation code from 0 to 7, or -1 exactly when it has no arguments. |
| Transform.ApplyIdentity | src/CSTransform.cpp:101-113 | The identity matrix maps every point to itself. |
| Transform.ApplyTranslation | src/CSTransform.cpp:164-171 | A translation matrix adds the translation vector. |
| Transform.ApplyScaling | src/CSTransform.cpp:365-379 | A scaling matrix multiplies coordinate by coordinate. |
| Transform.ApplyMatMul | src/CSTransform.cpp:458-476 | Applying a*b is applying b, then a, when b is affine: concatenation composes transforms. |
| Transform.AffineMatMul | src/CSTransform.cpp:458-476 | The product of affine matrices is affine. |
| Transform.Multiply | src/CSTransform.cpp:460-475 | The triple loop computes the matrix product. |
| Transform.CopyInto | src/CSTransform.cpp:474-482 | The sixteen entries of the matrix are overwritten with the product. |
| Transform.MakeUnitMatrix | src/CSTransform.cpp:691-702 | The matrix becomes the identity. |
| Transform.TranslateMatrix | src/CSTransform.cpp:164-171 | The matrix becomes the identity with the translation in the last column. |
| Transform.ScaleMatrix | src/CSTransform.cpp:365-371 | The matrix becomes a uniform scaling. |
| Transform.ScaleMatrix3 | src/CSTransform.cpp:373-379 | The matrix becomes a per-axis scaling. |
| Transform.CSTransform.constructor | src/CSTransform.cpp:30-34 | A new transform is the identity with no operations, post-multiplying, angles in radians. |
| Transform.CSTransform.Reset | src/CSTransform.cpp:66-74 | Back to the identity with no operations, post-multiplying, angles in radians. |
| Transform.CSTransform.HasTransform | src/CSTransform.cpp:76-79 | In a consistent transform: true exactly when some operation's arguments have been recorded. |
| Transform.CSTransform.TransformPoint | src/CSTransform.cpp:101-113 | The loop maps the point by the current matrix. |
| Transform.CSTransform.ApplyMatrix | src/CSTransform.cpp:458-485 | Concatenating gives m*T when post-multiplying and T*m otherwise, keeping the operation lists. Not concatenating replaces the matrix and clears the lists. |
| Transform.CSTransform.AppendList | src/CSTransform.cpp:673-689 | The operation and its arguments are appended in step. |
| Transform.CSTransform.Translate | src/CSTransform.cpp:173-182 | The translation is applied to the matrix as ApplyMatrix states and recorded with its three arguments. |
| Transform.CSTransform.ScaleUniform | src/CSTransform.cpp:381-390 | A uniform scaling is applied and recorded with its one argument. |
| Transform.CSTransform.ScalePerAxis | src/CSTransform.cpp:392-401 | A per-axis scaling is applied and recorded with its three arguments. |
| Transform.CSTransform.SetMatrix | src/CSTransform.cpp:129-133 | The matrix is applied and recorded with its sixteen arguments. |
| Transform.TranslateFromReset | src/CSTransform.cpp:173-182 | After a reset and one non-concatenated translation, every point moves by the translation vector. |
| SmoothMesh.UniqueProperties | python/CSXCAD/SmoothMeshLines.py:26-33 | Unique returns a strictly ascending list drawn from its input that keeps the input's largest value. |
| SmoothMesh.Unique | python/CSXCAD/SmoothMeshLines.py:26-33 | Unique never lengthens the list, and is empty exactly when its input is. |
| SmoothMesh.UniqueKeepsSpaced | python/CSXCAD/SmoothMeshLines.py:26-33 | A strictly ascending list whose gaps all reach the tolerance threshold comes back unchanged. |
| SmoothMesh.UniquePair | python/CSXCAD/SmoothMeshLines.py:26-33 | Two distinct lines survive at any tolerance up to 1. |
| SmoothMesh.UniqueWithin | python/CSXCAD/SmoothMeshLines.py:26-33 | The result lies within the bounds of the input. |
| SmoothMesh.DropCloseSorted | python/CSXCAD/SmoothMeshLines.py:28-31 | Deleting lines too close to their successor keeps a list strictly ascending. |
| SmoothMesh.MeshLinesSymmetric | python/CSXCAD/SmoothMeshLines.py:11-24 | The intended check: at zero tolerance it accepts only lists in which every mirrored pair has the middle value as its mean. |
| SmoothMesh.ExactSymmetryMirrors | python/CSXCAD/SmoothMeshLines.py:20-22 | Checking the first half of the pairs settles every pair, since the second half are the same pairs reversed. |
| SmoothMesh.MeshLinesSymmetricAsWritten | python/CSXCAD/SmoothMeshLines.py:11-24 | As written, an even-length list passes only when the mean of its two ends is within the tolerance of 0. |
| SmoothMesh.MirroredIsSymmetric | python/CSXCAD/SmoothMeshLines.py:11-24 | Lines mirrored about their middle pass the intended symmetry check at any non-negative tolerance. |
| SmoothMesh.SymmetricAsWrittenRejects | python/CSXCAD/SmoothMeshLines.py:21 | The lines 1, 2, 3, 4 are symmetric, yet the check as written rejects them. |
| SmoothMesh.SumsRamp | python/CSXCAD/SmoothMeshLines.py:57-70 | The partial geometric sums of a positive series start at 0 and rise strictly. |
| SmoothMesh.PartialSums | python/CSXCAD/SmoothMeshLines.py:64-70 | The loop produces the partial sums 0, a*q, a*q + a*q^2, and so on. |
| SmoothMesh.ExtendRamp | python/CSXCAD/SmoothMeshLines.py:72-74 | Appending positive steps to a rising list keeps it rising and ends c steps further. |
| SmoothMesh.FillToRange | python/CSXCAD/SmoothMeshLines.py:72-74 | Lines are appended maxRes apart until the last reaches the range; the one before stays below it. |
| SmoothMesh.AppendSteps | python/CSXCAD/SmoothMeshLines.py:118-119 | The loop appends exactly c lines a fixed step apart, keeping the list rising and ending c steps further. |
| SmoothMesh.TaperCount | python/CSXCAD/SmoothMeshLines.py:49-55 | The loop runs at least once and stops at the first count where the spacing reaches maxRes or the position reaches the range. |
| SmoothMesh.OneSideTaper | python/CSXCAD/SmoothMeshLines.py:48-76 | The tapered offsets start at 0, rise strictly and end exactly at the range. |
| SmoothMesh.ScaledRamp | python/CSXCAD/SmoothMeshLines.py:60 | Scaling a rising list by a positive factor keeps it rising; scaling by range / last makes it end at the range. |
| SmoothMesh.MirrorRamp | python/CSXCAD/SmoothMeshLines.py:84 | A rising list reflected about the stop lies below the stop and reaches it. |
| SmoothMesh.LinspaceProperties | python/CSXCAD/SmoothMeshLines.py:44-46 | The evenly divided gap rises strictly from start to stop. |
| SmoothMesh.LinspaceGaps | python/CSXCAD/SmoothMeshLines.py:44-46 | Every step of the even division is the range divided by the count. |
| SmoothMesh.CeilGap | python/CSXCAD/SmoothMeshLines.py:45 | With ceil(range / maxRes) steps, no step exceeds maxRes. |
| SmoothMesh.CombineProperties | python/CSXCAD/SmoothMeshLines.py:121-123 | The two sides combined rise strictly, lie within the gap and end at its stop. |
| SmoothMesh.TaperLength | python/CSXCAD/SmoothMeshLines.py:87-93 | The loop stops at the first count where the spacing reaches maxRes, and runs at least once exactly when it starts below. |
| SmoothMesh.Alternate | python/CSXCAD/SmoothMeshLines.py:125-134 | The alternating loop ends with both sides rising, covering the range together, and each side the partial sums of its own series. |
| SmoothMesh.AlternateRound | python/CSXCAD/SmoothMeshLines.py:127-133 | One round grows the finer side by one line of its own series, adding at least the smaller start spacing. |
| SmoothMesh.AlternateRoundAsWritten | python/CSXCAD/SmoothMeshLines.py:127-133 | As written, when the stop side grows, its new line is placed at the start side's spacing. |
| SmoothMesh.AlternateAsWrittenMismatch | python/CSXCAD/SmoothMeshLines.py:133 | From spacings 1 and 1 with ratio 2, the round as written gives the stop side a line at 1, where its series asks for 2. |
| SmoothMesh.AlternateAsWritten | python/CSXCAD/SmoothMeshLines.py:125-137 | The alternating loop as written ends with both sides rising and together covering the range. The start side is the partial sums of its own series, and every step of the stop side is one of the start side's spacings. |
| SmoothMesh.AsWrittenRoundStep | python/CSXCAD/SmoothMeshLines.py:127-133 | One round as written keeps those two facts and covers at least the start spacing more, so the loop ends. |
| SmoothMesh.TwoSided | python/CSXCAD/SmoothMeshLines.py:86-137 | The lines tapered from both ends rise strictly, lie within the gap and end at its stop. The alternating branch runs the loop as written (AlternateAsWritten). |
| SmoothMesh.SmoothRange | python/CSXCAD/SmoothMeshLines.py:35-137 | The lines filling a gap rise strictly; for a proper gap they lie within it and end at the stop. A very small gap gets just its ends. Between two coarse neighbours the gap is divided evenly into ceil(range / maxRes) steps, none above maxRes. |
| SmoothMesh.PickGap | python/CSXCAD/SmoothMeshLines.py:146-147 | The chosen gap is the first of the narrowest gaps wider than maxRes. |
| SmoothMesh.MergeRefined | python/CSXCAD/SmoothMeshLines.py:160-161 | Adding lines from within the bounds and merging keeps the lines sorted, within the input's bounds and ending at its largest value. |
| SmoothMesh.UniqueRefined | python/CSXCAD/SmoothMeshLines.py:161 | Dropping lines that are too close keeps refined lines sorted, within the bounds and ending at the input's largest value. |
| SmoothMesh.SmoothMeshLines | python/CSXCAD/SmoothMeshLines.py:140-167 | The refined lines rise strictly, lie within the bounds of the input and keep its largest value; an empty input gives an empty result. |

## Left out

- Reading and writing XML (`ReadFromXML`, `Write2XML`), printing, and every `PrintSelf`: file and stream I/O.
- Expression evaluation (`ParameterScalar::Evaluate`, the function parser): `SetValueText` stores the text without evaluating it. Reading a plain number (`strtod`, `String2Double`) is a caller-supplied `parse` function. Formatting a number (`CombineVector2String`) is a caller-supplied `format` function.
- Coordinate-system conversions: cylindrical coordinates in `CoordInRange`, the inverse matrix and `Invert`, rotation matrices (`RotateOrigin`, `RotateXYZ`), and transforms given as strings. They need trigonometry and a 4x4 inverse computed by VTK, which is not part of this model.
- Primitive transforms applied to points before the inside tests: `IsInside` works on coordinates already in the primitive's frame.
- Null references passed where the source checks for them are modelled only where the source has an explicit branch (`AddProperty`, `HasPrimitive`, `GetIndex`, `DeleteParameter`).
- `GetAllPrimitives`: the final sort by priority is left out; the primitives come in property order.
- `ReplaceProperty`, `RemoveProperty`, `DeletePrimitive`, `GetQtyPrimitives`, `GetPrimitiveByID`, `GetPropertiesByName` and the other structure look-ups not used by the modelled operations.
- ParameterObjects.ParameterSet.constructor: the model starts the sweep position at 0. The source's constructor sets only the modified flag and leaves the position unset until `ParameterSet::InitSweep` (src/ParameterObjects.cpp:379-387) sets it to 0; a sweep begun without `InitSweep` reads an indeterminate position there.
- ParameterObjects.ParameterSet.InitSweep: the `Save` of each sweeping parameter before it restarts is not modelled (see the next line).
- `ParameterSet`: `Save`/`Restore`/`EndSweep`, the modified flags, and copying parameters (`Clone`, `InsertParameter`) are not modelled. A parameter's lifetime (deletion in `clear`) is not modelled either.
- ParameterObjects.Parameter.CountSteps: a linear parameter with step 0 counts 1 step. The source divides by zero there (ParameterObjects.h:117), and its result is undefined.
- `CSPrimPolygon::RemoveCoords` is not modelled: its body is empty. Of `CSPrimPolygon::Update`, only the refresh of the cached bounding box is modelled (`PrimPolygon.Polygon.Update`). Evaluating the coordinate and elevation expressions and reporting their errors depend on the expression evaluation left out above.
- Properties.Property.FindWinner and Properties.Property.CheckCoordInPrimitive: each primitive's own inside test (its `IsInside`, including its transform) is a caller-supplied `isInside` function. The box, multi-box and polygon tests are modelled on their own.
- SmoothMesh.SmoothMeshLines: the refinement loop is bounded by a `fuel` parameter. The contract states what every round preserves, not that the loop ends with every gap at most maxRes; the source does not promise that either, since it stops when a round adds no line.
- SmoothMesh.SmoothRange: requires positive spacings and a ratio above 1, as the source's `assert ratio>1` and its callers ensure. A gap with stop below start is reached by no caller; the model states only that such a result is strictly ascending.
- SmoothMesh.TwoSided: the alternating branch follows SmoothMeshLines.py:133 as written, so the stop side is only known to step by start-side spacings, not to follow its own series. The intended loop is SmoothMesh.Alternate, proved separately (see Findings).
- SmoothMesh: the exponential and logarithm that choose the taper ratio `e^((log maxRes - log res) / N)` are a caller-supplied positive function `root`. `np.sort` of the mirrored taper is `SortUnique`. Floating-point rounding is not modelled.
- Properties.Property.SetCoordInputType: each primitive's `SetCoordInputType` runs that primitive's `Update` by default (src/CSPrimitives.h:171). For a box, multi-box or polygon this recomputes the cached bound box, its validity flag and its coordinate system. The generic primitive of this model has no shape to dispatch on, so that refresh is not modelled: the cache is left as it was, and `IsInsideBox` may answer 0 where the source answers 1 or -1.
- ContinuousStructure.Structure.AddProperty: copies the mesh type down through `SetCoordInputType`, so the same per-primitive `Update` (the cache refresh of boxes, multi-boxes and polygons) is not modelled here either.
- SmoothMesh.SmoothRange: in the evenly divided case the source passes the float `N = np.ceil(...)` as the count to `np.linspace` (python/CSXCAD/SmoothMeshLines.py:45-46), which numpy 1.18 and later reject with a TypeError; the model divides into the evidently intended integer number of steps, as the same file does with `int(np.ceil(...))` at line 116.
- SmoothMesh.MeshLinesSymmetric: the middle index uses integer division. In Python 3, `(N-1)/2` is a float and indexing with it raises an error, so as written the check fails on every odd-length list.
- The `CSProperties` material, excitation and probe sub-classes other than the dump box, and the fill and edge colours and visibility of properties, are outside this model.

## Findings

| source | as written | input that shows it | evidently intended | confidence | as-written member | corrected member |
|---|---|---|---|---|---|---|
| src/CSRectGrid.cpp:220 | The guard `(factor<=1) && (factor>9)` can never hold, so every factor refines the lines. | factor 10 on lines {0, 1}: a line appears at 0.1. | Return early when `factor<=1 \|\| factor>9`. | high, not executed | RectGrid.IncreaseResolutionAsWritten (shown by RectGrid.IncreaseResolutionFactorTen) | RectGrid.IncreaseResolutionSpec (used by RectGrid.Grid.IncreaseResolution) |
| python/CSXCAD/SmoothMeshLines.py:21 | Compares the middle value with the SUM of each mirrored pair of lines. | [1, 2, 3, 4]: middle 2.5, pair sum 5, so it is rejected although symmetric. | Compare with the mean of the pair, `0.5*(l[n]+l[N-n-1])`. | high, not executed | SmoothMesh.MeshLinesSymmetricAsWritten (shown by SmoothMesh.SymmetricAsWrittenRejects) | SmoothMesh.MeshLinesSymmetric (with SmoothMesh.MirroredIsSymmetric) |
| python/CSXCAD/SmoothMeshLines.py:133 | When the stop side grows, its spacing is multiplied but the appended line uses `start_res`. | start spacing 1, stop spacing 1, ratio 2: the stop side gets a line at 1 where its series gives 2. | `r.append(r[-1]+stop_res)`. | medium, not executed | SmoothMesh.AlternateRoundAsWritten, run by SmoothMesh.AlternateAsWritten in SmoothMesh.TwoSided (shown by SmoothMesh.AlternateAsWrittenMismatch) | SmoothMesh.AlternateRound (run by SmoothMesh.Alternate, with both sides proved to be their own series) |

=== FILE: background_material.dfy ===
// The background medium of a structure: relative permittivity and
// permeability (never below 1) and electric / magnetic conductivity (never
// negative). Every setter rejects an out-of-range value and keeps the old one.
module BackgroundMaterial {

  class Background {
    var epsR: real
    var mueR: real
    var kappa: real
    var sigma: real

    /** The physical lower bounds every setter guards. */
    ghost predicate Valid()
      reads this
    {
      epsR >= 1.0 && mueR >= 1.0 && kappa >= 0.0 && sigma >= 0.0
    }

    /** The constructor runs Reset. */
    constructor ()
      ensures Valid()
      ensures epsR == 1.0 && mueR == 1.0 && kappa == 0.0 && sigma == 0.0
    {
      epsR, mueR, kappa, sigma := 1.0, 1.0, 0.0, 0.0;
    }

    /** Vacuum: eps = mue = 1, no conductivity. */
    method Reset()
      modifies this
      ensures Valid()
      ensures epsR == 1.0 && mueR == 1.0 && kappa == 0.0 && sigma == 0.0
    {
      SetEpsilon(1.0);
      SetMue(1.0);
      SetKappa(0.0);
      SetSigma(0.0);
    }

    method SetEpsilon(val: real)
      modifies this`epsR
      ensures epsR == if val < 1.0 then old(epsR) else val
      ensures old(Valid()) ==> Valid()
    {
      if val < 1.0 {
        return;
      }
      epsR := val;
    }

    method SetMue(val: real)
      modifies this`mueR
      ensures mueR == if val < 1.0 then old(mueR) else val
      ensures old(Valid()) ==> Valid()
    {
      if val < 1.0 {
        return;
      }
      mueR := val;
    }

    method SetKappa(val: real)
      modifies this`kappa
      ensures kappa == if val < 0.0 then old(kappa) else val
      ensures old(Valid()) ==> Valid()
    {
      if val < 0.0 {
        return;
      }
      kappa := val;
    }

    method SetSigma(val: real)
      modifies this`sigma
      ensures sigma == if val < 0.0 then old(sigma) else val
      ensures old(Valid()) ==> Valid()
    {
      if val < 0.0 {
        return;
      }
      sigma := val;
    }
  }
}

=== FILE: bound_box.dfy ===
/**
 * Bounding boxes as the primitives hand them out: six reals, the lower and
 * upper bound of axis n at positions 2*n and 2*n+1.
 */
module BoundBoxes {

  /** Axes among the first `n` along which the box has extent. */
  function AxesUpTo(bb: seq<real>, n: nat): (d: nat)
    requires |bb| == 6 && n <= 3
    ensures d <= n
  {
    if n == 0 then 0
    else AxesUpTo(bb, n - 1) + (if bb[2 * (n - 1)] != bb[2 * (n - 1) + 1] then 1 else 0)
  }

  /** The dimension of a box: how many of its three axes have differing bounds. */
  function Dimension(bb: seq<real>): (d: nat)
    requires |bb| == 6
    ensures d <= 3
    ensures d == 0 <==> bb[0] == bb[1] && bb[2] == bb[3] && bb[4] == bb[5]
    ensures d == 3 <==> bb[0] != bb[1] && bb[2] != bb[3] && bb[4] != bb[5]
  {
    assert AxesUpTo(bb, 1) == if bb[0] != bb[1] then 1 else 0;
    assert AxesUpTo(bb, 2) == AxesUpTo(bb, 1) + if bb[2] != bb[3] then 1 else 0;
    AxesUpTo(bb, 3)
  }

  /** The dimension axis by axis. */
  lemma DimensionSum(bb: seq<real>)
    requires |bb| == 6
    ensures Dimension(bb) == (if bb[0] != bb[1] then 1 else 0) + (if bb[2] != bb[3] then 1 else 0) + (if bb[4] != bb[5] then 1 else 0)
  {
    assert AxesUpTo(bb, 1) == if bb[0] != bb[1] then 1 else 0;
    assert AxesUpTo(bb, 2) == AxesUpTo(bb, 1) + if bb[2] != bb[3] then 1 else 0;
  }

  /** Every axis has its lower bound at or below its upper bound. */
  predicate Ordered(bb: seq<real>)
    requires |bb| == 6
  {
    bb[0] <= bb[1] && bb[2] <= bb[3] && bb[4] <= bb[5]
  }

  /** Sets all six bounds to zero. */
  method ZeroFill(bb: array<real>)
    requires bb.Length == 6
    modifies bb
    ensures bb[..] == [0.0, 0.0, 0.0, 0.0, 0.0, 0.0]
  {
    var i := 0;
    while i < 6
      invariant 0 <= i <= 6
      invariant forall m :: 0 <= m < i ==> bb[m] == 0.0
    {
      bb[i] := 0.0;
      i := i + 1;
    }
    assert bb[..] == [0.0, 0.0, 0.0, 0.0, 0.0, 0.0];
  }

  /** The closing loop every GetBoundBox shares: counts the axes whose bounds differ. */
  method CountDimension(bb: array<real>) returns (d: int)
    requires bb.Length == 6
    ensures d == Dimension(bb[..])
  {
    d := 0;
    var n := 0;
    while n < 3
      invariant 0 <= n <= 3
      invariant d == AxesUpTo(bb[..], n)
    {
      if bb[2 * n] != bb[2 * n + 1] {
        d := d + 1;
      }
      n := n + 1;
    }
  }
}

=== FILE: continuous_structure.dfy ===
// The container of a CSXCAD model: the list of properties (each owning its
// primitives), the rectilinear grid, the background material and the
// counters and settings the container keeps for them.
module ContinuousStructure {
  import opened Useful
  import opened Lists
  import opened Coordinates
  import opened SortedLines
  import opened Properties
  import RectGrid
  import BackgroundMaterial

  /** Unique IDs are `unsigned int`: the counter wraps modulo 2^32. */
  const UIntRange: nat := 0x1_0000_0000

  /** The value the unique-ID counter takes after a post-increment. */
  function NextID(c: nat): (r: nat)
    requires c < UIntRange
    ensures r < UIntRange
    ensures c + 1 < UIntRange ==> r > c
    ensures c + 1 == UIntRange ==> r == 0
  {
    (c + 1) % UIntRange
  }

  // ------------------------------------------------------------ type masks

  /** Whether the type of `p` shares a bit with `mask`. */
  predicate HasType(p: Property, mask: bv32)
    reads p
  {
    p.propType & mask != 0
  }

  /** The properties whose type shares a bit with `mask`, in list order. */
  function OfType(ps: seq<Property>, mask: bv32): (r: seq<Property>)
    reads ps
    ensures |r| <= |ps|
  {
    if ps == [] then []
    else
      var last := ps[|ps| - 1];
      OfType(ps[..|ps| - 1], mask) + (if HasType(last, mask) then [last] else [])
  }

  /** Filtering by type distributes over concatenation, so the filter keeps list order. */
  lemma {:induction false} OfTypeAppend(a: seq<Property>, b: seq<Property>, mask: bv32)
    ensures OfType(a + b, mask) == OfType(a, mask) + OfType(b, mask)
    decreases |b|
  {
    if b == [] {
      assert a + b == a;
    } else {
      var n := |b| - 1;
      assert (a + b)[..|a + b| - 1] == a + b[..n];
      OfTypeAppend(a, b[..n], mask);
    }
  }

  /** All primitives of a list of properties, property by property. */
  function AllPrimitives(ps: seq<Property>): (r: seq<Primitive>)
    reads ps
  {
    if ps == [] then []
    else AllPrimitives(ps[..|ps| - 1]) + ps[|ps| - 1].primitives
  }

  /** The filter keeps exactly the properties whose type shares a bit with `mask`. */
  lemma {:induction false} OfTypeMembers(ps: seq<Property>, mask: bv32)
    ensures forall p :: p in OfType(ps, mask) ==> p in ps && HasType(p, mask)
    ensures forall k :: 0 <= k < |ps| && HasType(ps[k], mask) ==> ps[k] in OfType(ps, mask)
    decreases |ps|
  {
    if ps != [] {
      var n := |ps| - 1;
      OfTypeMembers(ps[..n], mask);
      forall k | 0 <= k < |ps| && HasType(ps[k], mask)
        ensures ps[k] in OfType(ps, mask)
      {
        if k < n {
          assert ps[..n][k] == ps[k];
        }
      }
    }
  }

  /** The primitives of every property are among all primitives, and nothing else is. */
  lemma {:induction false} AllPrimitivesMembers(ps: seq<Property>)
    ensures forall k, q :: 0 <= k < |ps| && q in ps[k].primitives ==> q in AllPrimitives(ps)
    ensures forall q :: q in AllPrimitives(ps) ==> exists k :: 0 <= k < |ps| && q in ps[k].primitives
    decreases |ps|
  {
    if ps != [] {
      var n := |ps| - 1;
      AllPrimitivesMembers(ps[..n]);
      forall k, q | 0 <= k < |ps| && q in ps[k].primitives
        ensures q in AllPrimitives(ps)
      {
        if k < n {
          assert ps[..n][k] == ps[k];
        }
      }
      forall q | q in AllPrimitives(ps)
        ensures exists k :: 0 <= k < |ps| && q in ps[k].primitives
      {
        if q in AllPrimitives(ps[..n]) {
          var k :| 0 <= k < n && q in ps[..n][k].primitives;
          assert ps[k] == ps[..n][k];
        }
      }
    }
  }

  lemma OfTypeStep(ps: seq<Property>, i: nat, mask: bv32)
    requires i < |ps|
    ensures OfType(ps[..i + 1], mask) == OfType(ps[..i], mask) + (if HasType(ps[i], mask) then [ps[i]] else [])
  {
    assert ps[..i + 1][..i] == ps[..i];
  }

  lemma AllPrimitivesStep(ps: seq<Property>, i: nat)
    requires i < |ps|
    ensures AllPrimitives(ps[..i + 1]) == AllPrimitives(ps[..i]) + ps[i].primitives
  {
    assert ps[..i + 1][..i] == ps[..i];
  }

  // ------------------------------------------------------------ grid edges

  /** A bounding box `[xmin, xmax, ymin, ymax, zmin, zmax]`. */
  type Box6 = s: seq<real> | |s| == 6 witness [0.0, 0.0, 0.0, 0.0, 0.0, 0.0]

  /**
   * The lines InsertEdges2Grid adds for direction `nu`: both ends of every
   * primitive whose bounding box is reported accurate. `bounds` stands for
   * each primitive's own GetBoundBox.
   */
  function Edges(prims: seq<Primitive>, nu: nat, bounds: Primitive -> (bool, Box6)): (r: seq<real>)
    requires nu < 3
  {
    if prims == [] then []
    else
      var b := bounds(prims[|prims| - 1]);
      Edges(prims[..|prims| - 1], nu, bounds) + (if b.0 then [b.1[2 * nu], b.1[2 * nu + 1]] else [])
  }

  /** Both ends of every accurately bounded primitive are among the edges, and nothing else is. */
  lemma {:induction false} EdgesCover(prims: seq<Primitive>, nu: nat, bounds: Primitive -> (bool, Box6))
    requires nu < 3
    ensures forall q :: q in prims && bounds(q).0 ==>
              bounds(q).1[2 * nu] in Edges(prims, nu, bounds) && bounds(q).1[2 * nu + 1] in Edges(prims, nu, bounds)
    ensures forall x :: x in Edges(prims, nu, bounds) ==>
              exists q :: q in prims && bounds(q).0 && (x == bounds(q).1[2 * nu] || x == bounds(q).1[2 * nu + 1])
    decreases |prims|
  {
    if prims != [] {
      var n := |prims| - 1;
      EdgesCover(prims[..n], nu, bounds);
      forall q | q in prims && bounds(q).0
        ensures bounds(q).1[2 * nu] in Edges(prims, nu, bounds) && bounds(q).1[2 * nu + 1] in Edges(prims, nu, bounds)
      {
        if q != prims[n] {
          var k :| 0 <= k < |prims| && prims[k] == q;
          assert prims[..n][k] == q;
        }
      }
      forall x | x in Edges(prims, nu, bounds)
        ensures exists q :: q in prims && bounds(q).0 && (x == bounds(q).1[2 * nu] || x == bounds(q).1[2 * nu + 1])
      {
        if x in Edges(prims[..n], nu, bounds) {
          var q :| q in prims[..n] && bounds(q).0 && (x == bounds(q).1[2 * nu] || x == bounds(q).1[2 * nu + 1]);
          var k :| 0 <= k < n && prims[..n][k] == q;
          assert prims[k] == q;
        } else {
          assert prims[n] in prims;
        }
      }
    }
  }

  /**
   * After InsertEdges2Grid the direction is strictly ascending, keeps every
   * line it had, and holds both ends of every accurately bounded primitive.
   */
  lemma InsertedEdgesOnGrid(lines: seq<real>, prims: seq<Primitive>, nu: nat, bounds: Primitive -> (bool, Box6))
    requires nu < 3
    ensures var r := SortUnique(lines + Edges(prims, nu, bounds));
            StrictlySorted(r)
            && Elems(lines) <= Elems(r)
            && forall q :: q in prims && bounds(q).0 ==> bounds(q).1[2 * nu] in r && bounds(q).1[2 * nu + 1] in r
  {
    var e := Edges(prims, nu, bounds);
    EdgesCover(prims, nu, bounds);
    var r := SortUnique(lines + e);
    assert Elems(lines + e) == Elems(lines) + Elems(e);
    forall q | q in prims && bounds(q).0
      ensures bounds(q).1[2 * nu] in r && bounds(q).1[2 * nu + 1] in r
    {
      assert bounds(q).1[2 * nu] in Elems(e) && bounds(q).1[2 * nu + 1] in Elems(e);
    }
  }

  /** Writing one slot twice keeps only the second write. */
  lemma SeqUpdateTwice<T>(s: seq<T>, i: nat, x: T, y: T)
    requires i < |s|
    ensures s[i := x][i := y] == s[i := y]
  {
  }

  // ------------------------------------------------------------ coordinate priority

  /** Whether a property takes part in a search restricted to `mask`. */
  predicate Selected(p: Property, mask: bv32)
    reads p
  {
    mask == AnyType || HasType(p, mask)
  }

  /** The primitive a selected property reports for the point (its own priority winner); null otherwise. */
  function LocalPrimitive(p: Property, mask: bv32, isInside: Primitive -> bool): (q: Primitive?)
    reads p, p.primitives
    ensures q != null ==> q in p.primitives
  {
    if !Selected(p, mask) then null
    else
      var b := Best(Priorities(p.primitives), Hits(p.primitives, isInside));
      if b.Some? then p.primitives[b.value] else null
  }

  /** Every primitive owned by some property of the list. */
  function PrimsOf(ps: seq<Property>): (r: set<Primitive>)
    reads ps
    ensures forall k, q :: 0 <= k < |ps| && q in ps[k].primitives ==> q in r
  {
    if ps == [] then {}
    else PrimsOf(ps[..|ps| - 1]) + SetOf(ps[|ps| - 1].primitives)
  }

  /** What each property reports for the point, in list order (null: nothing). */
  function LocalPrimitives(ps: seq<Property>, mask: bv32, isInside: Primitive -> bool): (r: seq<Primitive?>)
    reads ps, PrimsOf(ps)
    ensures |r| == |ps|
  {
    if ps == [] then []
    else
      var n := |ps| - 1;
      assert PrimsOf(ps) == PrimsOf(ps[..n]) + SetOf(ps[n].primitives);
      LocalPrimitives(ps[..n], mask, isInside) + [LocalPrimitive(ps[n], mask, isInside)]
  }

  /** The priority a property reports for the point: its local winner's, 0 when it reports nothing. */
  function LocalPriority(p: Property, mask: bv32, isInside: Primitive -> bool): int
    reads p, p.primitives
  {
    var q := LocalPrimitive(p, mask, isInside);
    if q != null then q.priority else 0
  }

  /** The priority each property reports for the point, in list order. */
  function LocalPriorities(ps: seq<Property>, mask: bv32, isInside: Primitive -> bool): (r: seq<int>)
    reads ps, PrimsOf(ps)
    ensures |r| == |ps|
  {
    if ps == [] then []
    else
      var n := |ps| - 1;
      assert PrimsOf(ps) == PrimsOf(ps[..n]) + SetOf(ps[n].primitives);
      LocalPriorities(ps[..n], mask, isInside) + [LocalPriority(ps[n], mask, isInside)]
  }

  /** Entry `k` of the report lists is what property `k` reports on its own. */
  lemma {:induction false} LocalAt(ps: seq<Property>, mask: bv32, isInside: Primitive -> bool, k: nat)
    requires k < |ps|
    ensures LocalPrimitives(ps, mask, isInside)[k] == LocalPrimitive(ps[k], mask, isInside)
    ensures LocalPriorities(ps, mask, isInside)[k] == LocalPriority(ps[k], mask, isInside)
    decreases |ps|
  {
    var n := |ps| - 1;
    if k < n {
      LocalAt(ps[..n], mask, isInside, k);
    }
  }

  /** Whether each candidate is a reported primitive. */
  function Found(cands: seq<Primitive?>): (r: seq<bool>)
    ensures |r| == |cands|
  {
    if cands == [] then [] else Found(cands[..|cands| - 1]) + [cands[|cands| - 1] != null]
  }

  /** Entry `k` of the hits says whether candidate `k` is a primitive. */
  lemma {:induction false} FoundAt(cands: seq<Primitive?>, k: nat)
    requires k < |cands|
    ensures Found(cands)[k] == (cands[k] != null)
    decreases |cands|
  {
    if k < |cands| - 1 {
      FoundAt(cands[..|cands| - 1], k);
    }
  }

  /** The reported primitives are exactly the candidates that are primitives. */
  lemma {:induction false} NonNullMember(cands: seq<Primitive?>, q: Primitive)
    ensures q in NonNull(cands) <==> q in cands
    decreases |cands|
  {
    if cands != [] {
      var n := |cands| - 1;
      NonNullMember(cands[..n], q);
      assert cands == cands[..n] + [cands[n]];
    }
  }

  /** One more candidate extends the reported list by itself, if it is one. */
  lemma NonNullStep(cands: seq<Primitive?>, i: nat)
    requires i < |cands|
    ensures NonNull(cands[..i + 1]) == NonNull(cands[..i]) + if cands[i] != null then [cands[i]] else []
  {
    assert cands[..i + 1][..i] == cands[..i];
  }

  /** The reported primitives, in order, without the gaps. */
  function NonNull(cands: seq<Primitive?>): (r: seq<Primitive>)
    ensures |r| <= |cands|
  {
    if cands == [] then []
    else
      var n := |cands| - 1;
      NonNull(cands[..n]) + (if cands[n] != null then [cands[n]] else [])
  }

  // ------------------------------------------------------------ the structure

  class Structure {
    var properties: seq<Property>
    var uniqueIDCounter: nat
    var drawingTol: real
    var meshType: CoordinateSystem
    var grid: RectGrid.Grid
    var background: BackgroundMaterial.Background

    ghost predicate Valid()
      reads this, grid
    {
      grid.Valid() && uniqueIDCounter < UIntRange
    }

    /** An empty structure: no properties, counter 0, no tolerance, Cartesian, empty grid. */
    constructor ()
      ensures Valid() && fresh(grid) && fresh(background)
      ensures properties == [] && uniqueIDCounter == 0 && drawingTol == 0.0 && meshType == Cartesian
      ensures grid.lines == [[], [], []]
    {
      properties := [];
      uniqueIDCounter := 0;
      drawingTol := 0.0;
      meshType := Cartesian;
      grid := new RectGrid.Grid();
      background := new BackgroundMaterial.Background();
    }

    /** Gives every property its position in the list as ID; a property listed twice keeps its last position. */
    method UpdateIDs()
      modifies properties`id
      ensures forall k :: 0 <= k < |properties| ==> properties[k].id == LastIndexOf(properties, properties[k])
    {
      var i := 0;
      while i < |properties|
        invariant 0 <= i <= |properties|
        invariant forall k :: 0 <= k < i ==> properties[k].id == LastIndexOf(properties[..i], properties[k])
      {
        var p := properties[i];
        p.id := i;
        forall k | 0 <= k < i + 1
          ensures properties[k].id == LastIndexOf(properties[..i + 1], properties[k])
        {
          assert properties[..i + 1][..i] == properties[..i];
          if properties[k] != p {
            assert properties[..i][k] == properties[k];
          }
        }
        i := i + 1;
      }
      assert properties[..i] == properties;
    }

    /**
     * Appends `prop` (null is ignored): it takes the structure's mesh type,
     * down to its primitives, draws the next unique ID, and IDs are
     * renumbered.
     */
    method AddProperty(prop: Property?)
      requires Valid()
      modifies this`properties, this`uniqueIDCounter, properties`id, Owners(prop, null)`id,
               Owners(prop, null)`coordInputType, Owners(prop, null)`uniqueID,
               (if prop == null then [] else prop.primitives)`meshType
      ensures Valid()
      ensures prop == null ==> properties == old(properties) && uniqueIDCounter == old(uniqueIDCounter)
      ensures prop != null ==>
                properties == old(properties) + [prop]
                && prop.uniqueID == old(uniqueIDCounter)
                && uniqueIDCounter == NextID(old(uniqueIDCounter))
                && prop.coordInputType == meshType
                && prop.primitives == old(prop.primitives)
                && (forall q :: q in prop.primitives ==> q.meshType == meshType)
                && forall k :: 0 <= k < |properties| ==> properties[k].id == LastIndexOf(properties, properties[k])
    {
      if prop == null {
        return;
      }
      prop.SetCoordInputType(meshType, true);
      properties := properties + [prop];
      prop.uniqueID := uniqueIDCounter;
      uniqueIDCounter := NextID(uniqueIDCounter);
      UpdateIDs();
    }

    /** The position of `prop` in the list; -1 for null or an unlisted property. */
    method GetIndex(prop: Property?) returns (index: int)
      ensures index == -1 <==> prop == null || prop !in properties
      ensures index != -1 ==> prop != null && index == IndexOf(properties, prop)
    {
      if prop == null {
        return -1;
      }
      var i := 0;
      while i < |properties|
        invariant 0 <= i <= |properties|
        invariant forall j :: 0 <= j < i ==> properties[j] != prop
      {
        if properties[i] == prop {
          return i;
        }
        i := i + 1;
      }
      return -1;
    }

    /** Erases the property at `index` and renumbers; an index out of range changes nothing. */
    method DeleteProperty(index: nat)
      modifies this`properties, properties`id
      ensures index >= |old(properties)| ==> properties == old(properties)
      ensures index < |old(properties)| ==>
                properties == RemoveAt(old(properties), index)
                && forall k :: 0 <= k < |properties| ==> properties[k].id == LastIndexOf(properties, properties[k])
    {
      if index >= |properties| {
        return;
      }
      properties := RemoveAt(properties, index);
      UpdateIDs();
    }

    /** How many properties have a type sharing a bit with `mask`. */
    method GetQtyPropertyType(mask: bv32) returns (count: nat)
      ensures count == |OfType(properties, mask)|
    {
      count := 0;
      var i := 0;
      while i < |properties|
        invariant 0 <= i <= |properties|
        invariant count == |OfType(properties[..i], mask)|
      {
        OfTypeStep(properties, i, mask);
        if HasType(properties[i], mask) {
          count := count + 1;
        }
        i := i + 1;
      }
      assert properties[..i] == properties;
    }

    /** The properties whose type shares a bit with `mask`, in list order. */
    method GetPropertyByType(mask: bv32) returns (found: seq<Property>)
      ensures found == OfType(properties, mask)
    {
      found := [];
      var i := 0;
      while i < |properties|
        invariant 0 <= i <= |properties|
        invariant found == OfType(properties[..i], mask)
      {
        OfTypeStep(properties, i, mask);
        if HasType(properties[i], mask) {
          found := found + [properties[i]];
        }
        i := i + 1;
      }
      assert properties[..i] == properties;
    }

    /** The primitives of the properties matching `mask`, property by property (unsorted). */
    method GetAllPrimitives(mask: bv32) returns (prims: seq<Primitive>)
      ensures prims == AllPrimitives(OfType(properties, mask))
    {
      var props := GetPropertyByType(mask);
      prims := [];
      var i := 0;
      while i < |props|
        invariant 0 <= i <= |props|
        invariant prims == AllPrimitives(props[..i])
      {
        AllPrimitivesStep(props, i);
        prims := prims + props[i].primitives;
        i := i + 1;
      }
      assert props[..i] == props;
    }

    /**
     * Adds both ends, in direction `nu`, of every accurately bounded
     * primitive to the grid and sorts that direction; false, with the grid
     * unchanged, when `nu` is not a direction.
     */
    method InsertEdges2Grid(nu: int, bounds: Primitive -> (bool, Box6)) returns (ok: bool)
      requires Valid()
      modifies grid`lines
      ensures Valid()
      ensures ok <==> 0 <= nu < 3
      ensures !ok ==> grid.lines == old(grid.lines)
      ensures ok ==> grid.lines == old(grid.lines)[nu := SortUnique(old(grid.lines)[nu]
                                     + Edges(old(AllPrimitives(OfType(properties, AnyType))), nu, bounds))]
    {
      if nu < 0 || nu > 2 {
        return false;
      }
      var prims := GetAllPrimitives(AnyType);
      assert prims == old(AllPrimitives(OfType(properties, AnyType)));
      AddEdges(grid, prims, nu, bounds);
      ghost var filled := grid.lines;
      assert filled[nu] == old(grid.lines)[nu] + Edges(prims, nu, bounds);
      grid.Sort(nu);
      SeqUpdateTwice(old(grid.lines), nu, filled[nu], SortUnique(filled[nu]));
      return true;
    }

    /** Appends, in direction `nu`, both ends of every accurately bounded primitive of `prims` to the grid. */
    static method AddEdges(grid: RectGrid.Grid, prims: seq<Primitive>, nu: nat, bounds: Primitive -> (bool, Box6))
      requires grid.Valid() && nu < 3
      modifies grid`lines
      ensures grid.Valid()
      ensures grid.lines == old(grid.lines)[nu := old(grid.lines)[nu] + Edges(prims, nu, bounds)]
    {
      assert prims[..0] == [];
      var i := 0;
      while i < |prims|
        invariant 0 <= i <= |prims|
        invariant grid.Valid()
        invariant grid.lines == old(grid.lines)[nu := grid.lines[nu]]
        invariant grid.lines[nu] == old(grid.lines)[nu] + Edges(prims[..i], nu, bounds)
      {
        assert prims[..i + 1][..i] == prims[..i];
        var b := bounds(prims[i]);
        if b.0 {
          grid.AddDiscLine(nu, b.1[2 * nu]);
          grid.AddDiscLine(nu, b.1[2 * nu + 1]);
        }
        i := i + 1;
      }
      assert prims[..i] == prims;
    }

    /**
     * The search loop of GetPropertyByCoordPriority: among the primitives
     * the properties report, the one of highest priority, the first in list
     * order on ties, with its property; also every reported primitive, in
     * list order.
     */
    method SearchByCoordPriority(isInside: Primitive -> bool, mask: bv32)
      returns (winProp: Property?, winPrim: Primitive?, reported: seq<Primitive>,
               ghost cands: seq<Primitive?>, ghost prio: seq<int>)
      ensures cands == old(LocalPrimitives(properties, mask, isInside))
      ensures prio == old(LocalPriorities(properties, mask, isInside))
      ensures |prio| == |cands| == |properties|
      ensures var b := Best(prio, Found(cands));
              winProp == (if b.Some? then properties[b.value] else null)
              && winPrim == (if b.Some? then cands[b.value] else null)
      ensures reported == NonNull(cands)
      ensures forall q :: q in reported ==> q in old(PrimsOf(properties))
    {
      cands := LocalPrimitives(properties, mask, isInside);
      prio := LocalPriorities(properties, mask, isInside);
      ghost var owned := PrimsOf(properties);
      forall k | 0 <= k < |properties|
        ensures cands[k] == LocalPrimitive(properties[k], mask, isInside)
        ensures prio[k] == LocalPriority(properties[k], mask, isInside)
      {
        LocalAt(properties, mask, isInside, k);
      }
      forall q | q in NonNull(cands)
        ensures q in owned
      {
        NonNullMember(cands, q);
        var k :| 0 <= k < |cands| && cands[k] == q;
        assert q in properties[k].primitives;
      }
      winProp, winPrim, reported := Scan(properties, mask, isInside, cands, prio);
    }

    /** The loop of SearchByCoordPriority over `props`, whose reports are `cands` with priorities `prio`. */
    static method Scan(props: seq<Property>, mask: bv32, isInside: Primitive -> bool,
                       ghost cands: seq<Primitive?>, ghost prio: seq<int>)
      returns (winProp: Property?, winPrim: Primitive?, reported: seq<Primitive>)
      requires |prio| == |cands| == |props|
      requires forall k :: 0 <= k < |props| ==>
                 cands[k] == LocalPrimitive(props[k], mask, isInside)
                 && prio[k] == LocalPriority(props[k], mask, isInside)
      ensures var b := Best(prio, Found(cands));
              winProp == (if b.Some? then props[b.value] else null)
              && winPrim == (if b.Some? then cands[b.value] else null)
      ensures reported == NonNull(cands)
    {
      ghost var hit := Found(cands);
      ghost var b: Option<nat> := None;
      winProp := null;
      winPrim := null;
      reported := [];
      var winPrio := 0;
      var i := 0;
      while i < |props|
        invariant 0 <= i <= |props|
        invariant b == Best(prio[..i], hit[..i])
        invariant b.Some? ==> b.value < i && winProp == props[b.value] && winPrim == cands[b.value] && winPrio == prio[b.value]
        invariant b.None? ==> winProp == null && winPrim == null
        invariant reported == NonNull(cands[..i])
      {
        NonNullStep(cands, i);
        BestStep(prio, hit, i);
        FoundAt(cands, i);
        ghost var next := if hit[i] && (b.None? || prio[i] > prio[b.value]) then Some(i) else b;
        var p := props[i];
        var locPrim, locPrio := Report(p, mask, isInside, cands[i], prio[i]);
        if locPrim != null {
          reported := reported + [locPrim];
          if winProp == null || locPrio > winPrio {
            winPrio := locPrio;
            winProp := p;
            winPrim := locPrim;
          }
        }
        b := next;
        i := i + 1;
      }
      assert prio[..i] == prio && hit[..i] == hit && cands[..i] == cands;
    }

    /** What one property reports for the point when the mask selects it: its own priority winner. */
    static method Report(p: Property, mask: bv32, isInside: Primitive -> bool, ghost want: Primitive?, ghost wantPrio: int)
      returns (locPrim: Primitive?, locPrio: int)
      requires want == LocalPrimitive(p, mask, isInside) && wantPrio == LocalPriority(p, mask, isInside)
      ensures locPrim == want && locPrio == wantPrio
    {
      locPrim, locPrio := null, 0;
      if mask == AnyType || HasType(p, mask) {
        locPrim, locPrio := p.FindWinner(isInside);
      }
    }

    /**
     * GetPropertyByCoordPriority: the search above, on the state before the
     * call; a non-zero drawing tolerance marks every reported primitive as
     * used, and `markFoundAsUsed` marks the overall winner.
     */
    method GetPropertyByCoordPriority(isInside: Primitive -> bool, mask: bv32, markFoundAsUsed: bool)
      returns (winProp: Property?, winPrim: Primitive?, ghost cands: seq<Primitive?>, ghost prio: seq<int>)
      modifies PrimsOf(properties)`used
      ensures cands == old(LocalPrimitives(properties, mask, isInside))
      ensures prio == old(LocalPriorities(properties, mask, isInside))
      ensures |prio| == |cands| == |properties|
      ensures var b := Best(prio, Found(cands));
              winProp == (if b.Some? then properties[b.value] else null)
              && winPrim == (if b.Some? then cands[b.value] else null)
      ensures forall k, q :: 0 <= k < |properties| && q in properties[k].primitives ==>
                q.used == (old(q.used) || (markFoundAsUsed && q == winPrim) || (drawingTol != 0.0 && q in cands))
    {
      var reported;
      winProp, winPrim, reported, cands, prio := SearchByCoordPriority(isInside, mask);
      if winPrim != null {
        NonNullMember(cands, winPrim);
      }
      MarkFound(reported, winPrim, drawingTol != 0.0, markFoundAsUsed);
      assert properties == old(properties);
      forall k, q | 0 <= k < |properties| && q in properties[k].primitives
        ensures q.used == (old(q.used) || (markFoundAsUsed && q == winPrim) || (drawingTol != 0.0 && q in cands))
      {
        NonNullMember(cands, q);
      }
    }

    /**
     * Marks the reported primitives as used when `markAll`, and the winner,
     * which is one of them, when `markWinner`.
     */
    static method MarkFound(reported: seq<Primitive>, winPrim: Primitive?, markAll: bool, markWinner: bool)
      requires winPrim != null ==> winPrim in reported
      modifies reported`used
      ensures forall q :: q in reported ==> q.used == (old(q.used) || markAll || (markWinner && q == winPrim))
    {
      if markAll {
        MarkUsed(reported);
      }
      if markWinner && winPrim != null {
        winPrim.used := true;
      }
    }

    /** Flags every primitive of `marks` as used. */
    static method MarkUsed(marks: seq<Primitive>)
      modifies marks`used
      ensures forall q :: q in marks ==> q.used
    {
      var j := 0;
      while j < |marks|
        invariant 0 <= j <= |marks|
        invariant forall k :: 0 <= k < j ==> marks[k].used
      {
        marks[j].used := true;
        j := j + 1;
      }
    }
  }
}

=== FILE: coordinates.dfy ===
// The coordinate systems a mesh or a primitive can be given in.
module Coordinates {

  /** CARTESIAN, CYLINDRICAL and UNDEFINED_CS, in declaration order. */
  datatype CoordinateSystem = Cartesian | Cylindrical | Undefined
}

=== FILE: lists.dfy ===
// Vector operations shared by the containers: find the first occurrence,
// erase one position, erase the first occurrence.
module Lists {

  /** Position of the first occurrence of `x` in `s`, or |s| when there is none. */
  function IndexOf<T(==)>(s: seq<T>, x: T): (i: nat)
    ensures i <= |s|
    ensures i < |s| <==> x in s
    ensures i < |s| ==> s[i] == x
    ensures forall j :: 0 <= j < i ==> s[j] != x
  {
    if s == [] then 0
    else if s[0] == x then 0
    else 1 + IndexOf(s[1..], x)
  }

  /** `s` without its element at `i`: vector::erase at one position. */
  function RemoveAt<T>(s: seq<T>, i: nat): (r: seq<T>)
    requires i < |s|
    ensures |r| == |s| - 1
    ensures forall j :: 0 <= j < i ==> r[j] == s[j]
    ensures forall j :: i <= j < |r| ==> r[j] == s[j + 1]
  {
    s[..i] + s[i + 1..]
  }

  /** `s` without the first occurrence of `x`; `s` itself when `x` does not occur. */
  function RemoveFirst<T(==)>(s: seq<T>, x: T): (r: seq<T>)
    ensures x in s ==> r == RemoveAt(s, IndexOf(s, x))
    ensures x !in s ==> r == s
  {
    if x in s then RemoveAt(s, IndexOf(s, x)) else s
  }

  /** No value occurs twice. */
  predicate Distinct<T(==)>(s: seq<T>)
  {
    forall i, j :: 0 <= i < j < |s| ==> s[i] != s[j]
  }

  /** Erasing keeps every other element and drops the erased one when the values are distinct. */
  lemma RemoveAtElems<T>(s: seq<T>, i: nat)
    requires i < |s| && Distinct(s)
    ensures Distinct(RemoveAt(s, i))
    ensures s[i] !in RemoveAt(s, i)
    ensures forall y :: y in s && y != s[i] ==> y in RemoveAt(s, i)
  {
    var r := RemoveAt(s, i);
    forall y | y in s && y != s[i]
      ensures y in r
    {
      var k :| 0 <= k < |s| && s[k] == y;
      if k < i {
        assert r[k] == y;
      } else {
        assert r[k - 1] == y;
      }
    }
    forall k | 0 <= k < |r|
      ensures r[k] != s[i]
    {
      if k < i {
        assert r[k] == s[k];
      } else {
        assert r[k] == s[k + 1];
      }
    }
  }

  /** Appending does not move an element that is already present. */
  lemma {:induction false} IndexOfAppend<T>(s: seq<T>, x: T, y: T)
    requires x in s
    ensures IndexOf(s + [y], x) == IndexOf(s, x)
  {
    if s[0] != x {
      assert (s + [y])[1..] == s[1..] + [y];
      IndexOfAppend(s[1..], x, y);
    }
  }

  /** In a sequence without repeats, an element is found at its own position. */
  lemma IndexOfDistinct<T>(s: seq<T>, k: nat)
    requires Distinct(s) && k < |s|
    ensures IndexOf(s, s[k]) == k
  {
  }

  /** Position of the last occurrence of `x` in `s`. */
  function LastIndexOf<T(==)>(s: seq<T>, x: T): (i: nat)
    requires x in s
    ensures i < |s| && s[i] == x
    ensures forall j :: i < j < |s| ==> s[j] != x
  {
    if s[|s| - 1] == x then |s| - 1
    else
      assert x in s[..|s| - 1] by {
        var k :| 0 <= k < |s| && s[k] == x;
        assert s[..|s| - 1][k] == x;
      }
      LastIndexOf(s[..|s| - 1], x)
  }

  /** In a sequence without repeats, the last occurrence of an element is its own position. */
  lemma LastIndexOfDistinct<T>(s: seq<T>, k: nat)
    requires Distinct(s) && k < |s|
    ensures LastIndexOf(s, s[k]) == k
  {
  }

  /** The elements of a sequence, as a set. */
  function SetOf<T>(s: seq<T>): (r: set<T>)
    ensures forall x :: x in s ==> x in r
    ensures forall x :: x in r ==> x in s
  {
    set x | x in s
  }
}

=== FILE: parameter_objects.dfy ===
// Parameters of a structure: constant ones, linear ones that sweep from a
// minimum to a maximum in fixed steps, the set that owns them and walks the
// sweep, and the scalar that holds either a plain number or an expression.
module ParameterObjects {
  import opened Lists
  import opened Useful

  /** Const and Linear, the two kinds of Parameter. */
  datatype ParameterType = Const | Linear

  // ------------------------------------------------------------ the step grid

  /** The k-th value of the grid that starts at `lo` and advances by `step`. */
  function GridPoint(lo: real, step: real, k: nat): real
  {
    lo + step * (k as real)
  }

  ghost predicate OnGrid(x: real, lo: real, step: real)
  {
    exists k: nat :: x == GridPoint(lo, step, k)
  }

  /**
   * What LinearParameter::SetValue stores for `val`: the value clamped to
   * [lo, hi] and, with a positive step, rounded to the nearest grid value,
   * one step lower when rounding went past `hi`.
   */
  function Snap(val: real, lo: real, hi: real, step: real): real
    requires lo <= hi && step >= 0.0
  {
    var c := if val > hi then hi else if val < lo then lo else val;
    if step == 0.0 then c
    else
      var g := lo + step * (Round(c - lo, step) as real);
      if g > hi then g - step else g
  }

  /** floor(d / step + 0.5): d / step rounded half up. */
  function Round(d: real, step: real): int
    requires step > 0.0
  {
    (d / step + 0.5).Floor
  }

  /** LinearParameter::CountSteps: the number of grid values in [lo, hi]. */
  function StepCount(lo: real, hi: real, step: real): int
  {
    if step == 0.0 then 1 else ((hi - lo) / step).Floor + 1
  }

  lemma DivMul(a: real, b: real)
    requires b > 0.0
    ensures b * (a / b) == a
  {
  }

  lemma DivNonNeg(a: real, b: real)
    requires a >= 0.0 && b > 0.0
    ensures a / b >= 0.0
  {
  }

  /** Rounding d / step to the nearest integer k: k is not negative and k * step exceeds d by at most half a step. */
  lemma RoundHalf(d: real, step: real)
    requires d >= 0.0 && step > 0.0
    ensures Round(d, step) >= 0
    ensures 0.0 <= step * (Round(d, step) as real) <= d + step * 0.5
  {
    var q := d / step;
    DivMul(d, step);
    DivNonNeg(d, step);
    var k := (q + 0.5).Floor;
    assert step * (k as real) <= step * (q + 0.5);
    assert step * 0.0 <= step * (k as real);
    assert step * (q + 0.5) == step * q + step * 0.5;
  }

  /** One step below a grid value, when that value is above the start. */
  lemma StepBack(lo: real, step: real, k: int, g: real)
    requires step > 0.0 && k >= 0 && g == lo + step * (k as real) && g > lo
    ensures k >= 1 && g - step == lo + step * ((k - 1) as real) >= lo
  {
    assert k == 0 ==> step * (k as real) == 0.0;
    assert step * ((k - 1) as real) == step * (k as real) - step;
    assert step * 0.0 <= step * ((k - 1) as real);
  }

  /** The rounded grid value of `c`, one step lower when it passes hi, as a grid value inside [lo, hi]. */
  lemma RoundedIndex(c: real, lo: real, hi: real, step: real) returns (k: nat)
    requires lo <= c <= hi && step > 0.0
    ensures var g := lo + step * (Round(c - lo, step) as real);
            (if g > hi then g - step else g) == GridPoint(lo, step, k)
    ensures lo <= GridPoint(lo, step, k) <= hi
  {
    var r := Round(c - lo, step);
    RoundHalf(c - lo, step);
    var g := lo + step * (r as real);
    if g > hi {
      StepBack(lo, step, r, g);
      k := r - 1;
    } else {
      k := r;
    }
  }

  /** The snapped value as a grid value: the rounded index, one lower when that passes hi. */
  lemma SnapIndex(val: real, lo: real, hi: real, step: real) returns (k: nat)
    requires lo <= hi && step > 0.0
    ensures Snap(val, lo, hi, step) == GridPoint(lo, step, k) && lo <= GridPoint(lo, step, k) <= hi
  {
    var c := if val > hi then hi else if val < lo then lo else val;
    k := RoundedIndex(c, lo, hi, step);
  }

  /** A snapped value lies in [lo, hi] and, with a positive step, on the grid. */
  lemma SnapInRange(val: real, lo: real, hi: real, step: real)
    requires lo <= hi && step >= 0.0
    ensures lo <= Snap(val, lo, hi, step) <= hi
    ensures step > 0.0 ==> OnGrid(Snap(val, lo, hi, step), lo, step)
  {
    if step > 0.0 {
      var k := SnapIndex(val, lo, hi, step);
    }
  }

  /** A grid value inside [lo, hi] is kept exactly. */
  lemma SnapOfGridPoint(lo: real, hi: real, step: real, k: nat)
    requires lo <= hi && step > 0.0
    requires GridPoint(lo, step, k) <= hi
    ensures Snap(GridPoint(lo, step, k), lo, hi, step) == GridPoint(lo, step, k)
  {
    var x := GridPoint(lo, step, k);
    assert x >= lo;
    assert (x - lo) / step == k as real;
    assert ((x - lo) / step + 0.5).Floor == k;
  }

  /** The count of a linear parameter brackets max: its last grid value lies within max, the next one beyond. */
  lemma StepCountBrackets(lo: real, hi: real, step: real)
    requires lo <= hi && step > 0.0
    ensures StepCount(lo, hi, step) >= 1
    ensures GridPoint(lo, step, StepCount(lo, hi, step) - 1) <= hi < GridPoint(lo, step, StepCount(lo, hi, step))
  {
    var q := (hi - lo) / step;
    assert step * q == hi - lo;
    assert q >= 0.0;
    var c := StepCount(lo, hi, step);
    StepFits(lo, hi, step, c - 1);
    assert GridPoint(lo, step, c) == GridPoint(lo, step, c - 1) + step;
    if c >= 2 {
      StepFits(lo, hi, step, c - 2);
      assert GridPoint(lo, step, c - 1) == GridPoint(lo, step, c - 2) + step;
    }
  }

  /**
   * From the k-th grid value another step fits below `hi` exactly when k + 1
   * is still below the step count: a sweep that starts at `lo` visits
   * StepCount(lo, hi, step) values.
   */
  lemma StepFits(lo: real, hi: real, step: real, k: nat)
    requires lo <= hi && step > 0.0
    ensures GridPoint(lo, step, k) + step <= hi <==> k + 1 < StepCount(lo, hi, step)
  {
    var q := (hi - lo) / step;
    assert step * q == hi - lo;
    assert GridPoint(lo, step, k) + step == lo + step * ((k + 1) as real);
    if lo + step * ((k + 1) as real) <= hi {
      assert step * ((k + 1) as real) <= step * q;
      assert (k + 1) as real <= q;
    }
    if (k + 1) as real <= q {
      assert step * ((k + 1) as real) <= step * q;
    }
  }

  /** The computation in LinearParameter::SetValue: clamp, then round to the grid. */
  method SnapValue(val: real, lo: real, hi: real, step: real) returns (snapped: real)
    requires lo <= hi && step >= 0.0
    ensures snapped == Snap(val, lo, hi, step)
  {
    var v := if val > hi then hi else if val < lo then lo else val;
    if step == 0.0 {
      snapped := v;
    } else {
      snapped := lo + step * (Round(v - lo, step) as real);
      if snapped > hi {
        snapped := snapped - step;
      }
    }
  }

  // ------------------------------------------------------------ parameters

  class Parameter {
    const name: string
    const kind: ParameterType
    const sweep: bool
    const min: real
    const max: real
    const step: real
    var value: real

    /** A linear parameter's value stays on its grid inside [min, max]. */
    ghost predicate Valid()
      reads this
    {
      min <= max && step >= 0.0
      && (kind == Linear ==> min <= value <= max && (step > 0.0 ==> OnGrid(value, min, step)))
    }

    /** Parameter(name, val): a constant parameter with sweep enabled. */
    constructor (paraName: string, val: real)
      ensures Valid()
      ensures name == paraName && kind == Const && sweep && value == val
    {
      name := paraName;
      kind := Const;
      sweep := true;
      min, max, step := 0.0, 0.0, 0.0;
      value := val;
    }

    /**
     * LinearParameter(name, val, min, max, step): a max below min is raised to
     * min, a negative step becomes 0, and the value is set through SetValue.
     */
    constructor LinearParameter(paraName: string, val: real, lo: real, hi: real, st: real)
      ensures Valid()
      ensures name == paraName && kind == Linear && sweep
      ensures min == lo && max == (if hi < lo then lo else hi) && step == (if st < 0.0 then 0.0 else st)
      ensures value == Snap(val, min, max, step)
    {
      name := paraName;
      kind := Linear;
      sweep := true;
      min := lo;
      max := if hi < lo then lo else hi;
      step := if st < 0.0 then 0.0 else st;
      new;
      SnapInRange(val, min, max, step);
      value := Snap(val, min, max, step);
    }

    /** GetSweep: only a linear parameter sweeps, and only when enabled. */
    predicate GetSweep()
    {
      kind == Linear && sweep
    }

    /** IncreaseStep succeeds from `v` on a sweeping parameter. */
    predicate CanStep(v: real)
    {
      GetSweep() && v + step <= max
    }

    /** CountSteps: 1 for a constant, the number of grid values for a linear parameter. */
    function CountSteps(): (c: int)
      ensures kind == Const || step == 0.0 ==> c == 1
      ensures kind == Linear && step > 0.0 && min <= max ==>
                c >= 1 && GridPoint(min, step, c - 1) <= max < GridPoint(min, step, c)
    {
      if kind == Const then 1
      else if step > 0.0 && min <= max then (StepCountBrackets(min, max, step); StepCount(min, max, step))
      else StepCount(min, max, step)
    }

    /** SetValue: stored as given for a constant, clamped and snapped for a linear parameter. */
    method SetValue(val: real)
      requires Valid()
      modifies this`value
      ensures Valid()
      ensures kind == Const ==> value == val
      ensures kind == Linear ==> value == Snap(val, min, max, step)
    {
      if kind == Const {
        value := val;
        return;
      }
      var snapped := SnapValue(val, min, max, step);
      SnapInRange(val, min, max, step);
      value := snapped;
    }

    /**
     * IncreaseStep: a constant never steps; a linear parameter refuses, and
     * keeps its value, when one more step would pass max.
     */
    method IncreaseStep() returns (ok: bool)
      requires Valid()
      modifies this`value
      ensures Valid()
      ensures ok <==> kind == Linear && old(value) + step <= max
      ensures ok ==> value == Snap(old(value) + step, min, max, step)
      ensures !ok ==> value == old(value)
    {
      if kind == Const {
        return false;
      }
      if value + step > max {
        return false;
      }
      SetValue(value + step);
      return true;
    }

    /** InitSweep: a linear parameter restarts at min. */
    method InitSweep()
      requires Valid()
      modifies this`value
      ensures Valid()
      ensures value == if kind == Linear then min else old(value)
    {
      if kind == Linear {
        assert min == GridPoint(min, step, 0);
        value := min;
      }
    }
  }

  // ------------------------------------------------------------ sweep specification

  function Values(ps: seq<Parameter>): (vs: seq<real>)
    reads ps
    ensures |vs| == |ps| && forall k :: 0 <= k < |ps| ==> vs[k] == ps[k].value
  {
    seq(|ps|, k requires 0 <= k < |ps| reads ps => ps[k].value)
  }

  predicate Ranged(ps: seq<Parameter>)
  {
    forall k :: 0 <= k < |ps| ==> ps[k].min <= ps[k].max && ps[k].step >= 0.0
  }

  /** Values a sweep may hold: every linear value on its grid inside [min, max]. */
  ghost predicate InRange(ps: seq<Parameter>, vals: seq<real>)
    requires |ps| == |vals|
  {
    forall k :: 0 <= k < |ps| && ps[k].kind == Linear ==>
      ps[k].min <= vals[k] <= ps[k].max && (ps[k].step > 0.0 ==> OnGrid(vals[k], ps[k].min, ps[k].step))
  }

  /** The last parameter before position n that can take a step from its value in `vals`, or -1. */
  function LastSteppable(ps: seq<Parameter>, vals: seq<real>, n: nat): (j: int)
    requires n <= |ps| == |vals|
    ensures -1 <= j < n
    ensures j >= 0 ==> ps[j].CanStep(vals[j])
    ensures forall k :: j < k < n ==> !ps[k].CanStep(vals[k])
  {
    if n == 0 then -1
    else if ps[n - 1].CanStep(vals[n - 1]) then n - 1
    else LastSteppable(ps, vals, n - 1)
  }

  /**
   * One move of the full sweep, as an odometer: the last parameter that can
   * step takes one step, every sweeping parameter after it restarts at min.
   * When none can step, every sweeping parameter restarts and the sweep is over.
   */
  function Odometer(ps: seq<Parameter>, vals: seq<real>): (r: (bool, seq<real>))
    requires |ps| == |vals| && Ranged(ps)
    ensures |r.1| == |ps|
    ensures r.0 <==> exists k :: 0 <= k < |ps| && ps[k].CanStep(vals[k])
  {
    var j := LastSteppable(ps, vals, |ps|);
    (j >= 0,
     seq(|ps|, k requires 0 <= k < |ps| =>
       if k < j then vals[k]
       else if k == j then Snap(vals[k] + ps[k].step, ps[k].min, ps[k].max, ps[k].step)
       else if ps[k].GetSweep() then ps[k].min
       else vals[k]))
  }

  /** The odometer keeps every value on its grid inside its range. */
  lemma OdometerInRange(ps: seq<Parameter>, vals: seq<real>)
    requires |ps| == |vals| && Ranged(ps) && InRange(ps, vals)
    ensures InRange(ps, Odometer(ps, vals).1)
  {
    var j := LastSteppable(ps, vals, |ps|);
    var r := Odometer(ps, vals).1;
    forall k | 0 <= k < |ps| && ps[k].kind == Linear
      ensures ps[k].min <= r[k] <= ps[k].max && (ps[k].step > 0.0 ==> OnGrid(r[k], ps[k].min, ps[k].step))
    {
      if k == j {
        SnapInRange(vals[k] + ps[k].step, ps[k].min, ps[k].max, ps[k].step);
      } else if k > j && ps[k].GetSweep() {
        assert r[k] == GridPoint(ps[k].min, ps[k].step, 0);
      }
    }
  }

  /**
   * The digit that moves advances by exactly one step when the values are on
   * their grids; everything before it is untouched.
   */
  lemma OdometerAdvancesOneStep(ps: seq<Parameter>, vals: seq<real>)
    requires |ps| == |vals| && Ranged(ps) && InRange(ps, vals)
    requires forall k :: 0 <= k < |ps| && ps[k].GetSweep() ==> ps[k].step > 0.0
    ensures var j := LastSteppable(ps, vals, |ps|);
            j >= 0 ==> Odometer(ps, vals).1[j] == vals[j] + ps[j].step
                       && Odometer(ps, vals).1[..j] == vals[..j]
  {
    var j := LastSteppable(ps, vals, |ps|);
    if j >= 0 {
      OdometerKeepsPrefix(ps, vals, j);
      OdometerDigit(ps, vals, j);
      var p := ps[j];
      assert p.min <= vals[j] <= p.max && OnGrid(vals[j], p.min, p.step);
      SnapNextGridValue(vals[j], p.min, p.max, p.step);
    }
  }

  /** The moving digit is snapped one step up. */
  lemma OdometerDigit(ps: seq<Parameter>, vals: seq<real>, j: nat)
    requires |ps| == |vals| && Ranged(ps) && j == LastSteppable(ps, vals, |ps|)
    ensures Odometer(ps, vals).1[j] == Snap(vals[j] + ps[j].step, ps[j].min, ps[j].max, ps[j].step)
  {
    var r := Odometer(ps, vals).1;
    var f := (k: int) requires 0 <= k < |ps| =>
       if k < j then vals[k]
       else if k == j then Snap(vals[k] + ps[k].step, ps[k].min, ps[k].max, ps[k].step)
       else if ps[k].GetSweep() then ps[k].min
       else vals[k];
    assert r == seq(|ps|, f);
  }

  /** The odometer leaves every value before the moving digit as it was. */
  lemma OdometerKeepsPrefix(ps: seq<Parameter>, vals: seq<real>, j: nat)
    requires |ps| == |vals| && Ranged(ps) && j == LastSteppable(ps, vals, |ps|)
    ensures Odometer(ps, vals).1[..j] == vals[..j]
  {
    var r := Odometer(ps, vals).1;
    assert forall k :: 0 <= k < j ==> r[k] == vals[k];
  }

  /** One step up from a grid value that stays below hi is kept exactly by Snap. */
  lemma SnapNextGridValue(v: real, lo: real, hi: real, step: real)
    requires lo <= hi && step > 0.0 && OnGrid(v, lo, step) && v + step <= hi
    ensures Snap(v + step, lo, hi, step) == v + step
  {
    var i: nat :| v == GridPoint(lo, step, i);
    GridNext(lo, step, i);
    SnapOfGridPoint(lo, hi, step, i + 1);
  }

  lemma GridNext(lo: real, step: real, i: nat)
    ensures GridPoint(lo, step, i + 1) == GridPoint(lo, step, i) + step
  {
    assert step * ((i + 1) as real) == step * (i as real) + step;
  }

  /** The first parameter from position `from` on that can take a step, or |ps|. */
  function FirstSteppable(ps: seq<Parameter>, vals: seq<real>, from: nat): (i: nat)
    requires from <= |ps| == |vals|
    ensures from <= i <= |ps|
    ensures i < |ps| ==> ps[i].CanStep(vals[i])
    ensures forall k :: from <= k < i ==> !ps[k].CanStep(vals[k])
    decreases |ps| - from
  {
    if from == |ps| then from
    else if ps[from].CanStep(vals[from]) then from
    else FirstSteppable(ps, vals, from + 1)
  }

  // ------------------------------------------------------------ the parameter set

  class ParameterSet {
    var params: seq<Parameter>
    var sweepPara: int

    /** The set owns each parameter once. */
    ghost predicate Valid()
      reads this, params
    {
      Distinct(params) && forall k :: 0 <= k < |params| ==> params[k].Valid()
    }

    constructor ()
      ensures Valid() && params == [] && sweepPara == 0
    {
      params := [];
      sweepPara := 0;
    }

    /** LinkParameter: takes ownership of `p` and returns the new count. */
    method LinkParameter(p: Parameter) returns (n: nat)
      requires Valid() && p.Valid() && p !in params
      modifies this`params
      ensures Valid()
      ensures params == old(params) + [p] && n == |params|
    {
      params := params + [p];
      return |params|;
    }

    /** DeleteParameter(index): an index past the end changes nothing; returns the new count. */
    method DeleteParameterAt(index: nat) returns (n: nat)
      requires Valid()
      modifies this`params
      ensures Valid()
      ensures index < |old(params)| ==> params == RemoveAt(old(params), index)
      ensures index >= |old(params)| ==> params == old(params)
      ensures n == |params|
    {
      if index >= |params| {
        return |params|;
      }
      RemoveAtElems(params, index);
      params := RemoveAt(params, index);
      return |params|;
    }

    /** DeleteParameter(para): drops the first entry that is `p`; returns the new count. */
    method DeleteParameter(p: Parameter?) returns (n: nat)
      requires Valid()
      modifies this`params
      ensures Valid()
      ensures p != null && p in old(params) ==> params == RemoveAt(old(params), IndexOf(old(params), p))
      ensures p == null || p !in old(params) ==> params == old(params)
      ensures n == |params|
    {
      var i := 0;
      while i < |params|
        invariant 0 <= i <= |params|
        invariant forall k :: 0 <= k < i ==> params[k] != p
      {
        if params[i] == p {
          RemoveAtElems(params, i);
          params := RemoveAt(params, i);
          return |params|;
        }
        i := i + 1;
      }
      return |params|;
    }

    /** GetParameterString: the names joined with `spacer`. */
    method GetParameterString(spacer: string) returns (s: string)
      ensures s == Join(Names(params), spacer)
    {
      s := "";
      var names := Names(params);
      var i := 0;
      while i < |params|
        invariant 0 <= i <= |params|
        invariant s == Join(names[..i], spacer)
      {
        if i > 0 {
          s := s + spacer;
          JoinSnoc(names[..i], names[i], spacer);
        }
        s := s + params[i].name;
        assert names[..i + 1] == names[..i] + [names[i]];
        i := i + 1;
      }
      assert names[..|params|] == names;
    }

    /**
     * CountSweepSteps: mode 1 (full sweep) multiplies the step counts of the
     * sweeping parameters, 0 when none sweeps; mode 2 (one parameter at a
     * time) adds them; any other mode gives 0.
     */
    method CountSweepSteps(mode: int) returns (count: int)
      requires Valid()
      ensures mode == 1 ==> count == (if SweepCounts(params) == [] then 0 else Product(SweepCounts(params)))
      ensures mode == 2 ==> count == Sum(SweepCounts(params))
      ensures mode != 1 && mode != 2 ==> count == 0
    {
      count := 0;
      if mode == 1 {
        count := FullSweepSteps();
      } else if mode == 2 {
        count := SingleSweepSteps();
      }
    }

    /** The loop of the full sweep: the product of the sweeping parameters' step counts, 0 when none sweeps. */
    method FullSweepSteps() returns (count: int)
      requires Valid()
      ensures count == (if SweepCounts(params) == [] then 0 else Product(SweepCounts(params)))
    {
      count := 0;
      var i := 0;
      while i < |params|
        invariant 0 <= i <= |params|
        invariant count == (if SweepCounts(params[..i]) == [] then 0 else Product(SweepCounts(params[..i])))
      {
        SweepCountsSnoc(params, i);
        CountStepsPositive(params[i]);
        RangedPrefix(params, i);
        SweepCountsPositive(params[..i]);
        ProductPositive(SweepCounts(params[..i]));
        if params[i].GetSweep() {
          var c := params[i].CountSteps();
          ProductSnoc(SweepCounts(params[..i]), c);
          if count == 0 {
            count := c;
          } else {
            count := count * c;
          }
        }
        i := i + 1;
      }
      assert params[..|params|] == params;
    }

    /** The loop of the one-at-a-time sweep: the sum of the sweeping parameters' step counts. */
    method SingleSweepSteps() returns (count: int)
      requires Valid()
      ensures count == Sum(SweepCounts(params))
    {
      count := 0;
      var i := 0;
      while i < |params|
        invariant 0 <= i <= |params|
        invariant count == Sum(SweepCounts(params[..i]))
      {
        SweepCountsSnoc(params, i);
        if params[i].GetSweep() {
          var c := params[i].CountSteps();
          SumSnoc(SweepCounts(params[..i]), c);
          count := count + c;
        }
        i := i + 1;
      }
      assert params[..|params|] == params;
    }

    /** NextSweepPos(1): one move of the odometer over the parameter list. */
    method NextSweepPosFull() returns (ok: bool)
      requires Valid()
      modifies params
      ensures Valid()
      ensures (ok, Values(params)) == Odometer(params, old(Values(params)))
    {
      ghost var vals := Values(params);
      ghost var level;
      ok, level := WalkBack();
      OdometerFrom(params, vals, Values(params), level);
    }

    /**
     * The loop of NextSweepPos(1): from the last parameter backwards, step the
     * first sweeping one that can step, restarting each one that cannot.
     */
    method WalkBack() returns (ok: bool, ghost j: int)
      requires Valid()
      modifies params
      ensures Valid()
      ensures -1 <= j < |params| && ok == (j >= 0)
      ensures j >= 0 ==> params[j].CanStep(old(params[j].value))
                         && params[j].value == Snap(old(params[j].value) + params[j].step, params[j].min, params[j].max, params[j].step)
      ensures forall k :: 0 <= k < j ==> params[k].value == old(params[k].value)
      ensures forall k :: j < k < |params| ==> !params[k].CanStep(old(params[k].value))
      ensures forall k :: j < k < |params| ==>
                params[k].value == (if params[k].GetSweep() then params[k].min else old(params[k].value))
    {
      var level := |params| - 1;
      while level >= 0
        invariant -1 <= level < |params|
        invariant Valid()
        invariant forall k :: 0 <= k <= level ==> params[k].value == old(params[k].value)
        invariant forall k :: level < k < |params| ==> !params[k].CanStep(old(params[k].value))
        invariant forall k :: level < k < |params| ==>
                    params[k].value == (if params[k].GetSweep() then params[k].min else old(params[k].value))
      {
        var p := params[level];
        if p.GetSweep() {
          var stepped := p.IncreaseStep();
          if stepped {
            return true, level;
          }
          p.InitSweep();
        }
        level := level - 1;
      }
      return false, -1;
    }

    /**
     * NextSweepPos(2): starting at the current sweep position, the first
     * parameter that can step does so and the position stays there;
     * parameters passed over keep their values. False, with nothing changed,
     * when the position is outside the list, and false once it runs past the end.
     */
    method NextSweepPosSingle() returns (ok: bool)
      requires Valid()
      modifies this`sweepPara, params
      ensures Valid()
      ensures old(sweepPara) < 0 || old(sweepPara) >= |params| ==> !ok && sweepPara == old(sweepPara)
      ensures 0 <= old(sweepPara) < |params| ==>
                old(sweepPara) <= sweepPara <= |params| && ok == (sweepPara < |params|)
                && forall k :: old(sweepPara) <= k < sweepPara ==> !params[k].CanStep(old(params[k].value))
      ensures ok ==> var i := sweepPara;
                     params[i].CanStep(old(params[i].value))
                     && params[i].value == Snap(old(params[i].value) + params[i].step, params[i].min, params[i].max, params[i].step)
      ensures forall k :: 0 <= k < |params| && !(ok && k == sweepPara) ==> params[k].value == old(params[k].value)
      decreases if 0 <= sweepPara <= |params| then |params| - sweepPara else 0
    {
      if sweepPara < 0 || sweepPara >= |params| {
        return false;
      }
      var p := params[sweepPara];
      if p.GetSweep() {
        var stepped := p.IncreaseStep();
        if stepped {
          return true;
        }
      }
      assert forall k :: 0 <= k < |params| ==> params[k].value == old(params[k].value);
      sweepPara := sweepPara + 1;
      ok := NextSweepPosSingle();
    }

    /** InitSweep: every sweeping parameter restarts at min and the position returns to the first parameter. */
    method InitSweep()
      requires Valid()
      modifies this`sweepPara, params
      ensures Valid() && sweepPara == 0
      ensures forall k :: 0 <= k < |params| ==>
                params[k].value == (if params[k].GetSweep() then params[k].min else old(params[k].value))
    {
      var i := 0;
      while i < |params|
        invariant 0 <= i <= |params|
        invariant Valid()
        invariant forall k :: 0 <= k < i ==>
                    params[k].value == (if params[k].GetSweep() then params[k].min else old(params[k].value))
        invariant forall k :: i <= k < |params| ==> params[k].value == old(params[k].value)
      {
        var p := params[i];
        if p.GetSweep() {
          p.InitSweep();
        }
        i := i + 1;
      }
      sweepPara := 0;
    }

    /** NextSweepPos: mode 1 moves the odometer, mode 2 sweeps one parameter at a time, other modes do nothing. */
    method NextSweepPos(mode: int) returns (ok: bool)
      requires Valid()
      modifies this`sweepPara, params
      ensures Valid()
      ensures mode == 1 ==> (ok, Values(params)) == Odometer(params, old(Values(params))) && sweepPara == old(sweepPara)
      ensures mode == 2 && 0 <= old(sweepPara) < |params| ==>
                sweepPara == FirstSteppable(params, old(Values(params)), old(sweepPara)) && ok == (sweepPara < |params|)
      ensures mode != 1 && (mode != 2 || old(sweepPara) < 0 || old(sweepPara) >= |params|) ==>
                !ok && Values(params) == old(Values(params)) && sweepPara == old(sweepPara)
    {
      ghost var vals := Values(params);
      if mode == 1 {
        ok := NextSweepPosFull();
      } else if mode == 2 {
        ghost var from := sweepPara;
        ok := NextSweepPosSingle();
        if 0 <= from < |params| {
          FirstSteppableIs(params, vals, from, sweepPara);
        } else {
          assert Values(params) == vals;
        }
      } else {
        ok := false;
      }
    }
  }

  function Names(ps: seq<Parameter>): (ns: seq<string>)
    ensures |ns| == |ps| && forall k :: 0 <= k < |ps| ==> ns[k] == ps[k].name
  {
    seq(|ps|, k requires 0 <= k < |ps| => ps[k].name)
  }

  /** The step counts of the sweeping parameters, in list order. */
  function SweepCounts(ps: seq<Parameter>): (cs: seq<int>)
  {
    if ps == [] then []
    else SweepCounts(ps[..|ps| - 1]) + (if ps[|ps| - 1].GetSweep() then [ps[|ps| - 1].CountSteps()] else [])
  }

  function Product(cs: seq<int>): int
  {
    if cs == [] then 1 else Product(cs[..|cs| - 1]) * cs[|cs| - 1]
  }

  function Sum(cs: seq<int>): int
  {
    if cs == [] then 0 else Sum(cs[..|cs| - 1]) + cs[|cs| - 1]
  }

  lemma SweepCountsSnoc(ps: seq<Parameter>, i: nat)
    requires i < |ps|
    ensures ps[i].GetSweep() ==> SweepCounts(ps[..i + 1]) == SweepCounts(ps[..i]) + [ps[i].CountSteps()]
    ensures !ps[i].GetSweep() ==> SweepCounts(ps[..i + 1]) == SweepCounts(ps[..i])
  {
    assert ps[..i + 1][..i] == ps[..i];
    assert SweepCounts(ps[..i]) + [] == SweepCounts(ps[..i]);
  }

  lemma SumSnoc(cs: seq<int>, x: int)
    ensures Sum(cs + [x]) == Sum(cs) + x
  {
    assert (cs + [x])[..|cs|] == cs;
  }

  lemma ProductSnoc(cs: seq<int>, x: int)
    ensures Product(cs + [x]) == Product(cs) * x
  {
    assert (cs + [x])[..|cs|] == cs;
  }

  lemma RangedPrefix(ps: seq<Parameter>, i: nat)
    requires i <= |ps|
    requires forall k :: 0 <= k < |ps| ==> ps[k].min <= ps[k].max && ps[k].step >= 0.0
    ensures Ranged(ps[..i])
  {
  }

  /** Every parameter counts at least one step. */
  lemma CountStepsPositive(p: Parameter)
    requires p.min <= p.max && p.step >= 0.0
    ensures p.CountSteps() >= 1
  {
    if p.kind == Linear && p.step > 0.0 {
      var q := (p.max - p.min) / p.step;
      assert p.step * q == p.max - p.min;
      assert q >= 0.0;
    }
  }

  /** A product of positive counts is positive, so the full sweep's count only restarts at the first sweeping parameter. */
  lemma {:induction false} ProductPositive(cs: seq<int>)
    requires forall k :: 0 <= k < |cs| ==> cs[k] >= 1
    ensures Product(cs) >= 1
  {
    if cs != [] {
      ProductPositive(cs[..|cs| - 1]);
      assert Product(cs[..|cs| - 1]) * cs[|cs| - 1] >= Product(cs[..|cs| - 1]);
    }
  }

  lemma {:induction false} SweepCountsPositive(ps: seq<Parameter>)
    requires Ranged(ps)
    ensures forall k :: 0 <= k < |SweepCounts(ps)| ==> SweepCounts(ps)[k] >= 1
  {
    if ps != [] {
      SweepCountsPositive(ps[..|ps| - 1]);
      CountStepsPositive(ps[|ps| - 1]);
    }
  }

  /** The full sweep has at least one position whenever some parameter sweeps. */
  lemma FullSweepCount(ps: seq<Parameter>)
    requires Ranged(ps)
    ensures SweepCounts(ps) != [] ==> Product(SweepCounts(ps)) >= 1
  {
    SweepCountsPositive(ps);
    ProductPositive(SweepCounts(ps));
  }

  /** The values a backward walk leaves behind are the odometer's move. */
  lemma OdometerFrom(ps: seq<Parameter>, vals: seq<real>, now: seq<real>, j: int)
    requires |ps| == |vals| == |now| && Ranged(ps) && -1 <= j < |ps|
    requires j >= 0 ==> ps[j].CanStep(vals[j]) && now[j] == Snap(vals[j] + ps[j].step, ps[j].min, ps[j].max, ps[j].step)
    requires forall k :: j < k < |ps| ==> !ps[k].CanStep(vals[k])
    requires forall k :: j < k < |ps| ==> now[k] == (if ps[k].GetSweep() then ps[k].min else vals[k])
    requires forall k :: 0 <= k < j ==> now[k] == vals[k]
    ensures Odometer(ps, vals) == (j >= 0, now)
  {
    if j >= 0 {
      LastSteppableIs(ps, vals, j);
    } else {
      LastSteppableNone(ps, vals);
    }
    var r := Odometer(ps, vals);
    assert forall k :: 0 <= k < |ps| ==> r.1[k] == now[k];
    assert r.1 == now;
  }

  lemma {:induction false} FirstSteppableIs(ps: seq<Parameter>, vals: seq<real>, from: nat, i: nat)
    requires from <= i <= |ps| == |vals|
    requires i < |ps| ==> ps[i].CanStep(vals[i])
    requires forall k :: from <= k < i ==> !ps[k].CanStep(vals[k])
    ensures FirstSteppable(ps, vals, from) == i
    decreases i - from
  {
    if from < i {
      FirstSteppableIs(ps, vals, from + 1, i);
    }
  }

  lemma LastSteppableIs(ps: seq<Parameter>, vals: seq<real>, j: nat)
    requires j < |ps| == |vals|
    requires ps[j].CanStep(vals[j])
    requires forall k :: j < k < |ps| ==> !ps[k].CanStep(vals[k])
    ensures LastSteppable(ps, vals, |ps|) == j
  {
  }

  lemma LastSteppableNone(ps: seq<Parameter>, vals: seq<real>)
    requires |ps| == |vals|
    requires forall k :: 0 <= k < |ps| ==> !ps[k].CanStep(vals[k])
    ensures LastSteppable(ps, vals, |ps|) == -1
  {
  }

  // ------------------------------------------------------------ scalars

  /** A ParameterScalar: a plain number, or an expression text in parameter mode. */
  class ParameterScalar {
    var parameterMode: bool
    var modified: bool
    var text: string
    var value: real

    constructor ()
      ensures !parameterMode && modified && text == "" && value == 0.0
    {
      parameterMode := false;
      modified := true;
      text := "";
      value := 0.0;
    }

    /** SetValue(double): a plain number; the expression text is cleared. */
    method SetValue(val: real)
      modifies this`parameterMode, this`value, this`text
      ensures !parameterMode && value == val && text == ""
    {
      parameterMode := false;
      value := val;
      text := "";
    }

    /**
     * SetValue(string) without evaluation: -1 for an empty text; a text that
     * `parse` reads completely as a number is stored as that number; any
     * other text is kept as an expression and switches to parameter mode.
     */
    method SetValueText(val: string, parse: string -> Option<real>) returns (code: int)
      modifies this
      ensures val == [] ==> code == -1 && parameterMode == old(parameterMode) && value == old(value)
                            && text == old(text) && modified == old(modified)
      ensures val != [] && parse(val).Some? ==>
                code == 0 && !parameterMode && value == parse(val).value && text == "" && modified == old(modified)
      ensures val != [] && parse(val).None? ==>
                code == 0 && parameterMode && modified && text == val && value == old(value)
    {
      if val == [] {
        return -1;
      }
      var number := parse(val);
      if number.Some? {
        SetValue(number.value);
        return 0;
      }
      parameterMode := true;
      modified := true;
      text := val;
      return 0;
    }
  }
}

=== FILE: prim_box.dfy ===
/**
 * The box primitive: two corner points, start and stop, already expressed
 * in the mesh's coordinate system.
 */
module PrimBox {
  import opened Coordinates
  import opened BoundBoxes

  /** The corners as six bounds, start first on every axis. */
  function Interleave(start: seq<real>, stop: seq<real>): (bb: seq<real>)
    requires |start| == 3 && |stop| == 3
    ensures |bb| == 6
    ensures forall n :: 0 <= n < 3 ==> bb[2 * n] == start[n] && bb[2 * n + 1] == stop[n]
  {
    [start[0], stop[0], start[1], stop[1], start[2], stop[2]]
  }

  /** The bounds of one axis swapped where needed so the lower comes first. */
  function Oriented(bb: seq<real>): (r: seq<real>)
    requires |bb| == 6
    ensures |r| == 6
  {
    seq(6, j requires 0 <= j < 6 =>
      var lo, hi := bb[j - j % 2], bb[j - j % 2 + 1];
      if (j % 2 == 0) == (lo <= hi) then lo else hi)
  }

  /**
   * Orienting orders every axis, keeps the two values of each axis, keeps
   * the dimension, and leaves an ordered box as it is.
   */
  lemma OrientedProperties(bb: seq<real>)
    requires |bb| == 6
    ensures Ordered(Oriented(bb))
    ensures forall n :: 0 <= n < 3 ==>
              multiset{Oriented(bb)[2 * n], Oriented(bb)[2 * n + 1]} == multiset{bb[2 * n], bb[2 * n + 1]}
    ensures Dimension(Oriented(bb)) == Dimension(bb)
    ensures Ordered(bb) ==> Oriented(bb) == bb
  {
    var r := Oriented(bb);
    assert r[0] == (if bb[0] <= bb[1] then bb[0] else bb[1]) && r[1] == (if bb[0] <= bb[1] then bb[1] else bb[0]);
    assert r[2] == (if bb[2] <= bb[3] then bb[2] else bb[3]) && r[3] == (if bb[2] <= bb[3] then bb[3] else bb[2]);
    assert r[4] == (if bb[4] <= bb[5] then bb[4] else bb[5]) && r[5] == (if bb[4] <= bb[5] then bb[5] else bb[4]);
    DimensionSum(bb);
    DimensionSum(r);
  }

  /** Swaps the bounds of every axis whose lower bound exceeds its upper one. */
  method Orient(bb: array<real>)
    requires bb.Length == 6
    modifies bb
    ensures bb[..] == Oriented(old(bb[..]))
  {
    ghost var before := bb[..];
    ghost var oriented := Oriented(before);
    var i := 0;
    while i < 3
      invariant 0 <= i <= 3
      invariant forall m :: 0 <= m < 2 * i ==> bb[m] == oriented[m]
      invariant forall m :: 2 * i <= m < 6 ==> bb[m] == before[m]
    {
      if bb[2 * i] > bb[2 * i + 1] {
        var help := bb[2 * i];
        bb[2 * i] := bb[2 * i + 1];
        bb[2 * i + 1] := help;
      }
      i := i + 1;
    }
    assert bb[..] == oriented;
  }

  class Box {
    var start: seq<real>
    var stop: seq<real>
    var meshType: CoordinateSystem
    var primCoordSystem: CoordinateSystem
    var boundBoxCoordSys: CoordinateSystem
    var dimension: int

    ghost predicate Valid()
      reads this
    {
      |start| == 3 && |stop| == 3
    }

    /** A box between two corners, on a Cartesian mesh, with no coordinate system of its own. */
    constructor (p1: seq<real>, p2: seq<real>)
      requires |p1| == 3 && |p2| == 3
      ensures Valid() && start == p1 && stop == p2
      ensures meshType == Cartesian && primCoordSystem == Undefined && boundBoxCoordSys == Undefined && dimension == 0
    {
      start := p1;
      stop := p2;
      meshType := Cartesian;
      primCoordSystem := Undefined;
      boundBoxCoordSys := Undefined;
      dimension := 0;
    }

    /** The first loop of GetBoundBox: copies the corners into `bb` and counts the axes where they differ. */
    method FillCorners(bb: array<real>) returns (d: int)
      requires Valid() && bb.Length == 6
      modifies bb
      ensures bb[..] == Interleave(start, stop) && d == Dimension(bb[..])
    {
      ghost var corners := Interleave(start, stop);
      d := 0;
      var i := 0;
      while i < 3
        invariant 0 <= i <= 3
        invariant forall m :: 0 <= m < 2 * i ==> bb[m] == corners[m]
        invariant d == AxesUpTo(corners, i)
      {
        bb[2 * i] := start[i];
        bb[2 * i + 1] := stop[i];
        if start[i] != stop[i] {
          d := d + 1;
        }
        i := i + 1;
      }
      assert bb[..] == corners;
    }

    /**
     * Writes the bounds into `bb`: start and stop as given when the
     * orientation is to be preserved (and then reports the box valid),
     * otherwise swapped so each axis is ordered, and valid unless the box
     * has a coordinate system of its own that is not the mesh's. The
     * dimension counts the axes where start and stop differ.
     */
    method GetBoundBox(bb: array<real>, preserveOrientation: bool) returns (valid: bool)
      requires Valid() && bb.Length == 6
      modifies bb, this`dimension, this`boundBoxCoordSys
      ensures Valid() && boundBoxCoordSys == meshType
      ensures dimension == Dimension(Interleave(start, stop))
      ensures preserveOrientation ==> bb[..] == Interleave(start, stop) && valid
      ensures !preserveOrientation ==> bb[..] == Oriented(Interleave(start, stop)) && Ordered(bb[..])
      ensures !preserveOrientation ==> (valid <==> primCoordSystem == Undefined || primCoordSystem == meshType)
    {
      ghost var corners := Interleave(start, stop);
      boundBoxCoordSys := meshType;
      dimension := FillCorners(bb);
      if preserveOrientation {
        return true;
      }
      Orient(bb);
      OrientedProperties(corners);
      if meshType != primCoordSystem && primCoordSystem != Undefined {
        return false;
      }
      return true;
    }
  }
}

=== FILE: prim_multibox.dfy ===
/**
 * The multi-box primitive: a flat list of coordinates read six at a time,
 * each group of six (x0, x1, y0, y1, z0, z1) being one axis-aligned box.
 * Coordinates are the values of their parameter scalars.
 */
module PrimMultiBox {
  import opened Coordinates
  import opened BoundBoxes

  /** Number of complete boxes in a coordinate list. */
  function QtyBoxes(c: seq<real>): (q: nat)
    ensures 6 * q <= |c| < 6 * q + 6
  {
    |c| / 6
  }

  /** The two coordinates box `i` gives axis `n`, in stored order. */
  function Down(c: seq<real>, i: nat, n: nat): real
    requires i < QtyBoxes(c) && n < 3
  {
    c[6 * i + 2 * n]
  }

  function Up(c: seq<real>, i: nat, n: nat): real
    requires i < QtyBoxes(c) && n < 3
  {
    c[6 * i + 2 * n + 1]
  }

  /** The smaller of the two coordinates of box `i` on axis `n`. */
  function Lo(c: seq<real>, i: nat, n: nat): (r: real)
    requires i < QtyBoxes(c) && n < 3
    ensures r == Down(c, i, n) || r == Up(c, i, n)
    ensures r <= Down(c, i, n) && r <= Up(c, i, n)
  {
    if Down(c, i, n) <= Up(c, i, n) then Down(c, i, n) else Up(c, i, n)
  }

  /** The larger of the two coordinates of box `i` on axis `n`. */
  function Hi(c: seq<real>, i: nat, n: nat): (r: real)
    requires i < QtyBoxes(c) && n < 3
    ensures r == Down(c, i, n) || r == Up(c, i, n)
    ensures r >= Down(c, i, n) && r >= Up(c, i, n)
  {
    if Down(c, i, n) <= Up(c, i, n) then Up(c, i, n) else Down(c, i, n)
  }

  /** Lower bound on axis `n` over the first `k` boxes; 0 when there are none. */
  function BoundLo(c: seq<real>, k: nat, n: nat): real
    requires k <= QtyBoxes(c) && n < 3
  {
    if k == 0 then 0.0
    else if k == 1 then Lo(c, 0, n)
    else if Lo(c, k - 1, n) < BoundLo(c, k - 1, n) then Lo(c, k - 1, n)
    else BoundLo(c, k - 1, n)
  }

  /** Upper bound on axis `n` over the first `k` boxes; 0 when there are none. */
  function BoundHi(c: seq<real>, k: nat, n: nat): real
    requires k <= QtyBoxes(c) && n < 3
  {
    if k == 0 then 0.0
    else if k == 1 then Hi(c, 0, n)
    else if Hi(c, k - 1, n) > BoundHi(c, k - 1, n) then Hi(c, k - 1, n)
    else BoundHi(c, k - 1, n)
  }

  /** The bounds over the first `k` boxes, in the six-value layout. */
  function Bounds(c: seq<real>, k: nat): (bb: seq<real>)
    requires k <= QtyBoxes(c)
    ensures |bb| == 6
  {
    [BoundLo(c, k, 0), BoundHi(c, k, 0), BoundLo(c, k, 1), BoundHi(c, k, 1), BoundLo(c, k, 2), BoundHi(c, k, 2)]
  }

  /** The bounding box of all boxes. */
  function BoundBox(c: seq<real>): (bb: seq<real>)
    ensures |bb| == 6
  {
    Bounds(c, QtyBoxes(c))
  }

  /** Axis `m` while box `i` is being merged: its axes below `a` are already widened. */
  function StageLo(c: seq<real>, i: nat, a: nat, m: nat): real
    requires i < QtyBoxes(c) && m < 3
  {
    if m < a then BoundLo(c, i + 1, m) else BoundLo(c, i, m)
  }

  function StageHi(c: seq<real>, i: nat, a: nat, m: nat): real
    requires i < QtyBoxes(c) && m < 3
  {
    if m < a then BoundHi(c, i + 1, m) else BoundHi(c, i, m)
  }

  /** The six bounds while box `i` is being merged, axes below `a` done. */
  function Stage(c: seq<real>, i: nat, a: nat): (bb: seq<real>)
    requires i < QtyBoxes(c)
    ensures |bb| == 6
  {
    [StageLo(c, i, a, 0), StageHi(c, i, a, 0), StageLo(c, i, a, 1), StageHi(c, i, a, 1), StageLo(c, i, a, 2), StageHi(c, i, a, 2)]
  }

  /** Merging axis `a` of box `i` moves the stage on by one axis; no axis done is the old bounds, all three the new ones. */
  lemma StageStep(c: seq<real>, i: nat, a: nat)
    requires i < QtyBoxes(c) && a < 3
    ensures Stage(c, i, 0) == Bounds(c, i) && Stage(c, i, 3) == Bounds(c, i + 1)
    ensures Stage(c, i, a)[2 * a := BoundLo(c, i + 1, a)][2 * a + 1 := BoundHi(c, i + 1, a)] == Stage(c, i, a + 1)
  {
    var s := Stage(c, i, a)[2 * a := BoundLo(c, i + 1, a)][2 * a + 1 := BoundHi(c, i + 1, a)];
    var t := Stage(c, i, a + 1);
    assert forall j :: 0 <= j < 6 ==> s[j] == t[j];
  }

  /** The bounding box encloses every box, and each of its bounds is the bound of some box. */
  lemma {:induction false} BoundEnclosesBoxes(c: seq<real>, k: nat, n: nat)
    requires 1 <= k <= QtyBoxes(c) && n < 3
    ensures forall i :: 0 <= i < k ==> BoundLo(c, k, n) <= Lo(c, i, n) && Hi(c, i, n) <= BoundHi(c, k, n)
    ensures exists i :: 0 <= i < k && BoundLo(c, k, n) == Lo(c, i, n)
    ensures exists i :: 0 <= i < k && BoundHi(c, k, n) == Hi(c, i, n)
  {
    if k > 1 {
      BoundEnclosesBoxes(c, k - 1, n);
    }
  }

  /** The bounding box is ordered on every axis, with or without boxes. */
  lemma BoundBoxOrdered(c: seq<real>)
    ensures Ordered(BoundBox(c))
  {
    var k := QtyBoxes(c);
    if k > 0 {
      BoundEnclosesBoxes(c, k, 0);
      BoundEnclosesBoxes(c, k, 1);
      BoundEnclosesBoxes(c, k, 2);
      assert Lo(c, 0, 0) <= Hi(c, 0, 0);
    }
  }

  /** The point's coordinate `x` passes the test IsInside makes on axis `n` of box `i`. */
  predicate AxisHolds(c: seq<real>, i: nat, n: nat, x: real)
    requires i < QtyBoxes(c) && n < 3
  {
    if Down(c, i, n) < Up(c, i, n) then Down(c, i, n) <= x <= Up(c, i, n)
    else Up(c, i, n) <= x <= Down(c, i, n)
  }

  predicate InBox(c: seq<real>, i: nat, p: seq<real>)
    requires i < QtyBoxes(c) && |p| == 3
  {
    AxisHolds(c, i, 0, p[0]) && AxisHolds(c, i, 1, p[1]) && AxisHolds(c, i, 2, p[2])
  }

  /** Whatever the order of its coordinates, a box holds exactly the points between its low and high sides. */
  lemma InBoxBetween(c: seq<real>, i: nat, p: seq<real>)
    requires i < QtyBoxes(c) && |p| == 3
    ensures InBox(c, i, p) <==> forall n :: 0 <= n < 3 ==> Lo(c, i, n) <= p[n] <= Hi(c, i, n)
  {
    assert forall n :: 0 <= n < 3 ==> (AxisHolds(c, i, n, p[n]) <==> Lo(c, i, n) <= p[n] <= Hi(c, i, n));
  }

  /** A point inside one of the boxes is inside the bounding box. */
  lemma InsideWithinBoundBox(c: seq<real>, i: nat, p: seq<real>)
    requires i < QtyBoxes(c) && |p| == 3 && InBox(c, i, p)
    ensures forall n :: 0 <= n < 3 ==> BoundBox(c)[2 * n] <= p[n] <= BoundBox(c)[2 * n + 1]
  {
    InBoxBetween(c, i, p);
    var k := QtyBoxes(c);
    BoundEnclosesBoxes(c, k, 0);
    BoundEnclosesBoxes(c, k, 1);
    BoundEnclosesBoxes(c, k, 2);
  }

  class MultiBox {
    var coords: seq<real>
    var meshType: CoordinateSystem
    var boundBoxCoordSys: CoordinateSystem
    var dimension: int

    /** An empty multi-box on a Cartesian mesh. */
    constructor ()
      ensures coords == [] && meshType == Cartesian && boundBoxCoordSys == Undefined && dimension == 0
    {
      coords := [];
      meshType := Cartesian;
      boundBoxCoordSys := Undefined;
      dimension := 0;
    }

    /** Sets one coordinate; an index outside the list changes nothing. */
    method SetCoord(index: int, val: real)
      modifies this`coords
      ensures 0 <= index < |old(coords)| ==> coords == old(coords)[index := val] && GetCoord(index) == val
      ensures !(0 <= index < |old(coords)|) ==> coords == old(coords)
    {
      if 0 <= index < |coords| {
        coords := coords[index := val];
      }
    }

    method AddCoord(val: real)
      modifies this`coords
      ensures coords == old(coords) + [val]
    {
      coords := coords + [val];
    }

    /** The value of one coordinate, or 0 for an index outside the list. */
    function GetCoord(index: int): (r: real)
      reads this
      ensures 0 <= index < |coords| ==> r == coords[index]
      ensures !(0 <= index < |coords|) ==> r == 0.0
    {
      if 0 <= index < |coords| then coords[index] else 0.0
    }

    function GetQtyBoxes(): (q: nat)
      reads this
      ensures 6 * q <= |coords| < 6 * q + 6
    {
      QtyBoxes(coords)
    }

    /** Drops a trailing incomplete box, leaving a multiple of six coordinates. */
    method ClearOverlap()
      modifies this`coords
      ensures |coords| % 6 == 0 && GetQtyBoxes() == old(GetQtyBoxes())
      ensures coords == old(coords)[..|old(coords)| - |old(coords)| % 6]
    {
      if |coords| % 6 == 0 {
        assert coords[..|coords|] == coords;
        return;
      }
      coords := coords[..|coords| - |coords| % 6];
    }

    /**
     * Appends one box after dropping any incomplete one: a copy of box
     * `initBox` when that box exists, six zeros otherwise.
     */
    method AddBox(initBox: int)
      modifies this`coords
      ensures var c := old(coords)[..|old(coords)| - |old(coords)| % 6];
              if initBox < 0 || (initBox + 1) * 6 > |c| then coords == c + [0.0, 0.0, 0.0, 0.0, 0.0, 0.0]
              else coords == c + c[6 * initBox..6 * initBox + 6]
      ensures GetQtyBoxes() == old(GetQtyBoxes()) + 1 && |coords| % 6 == 0
    {
      ClearOverlap();
      ghost var c := coords;
      if initBox < 0 || (initBox + 1) * 6 > |coords| {
        var i := 0;
        while i < 6
          invariant 0 <= i <= 6
          invariant coords == c + seq(i, _ => 0.0)
        {
          AddCoord(0.0);
          i := i + 1;
        }
      } else {
        var i := 0;
        while i < 6
          invariant 0 <= i <= 6
          invariant coords == c + c[6 * initBox..6 * initBox + i]
        {
          AddCoord(coords[6 * initBox + i]);
          i := i + 1;
        }
      }
    }

    /** Removes the six coordinates of box `box`; a box past the end changes nothing. */
    method DeleteBox(box: nat)
      modifies this`coords
      ensures (box + 1) * 6 > |old(coords)| ==> coords == old(coords)
      ensures (box + 1) * 6 <= |old(coords)| ==>
                coords == old(coords)[..6 * box] + old(coords)[6 * box + 6..] && GetQtyBoxes() == old(GetQtyBoxes()) - 1
    {
      if (box + 1) * 6 > |coords| {
        return;
      }
      coords := coords[..6 * box] + coords[6 * box + 6..];
    }

    /**
     * Writes the bounding box of all boxes into `bb` (zeros when there are
     * none), records the dimension and the mesh's coordinate system, and
     * reports the box as not exact.
     */
    method GetBoundBox(bb: array<real>) returns (accurate: bool)
      requires bb.Length == 6
      modifies bb, this`dimension, this`boundBoxCoordSys
      ensures bb[..] == BoundBox(coords) && Ordered(bb[..])
      ensures dimension == Dimension(bb[..]) && boundBoxCoordSys == meshType
      ensures !accurate
    {
      ZeroFill(bb);
      var i := 0;
      while i < |coords| / 6
        invariant 0 <= i <= QtyBoxes(coords)
        invariant bb[..] == Bounds(coords, i)
      {
        MergeBox(bb, i);
        i := i + 1;
      }
      BoundBoxOrdered(coords);
      dimension := CountDimension(bb);
      boundBoxCoordSys := meshType;
      accurate := false;
    }

    /** The bounds of the first `i` boxes widened by box `i`, axis by axis. */
    method MergeBox(bb: array<real>, i: nat)
      requires bb.Length == 6 && i < QtyBoxes(coords)
      requires bb[..] == Bounds(coords, i)
      modifies bb
      ensures bb[..] == Bounds(coords, i + 1)
    {
      StageStep(coords, i, 0);
      var a := 0;
      while a < 3
        invariant 0 <= a <= 3
        invariant bb[..] == Stage(coords, i, a)
      {
        StageStep(coords, i, a);
        MergeAxis(bb, i, a);
        a := a + 1;
      }
    }

    /** One step of GetBoundBox: widens axis `a` of the bounds of the first `i` boxes by box `i`. */
    method MergeAxis(bb: array<real>, i: nat, a: nat)
      requires bb.Length == 6 && i < QtyBoxes(coords) && a < 3
      requires bb[2 * a] == BoundLo(coords, i, a) && bb[2 * a + 1] == BoundHi(coords, i, a)
      modifies bb
      ensures bb[..] == old(bb[..])[2 * a := BoundLo(coords, i + 1, a)][2 * a + 1 := BoundHi(coords, i + 1, a)]
    {
      var down := coords[6 * i + 2 * a];
      var up := coords[6 * i + 2 * a + 1];
      if down <= up {
        if i == 0 {
          bb[2 * a] := down;
          bb[2 * a + 1] := up;
        } else {
          if down < bb[2 * a] { bb[2 * a] := down; }
          if up > bb[2 * a + 1] { bb[2 * a + 1] := up; }
        }
      } else {
        if i == 0 {
          bb[2 * a] := up;
          bb[2 * a + 1] := down;
        } else {
          if up < bb[2 * a] { bb[2 * a] := up; }
          if down > bb[2 * a + 1] { bb[2 * a + 1] := down; }
        }
      }
    }

    /** True exactly when the point lies within some box on all three axes (the point is in mesh coordinates). */
    method IsInside(p: seq<real>) returns (inside: bool)
      requires |p| == 3
      ensures inside <==> exists i :: 0 <= i < QtyBoxes(coords) && InBox(coords, i, p)
    {
      var i := 0;
      while i < |coords| / 6
        invariant 0 <= i <= QtyBoxes(coords)
        invariant forall j :: 0 <= j < i ==> !InBox(coords, j, p)
      {
        var inBox := true;
        var n := 0;
        while n < 3
          invariant 0 <= n <= 3
          invariant inBox <==> forall m :: 0 <= m < n ==> AxisHolds(coords, i, m, p[m])
        {
          var up := coords[6 * i + 2 * n + 1];
          var down := coords[6 * i + 2 * n];
          if down < up {
            if down > p[n] { inBox := false; break; }
            if up < p[n] { inBox := false; break; }
          } else {
            if down < p[n] { inBox := false; break; }
            if up > p[n] { inBox := false; break; }
          }
          n := n + 1;
        }
        if inBox {
          assert InBox(coords, i, p);
          return true;
        }
        i := i + 1;
      }
      return false;
    }
  }
}

=== FILE: prim_polygon.dfy ===
/**
 * The polygon primitive: a flat list of coordinates read as (x, y)
 * vertex pairs in the plane normal to axis `normDir`, lifted to the
 * height `elevation` along that axis. The in-plane axes are
 * (normDir+1)%3 for x and (normDir+2)%3 for y.
 */
module PrimPolygon {
  import opened Coordinates
  import opened BoundBoxes

  /** Number of complete vertices. */
  function QtyVertices(c: seq<real>): (q: nat)
    ensures 2 * q <= |c| < 2 * q + 2
  {
    |c| / 2
  }

  /** Coordinate `o` (0 for x, 1 for y) of vertex `v`. */
  function Coord(c: seq<real>, v: nat, o: nat): real
    requires v < QtyVertices(c) && o < 2
  {
    c[2 * v + o]
  }

  /** The smallest coordinate `o` among the first `k` vertices. */
  function MinCoord(c: seq<real>, k: nat, o: nat): real
    requires 1 <= k <= QtyVertices(c) && o < 2
  {
    if k == 1 then Coord(c, 0, o)
    else if Coord(c, k - 1, o) < MinCoord(c, k - 1, o) then Coord(c, k - 1, o)
    else MinCoord(c, k - 1, o)
  }

  /** The largest coordinate `o` among the first `k` vertices. */
  function MaxCoord(c: seq<real>, k: nat, o: nat): real
    requires 1 <= k <= QtyVertices(c) && o < 2
  {
    if k == 1 then Coord(c, 0, o)
    else if Coord(c, k - 1, o) > MaxCoord(c, k - 1, o) then Coord(c, k - 1, o)
    else MaxCoord(c, k - 1, o)
  }

  /** The vertex extremes are vertex coordinates, and every vertex lies between them. */
  lemma {:induction false} ExtremesEnclose(c: seq<real>, k: nat, o: nat)
    requires 1 <= k <= QtyVertices(c) && o < 2
    ensures forall v :: 0 <= v < k ==> MinCoord(c, k, o) <= Coord(c, v, o) <= MaxCoord(c, k, o)
    ensures exists v :: 0 <= v < k && MinCoord(c, k, o) == Coord(c, v, o)
    ensures exists v :: 0 <= v < k && MaxCoord(c, k, o) == Coord(c, v, o)
  {
    if k > 1 {
      ExtremesEnclose(c, k - 1, o);
    }
  }

  /** Six bounds with the elevation on the normal axis and the in-plane ranges on the other two. */
  function Place(normDir: int, e: real, xlo: real, xhi: real, ylo: real, yhi: real): (bb: seq<real>)
    requires 0 <= normDir < 3
    ensures |bb| == 6
    ensures bb[2 * normDir] == e == bb[2 * normDir + 1]
    ensures bb[2 * ((normDir + 1) % 3)] == xlo && bb[2 * ((normDir + 1) % 3) + 1] == xhi
    ensures bb[2 * ((normDir + 2) % 3)] == ylo && bb[2 * ((normDir + 2) % 3) + 1] == yhi
  {
    if normDir == 0 then [e, e, xlo, xhi, ylo, yhi]
    else if normDir == 1 then [ylo, yhi, e, e, xlo, xhi]
    else [xlo, xhi, ylo, yhi, e, e]
  }

  /** The bounding box of a polygon with at least one vertex. */
  function PolygonBound(c: seq<real>, normDir: int, elevation: real): (bb: seq<real>)
    requires |c| >= 2 && 0 <= normDir < 3
    ensures |bb| == 6
  {
    var q := QtyVertices(c);
    Place(normDir, elevation, MinCoord(c, q, 0), MaxCoord(c, q, 0), MinCoord(c, q, 1), MaxCoord(c, q, 1))
  }

  /** The polygon's bounding box is ordered and encloses every vertex at the elevation. */
  lemma PolygonBoundEncloses(c: seq<real>, normDir: int, elevation: real)
    requires |c| >= 2 && 0 <= normDir < 3
    ensures Ordered(PolygonBound(c, normDir, elevation))
    ensures var bb := PolygonBound(c, normDir, elevation);
            var a, b := (normDir + 1) % 3, (normDir + 2) % 3;
            forall v :: 0 <= v < QtyVertices(c) ==>
              bb[2 * a] <= Coord(c, v, 0) <= bb[2 * a + 1] && bb[2 * b] <= Coord(c, v, 1) <= bb[2 * b + 1]
  {
    ExtremesEnclose(c, QtyVertices(c), 0);
    ExtremesEnclose(c, QtyVertices(c), 1);
    assert MinCoord(c, QtyVertices(c), 0) <= Coord(c, 0, 0) <= MaxCoord(c, QtyVertices(c), 0);
    assert MinCoord(c, QtyVertices(c), 1) <= Coord(c, 0, 1) <= MaxCoord(c, QtyVertices(c), 1);
  }

  // ------------------------------------------------------------ winding number

  /** The vertex an edge ending at `v` starts from; the first edge closes the polygon. */
  function Prev(c: seq<real>, v: nat): (u: nat)
    requires v < QtyVertices(c)
    ensures u < QtyVertices(c)
  {
    if v == 0 then QtyVertices(c) - 1 else v - 1
  }

  /** (x, y) lies strictly inside a vertical or horizontal edge ending at vertex `v`. */
  predicate OnEdge(c: seq<real>, v: nat, x: real, y: real)
    requires v < QtyVertices(c)
  {
    var x1, y1 := Coord(c, Prev(c, v), 0), Coord(c, Prev(c, v), 1);
    var x2, y2 := Coord(c, v, 0), Coord(c, v, 1);
    (x2 == x1 && x1 == x && ((y < y1 && y > y2) || (y > y1 && y < y2)))
    || (y2 == y1 && y1 == y && ((x < x1 && x > x2) || (x > x1 && x < x2)))
  }

  /**
   * What the edge ending at `v` adds to the winding number of (x, y): an
   * upward crossing with the point on its left counts +1, a downward
   * crossing with the point on its right counts -1.
   */
  function Crossing(c: seq<real>, v: nat, x: real, y: real): (w: int)
    requires v < QtyVertices(c)
    ensures -1 <= w <= 1
    ensures w != 0 ==> (Coord(c, Prev(c, v), 1) >= y) != (Coord(c, v, 1) >= y)
  {
    var x1, y1 := Coord(c, Prev(c, v), 0), Coord(c, Prev(c, v), 1);
    var x2, y2 := Coord(c, v, 0), Coord(c, v, 1);
    var startOver, endOver := y1 >= y, y2 >= y;
    if startOver == endOver then 0
    else if (y2 - y) * (x2 - x1) <= (y2 - y1) * (x2 - x) then (if endOver then 1 else 0)
    else (if !endOver then -1 else 0)
  }

  /** The winding number of (x, y) summed over the edges ending at the first `k` vertices. */
  function Winding(c: seq<real>, k: nat, x: real, y: real): int
    requires k <= QtyVertices(c)
  {
    if k == 0 then 0 else Winding(c, k - 1, x, y) + Crossing(c, k - 1, x, y)
  }

  predicate OnSomeEdge(c: seq<real>, x: real, y: real)
  {
    exists v :: 0 <= v < QtyVertices(c) && OnEdge(c, v, x, y)
  }

  /** The point lies within the six bounds. */
  predicate InBounds(bb: seq<real>, p: seq<real>)
    requires |bb| == 6 && |p| == 3
  {
    forall n :: 0 <= n < 3 ==> bb[2 * n] <= p[n] <= bb[2 * n + 1]
  }

  /** No edge crosses the horizontal line through a point above or below every vertex. */
  lemma {:induction false} WindingBeyondVertices(c: seq<real>, k: nat, x: real, y: real)
    requires k <= QtyVertices(c)
    requires (forall v :: 0 <= v < QtyVertices(c) ==> Coord(c, v, 1) > y)
          || (forall v :: 0 <= v < QtyVertices(c) ==> Coord(c, v, 1) < y)
    ensures Winding(c, k, x, y) == 0
  {
    if k > 0 {
      WindingBeyondVertices(c, k - 1, x, y);
      assert Crossing(c, k - 1, x, y) == 0;
    }
  }

  /** A point above or below every vertex is on no edge and has winding number 0. */
  lemma OutsideVerticalSpan(c: seq<real>, x: real, y: real)
    requires (forall v :: 0 <= v < QtyVertices(c) ==> Coord(c, v, 1) > y)
          || (forall v :: 0 <= v < QtyVertices(c) ==> Coord(c, v, 1) < y)
    ensures !OnSomeEdge(c, x, y) && Winding(c, QtyVertices(c), x, y) == 0
  {
    WindingBeyondVertices(c, QtyVertices(c), x, y);
  }

  /** The counter-clockwise unit square winds once around its centre. */
  lemma UnitSquareWinding()
    ensures Winding([0.0, 0.0, 1.0, 0.0, 1.0, 1.0, 0.0, 1.0], 4, 0.5, 0.5) == 1
  {
    var ccw := [0.0, 0.0, 1.0, 0.0, 1.0, 1.0, 0.0, 1.0];
    assert Crossing(ccw, 0, 0.5, 0.5) == 0 && Crossing(ccw, 1, 0.5, 0.5) == 0;
    assert Crossing(ccw, 2, 0.5, 0.5) == 1 && Crossing(ccw, 3, 0.5, 0.5) == 0;
    WindingOfFour(ccw, 0.5, 0.5);
  }

  /** The clockwise unit square winds once the other way around its centre. */
  lemma UnitSquareWindingClockwise()
    ensures Winding([0.0, 0.0, 0.0, 1.0, 1.0, 1.0, 1.0, 0.0], 4, 0.5, 0.5) == -1
  {
    var cw := [0.0, 0.0, 0.0, 1.0, 1.0, 1.0, 1.0, 0.0];
    assert Crossing(cw, 0, 0.5, 0.5) == 0 && Crossing(cw, 1, 0.5, 0.5) == 0;
    assert Crossing(cw, 2, 0.5, 0.5) == 0 && Crossing(cw, 3, 0.5, 0.5) == -1;
    WindingOfFour(cw, 0.5, 0.5);
  }

  /** A point to the right of the unit square is on none of its edges and not wound around. */
  lemma UnitSquareOutside()
    ensures Winding([0.0, 0.0, 1.0, 0.0, 1.0, 1.0, 0.0, 1.0], 4, 2.0, 0.5) == 0
    ensures !OnSomeEdge([0.0, 0.0, 1.0, 0.0, 1.0, 1.0, 0.0, 1.0], 2.0, 0.5)
  {
    var ccw := [0.0, 0.0, 1.0, 0.0, 1.0, 1.0, 0.0, 1.0];
    assert Crossing(ccw, 0, 2.0, 0.5) == 0 && Crossing(ccw, 1, 2.0, 0.5) == 0;
    assert Crossing(ccw, 2, 2.0, 0.5) == 0 && Crossing(ccw, 3, 2.0, 0.5) == 0;
    WindingOfFour(ccw, 2.0, 0.5);
    forall v | 0 <= v < 4
      ensures !OnEdge(ccw, v, 2.0, 0.5)
    {
    }
  }

  /** The winding number of a four-vertex polygon, edge by edge. */
  lemma WindingOfFour(c: seq<real>, x: real, y: real)
    requires |c| == 8
    ensures Winding(c, 4, x, y) == Crossing(c, 0, x, y) + Crossing(c, 1, x, y) + Crossing(c, 2, x, y) + Crossing(c, 3, x, y)
  {
    assert Winding(c, 1, x, y) == Crossing(c, 0, x, y);
    assert Winding(c, 2, x, y) == Winding(c, 1, x, y) + Crossing(c, 1, x, y);
    assert Winding(c, 3, x, y) == Winding(c, 2, x, y) + Crossing(c, 2, x, y);
  }

  /** Writes the elevation on the normal axis and the two in-plane ranges on the others. */
  method PlaceBounds(bb: array<real>, normDir: int, e: real, xlo: real, xhi: real, ylo: real, yhi: real)
    requires bb.Length == 6 && 0 <= normDir < 3
    modifies bb
    ensures bb[..] == Place(normDir, e, xlo, xhi, ylo, yhi)
  {
    var nP := (normDir + 1) % 3;
    var nPP := (normDir + 2) % 3;
    bb[2 * normDir] := e;
    bb[2 * normDir + 1] := e;
    bb[2 * nP] := xlo;
    bb[2 * nP + 1] := xhi;
    bb[2 * nPP] := ylo;
    bb[2 * nPP + 1] := yhi;
    assert bb[..] == Place(normDir, e, xlo, xhi, ylo, yhi);
  }

  class Polygon {
    var coords: seq<real>
    var normDir: int
    var elevation: real
    /** The bounding box cached by the last update, which IsInside consults first. */
    var boundBox: seq<real>
    var boundBoxCoordSys: CoordinateSystem
    /** Whether the cached bounding box was reported accurate when it was computed. */
    var boundBoxValid: bool
    var dimension: int

    ghost predicate Valid()
      reads this
    {
      0 <= normDir < 3 && |boundBox| == 6
    }

    /** An empty polygon normal to x at elevation 0, with a zero cached bounding box. */
    constructor ()
      ensures Valid()
      ensures coords == [] && normDir == 0 && elevation == 0.0 && dimension == 0
      ensures boundBox == [0.0, 0.0, 0.0, 0.0, 0.0, 0.0] && boundBoxCoordSys == Undefined && !boundBoxValid
    {
      coords := [];
      normDir := 0;
      elevation := 0.0;
      boundBox := [0.0, 0.0, 0.0, 0.0, 0.0, 0.0];
      boundBoxCoordSys := Undefined;
      boundBoxValid := false;
      dimension := 0;
    }

    /** Sets one coordinate; an index outside the list changes nothing. */
    method SetCoord(index: int, val: real)
      modifies this`coords
      ensures 0 <= index < |old(coords)| ==> coords == old(coords)[index := val] && GetCoord(index) == val
      ensures !(0 <= index < |old(coords)|) ==> coords == old(coords)
    {
      if 0 <= index < |coords| {
        coords := coords[index := val];
      }
    }

    method AddCoord(val: real)
      modifies this`coords
      ensures coords == old(coords) + [val] && GetQtyCoords() == QtyVertices(old(coords) + [val])
    {
      coords := coords + [val];
    }

    /** The value of one coordinate, or 0 for an index outside the list. */
    function GetCoord(index: int): (r: real)
      reads this
      ensures 0 <= index < |coords| ==> r == coords[index]
      ensures !(0 <= index < |coords|) ==> r == 0.0
    {
      if 0 <= index < |coords| then coords[index] else 0.0
    }

    /** The number of vertices: half the coordinates, an odd last one not counted. */
    function GetQtyCoords(): (q: nat)
      reads this
      ensures 2 * q <= |coords| < 2 * q + 2
    {
      QtyVertices(coords)
    }

    /** Sets the normal axis; a direction outside 0..2 is ignored. */
    method SetNormDir(dir: int)
      requires Valid()
      modifies this`normDir
      ensures Valid()
      ensures 0 <= dir < 3 ==> normDir == dir
      ensures !(0 <= dir < 3) ==> normDir == old(normDir)
    {
      if 0 <= dir < 3 {
        normDir := dir;
      }
    }

    /**
     * Writes the bounding box into `bb`. With fewer than two coordinates the
     * box is all zeros, the dimension is left alone and the result is true;
     * otherwise the box is PolygonBound, the dimension counts its extended
     * axes and the result is false. The box is Cartesian either way.
     */
    method GetBoundBox(bb: array<real>) returns (accurate: bool)
      requires Valid() && bb.Length == 6
      modifies bb, this`dimension, this`boundBoxCoordSys
      ensures Valid() && boundBoxCoordSys == Cartesian
      ensures |coords| < 2 ==> bb[..] == [0.0, 0.0, 0.0, 0.0, 0.0, 0.0] && accurate && dimension == old(dimension)
      ensures |coords| >= 2 ==> bb[..] == PolygonBound(coords, normDir, elevation) && !accurate && dimension == Dimension(bb[..])
    {
      accurate := false;
      boundBoxCoordSys := Cartesian;
      if |coords| < 2 {
        ZeroFill(bb);
        return true;
      }
      var xmin, xmax, ymin, ymax := Extremes();
      PlaceBounds(bb, normDir, elevation, xmin, xmax, ymin, ymax);
      dimension := CountDimension(bb);
    }

    /**
     * The last step of Update: the bounding box that IsInside consults is
     * recomputed by GetBoundBox, together with its accuracy flag.
     */
    method Update()
      requires Valid()
      modifies this`boundBox, this`boundBoxValid, this`dimension, this`boundBoxCoordSys
      ensures Valid() && boundBoxCoordSys == Cartesian
      ensures |coords| < 2 ==> boundBox == [0.0, 0.0, 0.0, 0.0, 0.0, 0.0] && boundBoxValid && dimension == old(dimension)
      ensures |coords| >= 2 ==> boundBox == PolygonBound(coords, normDir, elevation) && !boundBoxValid
                                && dimension == Dimension(boundBox)
    {
      var bb := new real[6];
      boundBoxValid := GetBoundBox(bb);
      boundBox := bb[..];
    }

    /** The loop over the vertices of GetBoundBox: the smallest and largest x and y. */
    method Extremes() returns (xmin: real, xmax: real, ymin: real, ymax: real)
      requires |coords| >= 2
      ensures xmin == MinCoord(coords, QtyVertices(coords), 0) && xmax == MaxCoord(coords, QtyVertices(coords), 0)
      ensures ymin == MinCoord(coords, QtyVertices(coords), 1) && ymax == MaxCoord(coords, QtyVertices(coords), 1)
    {
      xmin, xmax := coords[0], coords[0];
      ymin, ymax := coords[1], coords[1];
      var i := 1;
      while i < |coords| / 2
        invariant 1 <= i <= QtyVertices(coords)
        invariant xmin == MinCoord(coords, i, 0) && xmax == MaxCoord(coords, i, 0) && xmin <= xmax
        invariant ymin == MinCoord(coords, i, 1) && ymax == MaxCoord(coords, i, 1) && ymin <= ymax
      {
        var x := coords[2 * i];
        var y := coords[2 * i + 1];
        if x < xmin {
          xmin := x;
        } else if x > xmax {
          xmax := x;
        }
        if y < ymin {
          ymin := y;
        } else if y > ymax {
          ymax := y;
        }
        i := i + 1;
      }
    }
    /**
     * The winding-number test for a Cartesian point: false with fewer than
     * two coordinates or outside the cached bounding box; otherwise true when
     * the point is strictly inside a vertical or horizontal edge, or when
     * its winding number is not zero.
     */
    method IsInside(p: seq<real>) returns (inside: bool)
      requires Valid() && |p| == 3
      ensures var x, y := p[(normDir + 1) % 3], p[(normDir + 2) % 3];
              inside <==> |coords| >= 2 && InBounds(boundBox, p)
                          && (OnSomeEdge(coords, x, y) || Winding(coords, QtyVertices(coords), x, y) != 0)
    {
      if |coords| < 2 {
        return false;
      }
      var n := 0;
      while n < 3
        invariant 0 <= n <= 3
        invariant forall m :: 0 <= m < n ==> boundBox[2 * m] <= p[m] <= boundBox[2 * m + 1]
      {
        if boundBox[2 * n] > p[n] || boundBox[2 * n + 1] < p[n] {
          return false;
        }
        n := n + 1;
      }
      var x := p[(normDir + 1) % 3];
      var y := p[(normDir + 2) % 3];
      inside := WindingTest(x, y);
    }

    /** The edge test and winding-number loop of IsInside, for in-plane coordinates (x, y). */
    method WindingTest(x: real, y: real) returns (inside: bool)
      requires |coords| >= 2
      ensures inside <==> OnSomeEdge(coords, x, y) || Winding(coords, QtyVertices(coords), x, y) != 0
    {
      var wn := 0;
      var np := |coords| / 2;
      var x1 := coords[2 * np - 2];
      var y1 := coords[2 * np - 1];
      var x2 := coords[0];
      var y2 := coords[1];
      var startOver := y1 >= y;
      var i := 0;
      while i < np
        invariant 0 <= i <= np
        invariant x1 == coords[if i == 0 then 2 * np - 2 else 2 * i - 2]
        invariant y1 == coords[if i == 0 then 2 * np - 1 else 2 * i - 1]
        invariant startOver == (y1 >= y)
        invariant wn == Winding(coords, i, x, y)
        invariant forall v :: 0 <= v < i ==> !OnEdge(coords, v, x, y)
      {
        x2 := coords[2 * i];
        y2 := coords[2 * i + 1];
        if x2 == x1 && x1 == x && ((y < y1 && y > y2) || (y > y1 && y < y2)) {
          assert OnEdge(coords, i, x, y);
          return true;
        }
        if y2 == y1 && y1 == y && ((x < x1 && x > x2) || (x > x1 && x < x2)) {
          assert OnEdge(coords, i, x, y);
          return true;
        }
        var endOver := y2 >= y;
        if startOver != endOver {
          if (y2 - y) * (x2 - x1) <= (y2 - y1) * (x2 - x) {
            if endOver {
              wn := wn + 1;
            }
          } else {
            if !endOver {
              wn := wn - 1;
            }
          }
        }
        startOver := endOver;
        y1 := y2;
        x1 := x2;
        i := i + 1;
      }
      return wn != 0;
    }
  }
}

=== FILE: prop_dumpbox.dfy ===
/**
 * The dump-box property's sampling settings: a sub-sampling factor and an
 * optimal resolution per axis, each with a flag recording that it was set.
 */
module PropDumpBox {
  import opened Useful

  /** One more than the largest unsigned 32-bit integer. */
  const UIntModulus: int := 0x1_0000_0000

  /** The conversion of an int to an unsigned 32-bit integer: wrap-around modulo 2^32. */
  function ToUnsigned(n: int): (u: int)
    ensures 0 <= u < UIntModulus
    ensures 0 <= n < UIntModulus ==> u == n
    ensures n < 0 && -UIntModulus <= n ==> u == n + UIntModulus
  {
    n % UIntModulus
  }

  /** Every axis among the first three that `vals` covers takes its value when that is at least 1. */
  function MergeSampling(cur: seq<int>, vals: seq<int>): (r: seq<int>)
    requires |cur| == 3
    ensures |r| == 3
    ensures forall n :: 0 <= n < 3 ==> r[n] == if n < |vals| && vals[n] >= 1 then vals[n] else cur[n]
  {
    seq(3, n requires 0 <= n < 3 => if n < |vals| && vals[n] >= 1 then vals[n] else cur[n])
  }

  /** Every axis among the first three that `vals` covers takes its value when that is not negative. */
  function MergeResolution(cur: seq<real>, vals: seq<real>): (r: seq<real>)
    requires |cur| == 3
    ensures |r| == 3
    ensures forall n :: 0 <= n < 3 ==> r[n] == if n < |vals| && vals[n] >= 0.0 then vals[n] else cur[n]
  {
    seq(3, n requires 0 <= n < 3 => if n < |vals| && vals[n] >= 0.0 then vals[n] else cur[n])
  }

  /** The values a resolution string assigns: a single value stands for all three axes. */
  function SpreadSingle(values: seq<real>): (r: seq<real>)
    ensures |values| == 1 ==> r == [values[0], values[0], values[0]]
    ensures |values| != 1 ==> r == values
  {
    if |values| == 1 then [values[0], values[0], values[0]] else values
  }

  /** Some axis among the first three that `vals` covers is accepted. */
  predicate AnySampling(vals: seq<int>)
  {
    exists n :: 0 <= n < 3 && n < |vals| && vals[n] >= 1
  }

  predicate AnyResolution(vals: seq<real>)
  {
    exists n :: 0 <= n < 3 && n < |vals| && vals[n] >= 0.0
  }

  /** Sampling values that are at least 1 and fit 32 bits stay so under any merge of such values. */
  lemma MergeSamplingKeepsBounds(cur: seq<int>, vals: seq<int>)
    requires |cur| == 3 && forall n :: 0 <= n < 3 ==> 1 <= cur[n] < UIntModulus
    requires forall n :: 0 <= n < |vals| ==> vals[n] < UIntModulus
    ensures forall n :: 0 <= n < 3 ==> 1 <= MergeSampling(cur, vals)[n] < UIntModulus
  {
  }

  /** A single non-negative resolution sets every axis to it. */
  lemma SingleResolutionAllAxes(cur: seq<real>, v: real)
    requires |cur| == 3 && v >= 0.0
    ensures MergeResolution(cur, SpreadSingle([v])) == [v, v, v]
  {
  }

  /** A negative number in a sub-sampling string wraps to a large accepted factor: -1 becomes 2^32 - 1. */
  lemma NegativeSamplingWraps(cur: seq<int>)
    requires |cur| == 3
    ensures MergeSampling(cur, [ToUnsigned(-1)])[0] == 0xFFFF_FFFF
  {
  }

  class DumpBox {
    var dumpType: int
    var dumpMode: int
    var fileType: int
    var multiGridLevel: int
    var subSamplingSet: bool
    const subSampling: array<int>
    var optResolutionSet: bool
    const optResolution: array<real>

    /** Three sub-sampling factors, each at least 1 and unsigned 32-bit, and three resolutions. */
    ghost predicate Valid()
      reads this, subSampling
    {
      subSampling.Length == 3 && optResolution.Length == 3
      && forall n :: 0 <= n < 3 ==> 1 <= subSampling[n] < UIntModulus
    }

    constructor ()
      ensures Valid() && fresh(subSampling) && fresh(optResolution)
      ensures subSampling[..] == [1, 1, 1] && optResolution[..] == [1.0, 1.0, 1.0]
      ensures !subSamplingSet && !optResolutionSet
      ensures dumpType == 0 && dumpMode == 0 && fileType == 0 && multiGridLevel == 0
    {
      subSampling := new int[3];
      optResolution := new real[3];
      new;
      Init();
    }

    /** Resets every setting: factors and resolutions 1, flags cleared, dump type, mode, file type and level 0. */
    method Init()
      requires subSampling.Length == 3 && optResolution.Length == 3
      modifies this, subSampling, optResolution
      ensures Valid()
      ensures subSampling[..] == [1, 1, 1] && optResolution[..] == [1.0, 1.0, 1.0]
      ensures !subSamplingSet && !optResolutionSet
      ensures dumpType == 0 && dumpMode == 0 && fileType == 0 && multiGridLevel == 0
    {
      dumpType := 0;
      dumpMode := 0;
      fileType := 0;
      multiGridLevel := 0;
      subSamplingSet := false;
      subSampling[0] := 1;
      subSampling[1] := 1;
      subSampling[2] := 1;
      optResolutionSet := false;
      optResolution[0] := 1.0;
      optResolution[1] := 1.0;
      optResolution[2] := 1.0;
    }

    /** Switches sub-sampling on or off; the factors themselves are kept. */
    method SetSubSamplingFlag(val: bool)
      requires Valid()
      modifies this`subSamplingSet
      ensures Valid() && subSamplingSet == val
      ensures subSampling[..] == old(subSampling[..]) && optResolutionSet == old(optResolutionSet)
    {
      subSamplingSet := val;
    }

    /** Switches the optimal resolution on or off; the resolutions themselves are kept. */
    method SetOptResolutionFlag(val: bool)
      requires Valid()
      modifies this`optResolutionSet
      ensures Valid() && optResolutionSet == val
      ensures optResolution[..] == old(optResolution[..]) && subSamplingSet == old(subSamplingSet)
    {
      optResolutionSet := val;
    }

    /** Sets the factor of axis `ny` to the unsigned `val`; a bad axis or a factor below 1 changes nothing. */
    method SetSubSampling(ny: int, val: int)
      requires Valid() && 0 <= val < UIntModulus
      modifies this`subSamplingSet, subSampling
      ensures Valid()
      ensures 0 <= ny < 3 && val >= 1 ==>
                subSampling[..] == old(subSampling[..])[ny := val] && subSamplingSet && GetSubSampling(ny) == val
      ensures !(0 <= ny < 3 && val >= 1) ==> subSampling[..] == old(subSampling[..]) && subSamplingSet == old(subSamplingSet)
    {
      if ny < 0 || ny > 2 {
        return;
      }
      if val < 1 {
        return;
      }
      subSamplingSet := true;
      subSampling[ny] := val;
    }

    /** Sets all three factors in turn from an array of unsigned values. */
    method SetSubSamplingAll(vals: seq<int>)
      requires Valid() && |vals| == 3 && forall n :: 0 <= n < 3 ==> 0 <= vals[n] < UIntModulus
      modifies this`subSamplingSet, subSampling
      ensures Valid()
      ensures subSampling[..] == MergeSampling(old(subSampling[..]), vals)
      ensures subSamplingSet == (old(subSamplingSet) || AnySampling(vals))
    {
      SetSubSamplingEach(vals);
    }

    /**
     * Sets the factors from a comma-separated string of integers, one per
     * non-empty field and at most three; each integer is converted to
     * unsigned first, so a negative one wraps to a large factor.
     */
    method SetSubSamplingText(vals: string)
      requires Valid()
      modifies this`subSamplingSet, subSampling
      ensures Valid()
      ensures var values := Map32(String2IntAll(NonEmpty(Chunks(vals, ','))));
              subSampling[..] == MergeSampling(old(subSampling[..]), values)
              && subSamplingSet == (old(subSamplingSet) || AnySampling(values))
    {
      var values := SplitString2Int(vals, ',');
      SetSubSamplingEach(Map32(values));
    }

    /** The loop shared by the array and string overloads: sets the first three factors in turn. */
    method SetSubSamplingEach(vals: seq<int>)
      requires Valid() && forall n :: 0 <= n < |vals| ==> 0 <= vals[n] < UIntModulus
      modifies this`subSamplingSet, subSampling
      ensures Valid()
      ensures subSampling[..] == MergeSampling(old(subSampling[..]), vals)
      ensures subSamplingSet == (old(subSamplingSet) || AnySampling(vals))
    {
      ghost var start := subSampling[..];
      var ny := 0;
      while ny < 3 && ny < |vals|
        invariant 0 <= ny <= 3 && ny <= |vals|
        invariant Valid()
        invariant subSampling[..] == MergeSampling(start, vals[..ny])
        invariant subSamplingSet == (old(subSamplingSet) || AnySampling(vals[..ny]))
      {
        SetSubSampling(ny, vals[ny]);
        ny := ny + 1;
      }
      assert MergeSampling(start, vals[..ny]) == MergeSampling(start, vals);
      assert AnySampling(vals[..ny]) == AnySampling(vals);
    }

    /** The factor of axis `ny`, or 1 for a bad axis; always at least 1. */
    function GetSubSampling(ny: int): (r: int)
      requires Valid()
      reads this, subSampling
      ensures 1 <= r < UIntModulus
      ensures 0 <= ny < 3 ==> r == subSampling[ny]
      ensures !(0 <= ny < 3) ==> r == 1
    {
      if ny < 0 || ny > 2 then 1 else subSampling[ny]
    }

    /** Sets the resolution of axis `ny`; a bad axis or a negative value changes nothing. */
    method SetOptResolution(ny: int, val: real)
      requires Valid()
      modifies this`optResolutionSet, optResolution
      ensures Valid()
      ensures 0 <= ny < 3 && val >= 0.0 ==>
                optResolution[..] == old(optResolution[..])[ny := val] && optResolutionSet && GetOptResolution(ny) == val
      ensures !(0 <= ny < 3 && val >= 0.0) ==> optResolution[..] == old(optResolution[..]) && optResolutionSet == old(optResolutionSet)
    {
      if ny < 0 || ny > 2 {
        return;
      }
      if val < 0.0 {
        return;
      }
      optResolutionSet := true;
      optResolution[ny] := val;
    }

    /** Sets the first three resolutions in turn. */
    method SetOptResolutionEach(vals: seq<real>)
      requires Valid()
      modifies this`optResolutionSet, optResolution
      ensures Valid()
      ensures optResolution[..] == MergeResolution(old(optResolution[..]), vals)
      ensures optResolutionSet == (old(optResolutionSet) || AnyResolution(vals))
    {
      ghost var start := optResolution[..];
      var ny := 0;
      while ny < 3 && ny < |vals|
        invariant 0 <= ny <= 3 && ny <= |vals|
        invariant Valid()
        invariant optResolution[..] == MergeResolution(start, vals[..ny])
        invariant optResolutionSet == (old(optResolutionSet) || AnyResolution(vals[..ny]))
      {
        SetOptResolution(ny, vals[ny]);
        ny := ny + 1;
      }
      assert MergeResolution(start, vals[..ny]) == MergeResolution(start, vals);
      assert AnyResolution(vals[..ny]) == AnyResolution(vals);
    }

    /** Sets all three resolutions in turn from an array. */
    method SetOptResolutionAll(vals: seq<real>)
      requires Valid() && |vals| == 3
      modifies this`optResolutionSet, optResolution
      ensures Valid()
      ensures optResolution[..] == MergeResolution(old(optResolution[..]), vals)
      ensures optResolutionSet == (old(optResolutionSet) || AnyResolution(vals))
    {
      SetOptResolutionEach(vals);
    }

    /**
     * Sets the resolutions from a comma-separated string of numbers, read by
     * `parse`; a single number applies to all three axes.
     */
    method SetOptResolutionText(vals: string, parse: string -> Option<real>)
      requires Valid()
      modifies this`optResolutionSet, optResolution
      ensures Valid()
      ensures var values := SpreadSingle(ParsedFields(Fields(vals, ','), parse));
              optResolution[..] == MergeResolution(old(optResolution[..]), values)
              && optResolutionSet == (old(optResolutionSet) || AnyResolution(values))
    {
      var values := SplitString2Double(vals, ',', parse);
      if |values| == 1 {
        SetOptResolutionEach([values[0], values[0], values[0]]);
        return;
      }
      SetOptResolutionEach(values);
    }

    /** The resolution of axis `ny`, or 1 for a bad axis. */
    function GetOptResolution(ny: int): (r: real)
      requires Valid()
      reads this, subSampling, optResolution
      ensures 0 <= ny < 3 ==> r == optResolution[ny]
      ensures !(0 <= ny < 3) ==> r == 1.0
    {
      if ny < 0 || ny > 2 then 1.0 else optResolution[ny]
    }
  }

  /** The integers of a sub-sampling string as unsigned values. */
  function Map32(values: seq<int>): (r: seq<int>)
    ensures |r| == |values|
    ensures forall n :: 0 <= n < |values| ==> r[n] == ToUnsigned(values[n])
  {
    seq(|values|, n requires 0 <= n < |values| => ToUnsigned(values[n]))
  }
}

=== FILE: properties.dfy ===
// Primitives and the properties that own them. A primitive points at its
// owning property and the property lists its primitives, so both classes
// live in one module.
module Properties {
  import opened Coordinates
  import opened Lists
  import opened Useful
  import Transform
  import opened BoundBoxes

  /** PropertyType ANY: every type bit set. */
  const AnyType: bv32 := 0xffff

  // ------------------------------------------------------------ coordinates in a range

  function Min(a: real, b: real): real { if a < b then a else b }
  function Max(a: real, b: real): real { if a < b then b else a }

  /** Every coordinate lies between the smaller and the larger of start and stop. */
  predicate InRange(p: seq<real>, start: seq<real>, stop: seq<real>)
    requires |p| == 3 && |start| == 3 && |stop| == 3
  {
    forall n :: 0 <= n < 3 ==> Min(start[n], stop[n]) <= p[n] <= Max(start[n], stop[n])
  }

  /** CoordInRange for Cartesian input: axis by axis, false at the first axis out of range. */
  method CoordInRange(coord: seq<real>, start: seq<real>, stop: seq<real>) returns (inside: bool)
    requires |coord| == 3 && |start| == 3 && |stop| == 3
    ensures inside <==> InRange(coord, start, stop)
  {
    var n := 0;
    while n < 3
      invariant 0 <= n <= 3
      invariant forall k :: 0 <= k < n ==> Min(start[k], stop[k]) <= coord[k] <= Max(start[k], stop[k])
    {
      if coord[n] < Min(start[n], stop[n]) || coord[n] > Max(start[n], stop[n]) {
        return false;
      }
      n := n + 1;
    }
    return true;
  }

  /** The lower corner (entries 0, 2, 4) of a bounding box. */
  function Lower(box: seq<real>): (p: seq<real>)
    requires |box| == 6
    ensures |p| == 3
  {
    [box[0], box[2], box[4]]
  }

  /** The upper corner (entries 1, 3, 5) of a bounding box. */
  function Upper(box: seq<real>): (p: seq<real>)
    requires |box| == 6
    ensures |p| == 3
  {
    [box[1], box[3], box[5]]
  }

  /** On axis i both ends of `box` lie below both ends of `bb`, or both above. */
  predicate AxisSeparated(box: seq<real>, bb: seq<real>, i: nat)
    requires |box| == 6 && |bb| == 6 && i < 3
  {
    (box[2 * i] < bb[2 * i] && box[2 * i] < bb[2 * i + 1] && box[2 * i + 1] < bb[2 * i] && box[2 * i + 1] < bb[2 * i + 1])
    || (box[2 * i] > bb[2 * i] && box[2 * i] > bb[2 * i + 1] && box[2 * i + 1] > bb[2 * i] && box[2 * i + 1] > bb[2 * i + 1])
  }

  predicate Separated(box: seq<real>, bb: seq<real>)
    requires |box| == 6 && |bb| == 6
  {
    exists i :: 0 <= i < 3 && AxisSeparated(box, bb, i)
  }

  /** Boxes separated on some axis share no point: the -1 answer of IsInsideBox is sound. */
  lemma SeparatedDisjoint(box: seq<real>, bb: seq<real>, p: seq<real>)
    requires |box| == 6 && |bb| == 6 && |p| == 3
    requires Separated(box, bb)
    ensures !(InRange(p, Lower(box), Upper(box)) && InRange(p, Lower(bb), Upper(bb)))
  {
    var i :| 0 <= i < 3 && AxisSeparated(box, bb, i);
    assert Lower(box)[i] == box[2 * i] && Upper(box)[i] == box[2 * i + 1];
    assert Lower(bb)[i] == bb[2 * i] && Upper(bb)[i] == bb[2 * i + 1];
  }

  // ------------------------------------------------------------ attribute map

  /** The value stored for `name`, the first match; the empty string when there is none. */
  function Lookup(names: seq<string>, values: seq<string>, name: string): (v: string)
    requires |names| == |values|
  {
    if name in names then values[IndexOf(names, name)] else ""
  }

  /** SetAttributeValue on the two lists: update in place, append when new, ignore an empty name. */
  function SetAttr(names: seq<string>, values: seq<string>, name: string, value: string): (r: (seq<string>, seq<string>))
    requires |names| == |values|
    ensures |r.0| == |r.1|
  {
    if name == "" then (names, values)
    else if name in names then (names, values[IndexOf(names, name) := value])
    else (names + [name], values + [value])
  }

  /** RemoveAttribute on the two lists: erase the first match from both, ignore an empty name. */
  function RemoveAttr(names: seq<string>, values: seq<string>, name: string): (r: (seq<string>, seq<string>))
    requires |names| == |values|
    ensures |r.0| == |r.1|
  {
    if name == "" || name !in names then (names, values)
    else (RemoveAt(names, IndexOf(names, name)), RemoveAt(values, IndexOf(names, name)))
  }

  /** After setting, the name exists and reads back the value; every other name keeps its value. */
  lemma SetAttrLookup(names: seq<string>, values: seq<string>, name: string, value: string)
    requires |names| == |values|
    ensures var r := SetAttr(names, values, name, value);
            name != "" ==> name in r.0 && Lookup(r.0, r.1, name) == value
    ensures var r := SetAttr(names, values, name, value);
            forall other :: other != name ==> Lookup(r.0, r.1, other) == Lookup(names, values, other)
    ensures name in names ==> |SetAttr(names, values, name, value).0| == |names|
    ensures Distinct(names) ==> Distinct(SetAttr(names, values, name, value).0)
  {
    var r := SetAttr(names, values, name, value);
    if name != "" && name !in names {
      assert r.0[|names|] == name;
      forall other | other != name
        ensures Lookup(r.0, r.1, other) == Lookup(names, values, other)
      {
        if other in names {
          IndexOfAppend(names, other, name);
        }
      }
      assert IndexOf(r.0, name) == |names|;
    }
  }

  /** After removing, a name that was unique is gone, every other name keeps its value, and the lists stay in step. */
  lemma RemoveAttrLookup(names: seq<string>, values: seq<string>, name: string)
    requires |names| == |values| && Distinct(names)
    ensures var r := RemoveAttr(names, values, name);
            (name != "" ==> name !in r.0) && Distinct(r.0)
    ensures var r := RemoveAttr(names, values, name);
            forall other :: other != name ==> Lookup(r.0, r.1, other) == Lookup(names, values, other)
  {
    if name != "" && name in names {
      var i := IndexOf(names, name);
      var r := RemoveAttr(names, values, name);
      RemoveAtElems(names, i);
      forall other | other != name
        ensures Lookup(r.0, r.1, other) == Lookup(names, values, other)
      {
        if other in names {
          var k := IndexOf(names, other);
          var k' := if k < i then k else k - 1;
          assert r.0[k'] == other;
          IndexOfDistinct(r.0, k');
        } else {
          assert other !in r.0;
        }
      }
    }
  }

  // ------------------------------------------------------------ priority winner

  /**
   * The index CheckCoordInPrimitive settles on: among the hits, the one of
   * highest priority, the earliest on ties; None when nothing is hit.
   */
  function Best(prio: seq<int>, hit: seq<bool>): (r: Option<nat>)
    requires |prio| == |hit|
    ensures r.Some? ==> r.value < |hit| && hit[r.value]
    decreases |hit|
  {
    if |hit| == 0 then None
    else
      var n := |hit| - 1;
      var prev := Best(prio[..n], hit[..n]);
      if hit[n] && (prev.None? || prio[n] > prio[prev.value]) then Some(n) else prev
  }

  /**
   * Best finds nothing exactly when nothing is hit; otherwise its pick has
   * the highest priority among the hits, and every earlier hit has a
   * strictly lower one.
   */
  lemma {:induction false} BestIsFirstHighest(prio: seq<int>, hit: seq<bool>)
    requires |prio| == |hit|
    ensures var r := Best(prio, hit);
            (r.None? <==> forall i :: 0 <= i < |hit| ==> !hit[i])
            && (r.Some? ==> forall j :: 0 <= j < |hit| && hit[j] ==> prio[j] <= prio[r.value])
            && (r.Some? ==> forall j :: 0 <= j < r.value && hit[j] ==> prio[j] < prio[r.value])
    decreases |hit|
  {
    if |hit| > 0 {
      var n := |hit| - 1;
      BestIsFirstHighest(prio[..n], hit[..n]);
      assert forall j :: 0 <= j < n ==> prio[..n][j] == prio[j] && hit[..n][j] == hit[j];
    }
  }

  /** One more candidate wins only with a hit of strictly higher priority than the winner so far. */
  lemma BestStep(prio: seq<int>, hit: seq<bool>, i: nat)
    requires |prio| == |hit| && i < |hit|
    ensures var prev := Best(prio[..i], hit[..i]);
            Best(prio[..i + 1], hit[..i + 1])
              == if hit[i] && (prev.None? || prio[i] > prio[prev.value]) then Some(i) else prev
  {
    assert prio[..i + 1][..i] == prio[..i] && hit[..i + 1][..i] == hit[..i];
  }

  /** The priorities of a list of primitives. */
  function Priorities(ps: seq<Primitive>): (r: seq<int>)
    reads ps
    ensures |r| == |ps|
  {
    if ps == [] then [] else Priorities(ps[..|ps| - 1]) + [ps[|ps| - 1].priority]
  }

  /** Entry `i` of the priority list is primitive `i`'s priority. */
  lemma {:induction false} PrioritiesAt(ps: seq<Primitive>, i: nat)
    requires i < |ps|
    ensures Priorities(ps)[i] == ps[i].priority
    decreases |ps|
  {
    if i < |ps| - 1 {
      PrioritiesAt(ps[..|ps| - 1], i);
    }
  }

  /** Which primitives of a list contain the point, as the primitives' own IsInside decides. */
  function Hits(ps: seq<Primitive>, isInside: Primitive -> bool): (r: seq<bool>)
    ensures |r| == |ps|
  {
    if ps == [] then [] else Hits(ps[..|ps| - 1], isInside) + [isInside(ps[|ps| - 1])]
  }

  /** Entry `i` of the hit list says whether primitive `i` contains the point. */
  lemma {:induction false} HitsAt(ps: seq<Primitive>, isInside: Primitive -> bool, i: nat)
    requires i < |ps|
    ensures Hits(ps, isInside)[i] == isInside(ps[i])
    decreases |ps|
  {
    if i < |ps| - 1 {
      HitsAt(ps[..|ps| - 1], isInside, i);
    }
  }

  /** The non-null ones of two owner references. */
  function Owners(a: Property?, b: Property?): set<Property>
  {
    (if a == null then {} else {a}) + (if b == null then {} else {b})
  }

  /** The global counter new primitives draw their IDs from. */
  class IdCounter {
    var next: nat

    constructor ()
      ensures next == 0
    {
      next := 0;
    }
  }

  // ------------------------------------------------------------ primitives

  class Primitive {
    var id: nat
    var priority: int
    var property: Property?
    var used: bool
    var meshType: CoordinateSystem
    var primCoordSystem: CoordinateSystem
    var boundBoxCoordSys: CoordinateSystem
    var dimension: int
    var boundBox: array<real>
    var boundBoxValid: bool
    var transform: Transform.CSTransform?

    ghost predicate Valid()
      reads this
    {
      boundBox.Length == 6
    }

    /** A new primitive with a fresh ID, handed to `prop` when that is not null. */
    constructor (counter: IdCounter, prop: Property?)
      requires prop != null ==> Distinct(prop.primitives)
      modifies counter, prop
      ensures Valid() && fresh(boundBox)
      ensures id == old(counter.next) && counter.next == old(counter.next) + 1
      ensures priority == 0 && !used && dimension == 0 && !boundBoxValid && transform == null
      ensures meshType == Cartesian && primCoordSystem == Undefined && boundBoxCoordSys == Undefined
      ensures boundBox[..] == [0.0, 0.0, 0.0, 0.0, 0.0, 0.0]
      ensures property == prop
      ensures prop != null ==> prop.primitives == old(prop.primitives) + [this]
    {
      boundBox := new real[6];
      new;
      Init(counter);
      SetProperty(prop);
    }

    /** Priority 0, unused, Cartesian mesh, undefined coordinate systems, a zero and invalid bounding box. */
    method Init(counter: IdCounter)
      requires Valid()
      modifies this, boundBox, counter
      ensures Valid() && boundBox == old(boundBox)
      ensures id == old(counter.next) && counter.next == old(counter.next) + 1
      ensures property == null && transform == null && priority == 0 && !used
      ensures meshType == Cartesian && primCoordSystem == Undefined && boundBoxCoordSys == Undefined
      ensures dimension == 0 && !boundBoxValid
      ensures boundBox[..] == [0.0, 0.0, 0.0, 0.0, 0.0, 0.0]
    {
      property := null;
      transform := null;
      id := counter.next;
      counter.next := counter.next + 1;
      priority := 0;
      used := false;
      meshType := Cartesian;
      primCoordSystem := Undefined;
      boundBoxCoordSys := Undefined;
      dimension := 0;
      ZeroFill(boundBox);
      boundBoxValid := false;
    }

    /**
     * Moves this primitive to `prop`: the old owner, when another one,
     * drops it, and `prop` lists it once.
     */
    method SetProperty(prop: Property?)
      requires property != null ==> Distinct(property.primitives)
      requires prop != null ==> Distinct(prop.primitives)
      modifies this`property, Owners(property, prop)`primitives
      ensures property == prop
      ensures old(property) != null && old(property) != prop ==>
                old(property).primitives == RemoveFirst(old(property.primitives), this)
                && Distinct(old(property).primitives)
      ensures prop != null ==>
                prop.primitives == (if this in old(prop.primitives) then old(prop.primitives) else old(prop.primitives) + [this])
                && Distinct(prop.primitives)
    {
      var owner := property;
      if owner != null && owner != prop {
        if this in owner.primitives {
          RemoveAtElems(owner.primitives, IndexOf(owner.primitives, this));
        }
        owner.primitives := RemoveFirst(owner.primitives, this);
      }
      property := prop;
      if prop != null && this !in prop.primitives {
        prop.primitives := prop.primitives + [this];
      }
    }

    /** Nothing can be decided: no valid bounding box, a mismatched coordinate system, or a transform. */
    predicate Undecidable()
      reads this, transform
    {
      !boundBoxValid
      || (boundBoxCoordSys != Undefined && boundBoxCoordSys != meshType)
      || (transform != null && transform.HasTransform())
    }

    /**
     * 0 when undecidable, -1 when `box` lies outside the cached bounding
     * box on some axis, 1 otherwise.
     */
    method IsInsideBox(box: seq<real>) returns (r: int)
      requires Valid() && |box| == 6
      ensures r == 0 <==> Undecidable()
      ensures r == -1 <==> !Undecidable() && Separated(box, boundBox[..])
      ensures r == 1 <==> !Undecidable() && !Separated(box, boundBox[..])
    {
      if !boundBoxValid {
        return 0;
      }
      if boundBoxCoordSys != Undefined && boundBoxCoordSys != meshType {
        return 0;
      }
      if transform != null {
        if transform.HasTransform() {
          return 0;
        }
      }
      var bb := boundBox[..];
      var i := 0;
      while i < 3
        invariant 0 <= i <= 3
        invariant forall k :: 0 <= k < i ==> !AxisSeparated(box, bb, k)
      {
        var lo := 2 * i;
        var up := lo + 1;
        if box[lo] < bb[lo] && box[lo] < bb[up] && box[up] < bb[lo] && box[up] < bb[up] {
          assert AxisSeparated(box, bb, i);
          return -1;
        }
        if box[lo] > bb[lo] && box[lo] > bb[up] && box[up] > bb[lo] && box[up] > bb[up] {
          assert AxisSeparated(box, bb, i);
          return -1;
        }
        i := i + 1;
      }
      return 1;
    }
  }

  // ------------------------------------------------------------ properties

  class Property {
    var id: nat
    var uniqueID: nat
    var propType: bv32
    var coordInputType: CoordinateSystem
    var attrNames: seq<string>
    var attrValues: seq<string>
    var primitives: seq<Primitive>

    /** Names and values run in step, no name twice, no primitive twice. */
    ghost predicate Valid()
      reads this
    {
      |attrNames| == |attrValues| && Distinct(attrNames) && Distinct(primitives)
    }

    /** A property of type ANY with the given ID, Cartesian input, no attributes and no primitives. */
    constructor (id: nat)
      ensures Valid() && this.id == id && propType == AnyType && coordInputType == Cartesian
      ensures attrNames == [] && attrValues == [] && primitives == []
    {
      this.id := id;
      propType := AnyType;
      coordInputType := Cartesian;
      attrNames := [];
      attrValues := [];
      primitives := [];
    }

    method ExistAttribute(name: string) returns (exists_: bool)
      requires Valid()
      ensures exists_ <==> name in attrNames
    {
      var n := 0;
      while n < |attrNames|
        invariant 0 <= n <= |attrNames|
        invariant name !in attrNames[..n]
      {
        if attrNames[n] == name {
          return true;
        }
        assert attrNames[..n + 1] == attrNames[..n] + [attrNames[n]];
        n := n + 1;
      }
      assert attrNames[..n] == attrNames;
      return false;
    }

    /** The value of `name`, or the empty string when the name is missing. */
    method GetAttributeValue(name: string) returns (value: string)
      requires Valid()
      ensures value == Lookup(attrNames, attrValues, name)
      ensures name !in attrNames ==> value == ""
    {
      var n := 0;
      while n < |attrNames|
        invariant 0 <= n <= |attrNames|
        invariant forall j :: 0 <= j < n ==> attrNames[j] != name
      {
        if attrNames[n] == name {
          assert IndexOf(attrNames, name) == n;
          return attrValues[n];
        }
        n := n + 1;
      }
      return "";
    }

    /** Sets or adds an attribute; an empty name is ignored. */
    method SetAttributeValue(name: string, value: string)
      requires Valid()
      modifies this`attrNames, this`attrValues
      ensures Valid()
      ensures (attrNames, attrValues) == SetAttr(old(attrNames), old(attrValues), name, value)
    {
      SetAttrLookup(attrNames, attrValues, name, value);
      if name == "" {
        return;
      }
      var n := 0;
      while n < |attrNames|
        invariant 0 <= n <= |attrNames|
        invariant forall j :: 0 <= j < n ==> attrNames[j] != name
      {
        if attrNames[n] == name {
          assert IndexOf(attrNames, name) == n;
          attrValues := attrValues[n := value];
          return;
        }
        n := n + 1;
      }
      attrNames := attrNames + [name];
      attrValues := attrValues + [value];
    }

    /** Erases an attribute from both lists; an empty or missing name is ignored. */
    method RemoveAttribute(name: string)
      requires Valid()
      modifies this`attrNames, this`attrValues
      ensures Valid()
      ensures (attrNames, attrValues) == RemoveAttr(old(attrNames), old(attrValues), name)
    {
      RemoveAttrLookup(attrNames, attrValues, name);
      if name == "" {
        return;
      }
      var n := 0;
      while n < |attrNames|
        invariant 0 <= n <= |attrNames|
        invariant forall j :: 0 <= j < n ==> attrNames[j] != name
      {
        if attrNames[n] == name {
          assert IndexOf(attrNames, name) == n;
          attrNames := RemoveAt(attrNames, n);
          attrValues := RemoveAt(attrValues, n);
          return;
        }
        n := n + 1;
      }
    }

    method HasPrimitive(prim: Primitive?) returns (has: bool)
      ensures has <==> prim != null && prim in primitives
    {
      if prim == null {
        return false;
      }
      var i := 0;
      while i < |primitives|
        invariant 0 <= i <= |primitives|
        invariant forall j :: 0 <= j < i ==> primitives[j] != prim
      {
        if primitives[i] == prim {
          return true;
        }
        i := i + 1;
      }
      return false;
    }

    /**
     * Takes ownership of `prim`, which its previous owner gives up; a
     * primitive already listed here is not added twice.
     */
    method AddPrimitive(prim: Primitive)
      requires Valid()
      requires prim.property != null ==> Distinct(prim.property.primitives)
      modifies this`primitives, prim`property, Owners(prim.property, null)`primitives
      ensures Valid()
      ensures prim in old(primitives) ==> primitives == old(primitives) && prim.property == old(prim.property)
      ensures prim !in old(primitives) ==> primitives == old(primitives) + [prim] && prim.property == this
      ensures var owner := old(prim.property);
              prim !in old(primitives) && owner != null && owner != this ==>
                owner.primitives == RemoveFirst(old(owner.primitives), prim)
    {
      var has := HasPrimitive(prim);
      if has {
        return;
      }
      primitives := primitives + [prim];
      prim.SetProperty(this);
    }

    /** Drops `prim` from this property, which then has no owner; a primitive not listed is ignored. */
    method RemovePrimitive(prim: Primitive)
      requires Valid()
      requires prim in primitives ==> prim.property == this
      modifies this`primitives, prim`property
      ensures Valid()
      ensures primitives == RemoveFirst(old(primitives), prim)
      ensures prim !in primitives
      ensures prim in old(primitives) ==> prim.property == null
      ensures prim !in old(primitives) ==> prim.property == old(prim.property)
    {
      var i := 0;
      while i < |primitives|
        invariant 0 <= i <= |primitives|
        invariant forall j :: 0 <= j < i ==> primitives[j] != prim
      {
        if primitives[i] == prim {
          assert IndexOf(primitives, prim) == i;
          RemoveAtElems(primitives, i);
          primitives := RemoveAt(primitives, i);
          prim.property := null;
          return;
        }
        i := i + 1;
      }
    }

    /**
     * Hands out the primitive at `index` and erases it from the list,
     * without touching the primitive's owner reference; null when out of range.
     */
    method TakePrimitive(index: nat) returns (prim: Primitive?)
      requires Valid()
      modifies this`primitives
      ensures Valid()
      ensures index >= |old(primitives)| ==> prim == null && primitives == old(primitives)
      ensures index < |old(primitives)| ==> prim == old(primitives)[index] && primitives == RemoveAt(old(primitives), index)
    {
      if index >= |primitives| {
        return null;
      }
      prim := primitives[index];
      RemoveAtElems(primitives, index);
      primitives := RemoveAt(primitives, index);
    }

    /** Sets the input coordinate system, and with `copyToPrimitives` also each primitive's mesh type. */
    method SetCoordInputType(cs: CoordinateSystem, copyToPrimitives: bool)
      modifies this`coordInputType, primitives`meshType
      ensures coordInputType == cs
      ensures copyToPrimitives ==> forall p :: p in primitives ==> p.meshType == cs
      ensures forall p :: p in primitives ==> p.priority == old(p.priority) && p.property == old(p.property)
      ensures forall p :: p in primitives && !copyToPrimitives ==> p.meshType == old(p.meshType)
    {
      coordInputType := cs;
      if !copyToPrimitives {
        return;
      }
      var i := 0;
      while i < |primitives|
        invariant 0 <= i <= |primitives|
        invariant coordInputType == cs
        invariant forall j :: 0 <= j < i ==> primitives[j].meshType == cs
        invariant forall p :: p in primitives ==> p.priority == old(p.priority) && p.property == old(p.property)
      {
        primitives[i].meshType := cs;
        i := i + 1;
      }
    }

    /** The winning primitive for the point and its priority (0 when nothing contains the point). */
    method FindWinner(isInside: Primitive -> bool) returns (found: Primitive?, priority: int)
      ensures var b := Best(Priorities(primitives), Hits(primitives, isInside));
              found == (if b.Some? then primitives[b.value] else null)
              && priority == (if b.Some? then primitives[b.value].priority else 0)
    {
      priority := 0;
      found := null;
      var foundAny := false;
      ghost var prio := Priorities(primitives);
      ghost var hit := Hits(primitives, isInside);
      ghost var b: Option<nat> := None;
      var i := 0;
      while i < |primitives|
        invariant 0 <= i <= |primitives|
        invariant b == Best(prio[..i], hit[..i])
        invariant foundAny == b.Some?
        invariant b.Some? ==> b.value < i && found == primitives[b.value] && priority == prio[b.value]
        invariant b.None? ==> found == null && priority == 0
      {
        BestStep(prio, hit, i);
        PrioritiesAt(primitives, i);
        HitsAt(primitives, isInside, i);
        ghost var next := if hit[i] && (b.None? || prio[i] > prio[b.value]) then Some(i) else b;
        var p := primitives[i];
        if isInside(p) {
          if !foundAny {
            priority := p.priority - 1;
            found := p;
          }
          foundAny := true;
          if p.priority > priority {
            priority := p.priority;
            found := p;
          }
        }
        b := next;
        i := i + 1;
      }
      assert prio[..i] == prio && hit[..i] == hit;
      if b.Some? {
        PrioritiesAt(primitives, b.value);
      }
    }

    /**
     * The primitive containing the point with the highest priority, the
     * first on ties, and that priority; with `markFoundAsUsed` the winner
     * is flagged as used.
     */
    method CheckCoordInPrimitive(isInside: Primitive -> bool, markFoundAsUsed: bool) returns (found: Primitive?, priority: int)
      modifies primitives
      ensures var b := old(Best(Priorities(primitives), Hits(primitives, isInside)));
              found == (if b.Some? then primitives[b.value] else null)
              && priority == (if b.Some? then old(primitives[b.value].priority) else 0)
      ensures markFoundAsUsed && found != null ==> found.used
      ensures forall p :: p in primitives && p != found ==> p.used == old(p.used)
      ensures forall p :: p in primitives ==> p.priority == old(p.priority) && p.property == old(p.property)
      ensures !markFoundAsUsed ==> forall p :: p in primitives ==> p.used == old(p.used)
    {
      found, priority := FindWinner(isInside);
      if markFoundAsUsed && found != null {
        found.used := true;
      }
    }
  }
}

=== FILE: rect_grid.dfy ===
// A rectilinear grid: for each of the three directions, a growable list of
// mesh-line coordinates, plus the drawing unit and the mesh type.
module RectGrid {
  import opened SortedLines
  import opened Coordinates
  import opened Lists

  /** What Snap2LineNumber returns as an unsigned int when it has no line to give: -1 converted. */
  const NoLine: nat := 0xFFFF_FFFF

  predicate ValidDirection(d: int) { 0 <= d < 3 }

  /** The line at `index` of direction `d`, or 0 for a bad direction or index. */
  function GetLine(lines: seq<seq<real>>, d: int, index: nat): (v: real)
    requires |lines| == 3
    ensures ValidDirection(d) && index < |lines[d]| ==> v == lines[d][index]
    ensures !(ValidDirection(d) && index < |lines[d]|) ==> v == 0.0
  {
    if !ValidDirection(d) || |lines[d]| <= index then 0.0 else lines[d][index]
  }

  /** Number of lines in direction `d`, 0 for a bad direction. */
  function GetQtyLines(lines: seq<seq<real>>, d: int): (n: nat)
    requires |lines| == 3
    ensures ValidDirection(d) ==> n == |lines[d]|
    ensures !ValidDirection(d) ==> n == 0
  {
    if ValidDirection(d) then |lines[d]| else 0
  }

  /**
   * -1 when some direction has no line at all; otherwise the number of
   * directions with more than one line.
   */
  function GetDimension(lines: seq<seq<real>>): (dim: int)
    requires |lines| == 3
    ensures -1 <= dim <= 3
    ensures dim == -1 <==> exists d :: 0 <= d < 3 && |lines[d]| == 0
    ensures dim == 3 <==> forall d :: 0 <= d < 3 ==> |lines[d]| > 1
    ensures dim == 0 <==> forall d :: 0 <= d < 3 ==> |lines[d]| == 1
  {
    if |lines[0]| == 0 || |lines[1]| == 0 || |lines[2]| == 0 then -1
    else (if |lines[0]| > 1 then 1 else 0) + (if |lines[1]| > 1 then 1 else 0) + (if |lines[2]| > 1 then 1 else 0)
  }

  /** A valid 3D mesh has at least two lines in every direction. */
  predicate IsValidMesh(lines: seq<seq<real>>)
    requires |lines| == 3
  {
    forall d :: 0 <= d < 3 ==> |lines[d]| >= 2
  }

  // ------------------------------------------------------------ snapping

  /** The first n from `n` on whose midpoint to the next line lies above `value`, else the last index. */
  function SnapFrom(s: seq<real>, value: real, n: nat): (i: nat)
    requires n < |s|
    ensures n <= i < |s|
    ensures forall m :: n <= m < i ==> value >= 0.5 * (s[m] + s[m + 1])
    ensures i < |s| - 1 ==> value < 0.5 * (s[i] + s[i + 1])
    decreases |s| - n
  {
    if n == |s| - 1 then n
    else if value < 0.5 * (s[n] + s[n + 1]) then n
    else SnapFrom(s, value, n + 1)
  }

  /** The line index `value` snaps to, and whether `value` lies within the lines. */
  function Snap(s: seq<real>, value: real): (r: (nat, bool))
    ensures s == [] ==> r == (NoLine, false)
    ensures s != [] ==> r.0 < |s|
    ensures s != [] && value < s[0] ==> r == (0, false)
    ensures s != [] && s[0] <= value && value > s[|s| - 1] ==> r == (|s| - 1, false)
    ensures r.1 <==> s != [] && s[0] <= value <= s[|s| - 1]
  {
    if |s| == 0 then (NoLine, false)
    else if value < s[0] then (0, false)
    else if value > s[|s| - 1] then (|s| - 1, false)
    else (SnapFrom(s, value, 0), true)
  }

  function Dist(a: real, b: real): real
  {
    if a < b then b - a else a - b
  }

  /** Within ascending lines, the snapped line is a nearest one. */
  lemma SnapNearest(s: seq<real>, value: real)
    requires Sorted(s) && s != [] && s[0] <= value <= s[|s| - 1]
    ensures forall k :: 0 <= k < |s| ==> Dist(value, s[Snap(s, value).0]) <= Dist(value, s[k])
  {
    var i := SnapFrom(s, value, 0);
    assert Snap(s, value).0 == i;
    forall k | 0 <= k < |s|
      ensures Dist(value, s[i]) <= Dist(value, s[k])
    {
      if k < i {
        assert value >= 0.5 * (s[i - 1] + s[i]);
        assert s[k] <= s[i - 1] <= s[i];
      } else if k > i {
        assert value < 0.5 * (s[i] + s[i + 1]);
        assert s[i] <= s[i + 1] <= s[k];
      }
    }
  }

  // ------------------------------------------------------------ refinement

  /** The factor-1 points that split [a, b] into `factor` equal parts; none for factor <= 1. */
  function Between(a: real, b: real, factor: int): (r: seq<real>)
    ensures |r| == if factor <= 1 then 0 else factor - 1
  {
    if factor <= 1 then []
    else seq(factor - 1, n requires 0 <= n < factor - 1 => a + (n + 1) as real * ((b - a) / factor as real))
  }

  /** The points added to each gap, gap by gap from the first. */
  function GapPoints(s: seq<real>, factor: int): (r: seq<real>)
    decreases |s|
  {
    if |s| < 2 then []
    else GapPoints(s[..|s| - 1], factor) + Between(s[|s| - 2], s[|s| - 1], factor)
  }

  lemma GapPointsStep(s: seq<real>, i: nat, factor: int)
    requires i + 1 < |s|
    ensures GapPoints(s[..i + 2], factor) == GapPoints(s[..i + 1], factor) + Between(s[i], s[i + 1], factor)
  {
    assert s[..i + 2][..i + 1] == s[..i + 1];
  }

  lemma AppendAssoc(a: seq<real>, b: seq<real>, c: seq<real>)
    ensures (a + b) + c == a + (b + c)
  {
  }

  lemma MulSuccInt(m: int, c: int)
    ensures m * c + c == (m + 1) * c
  {
  }

  /** Each gap gets factor-1 new points. */
  lemma {:induction false} GapPointsCount(s: seq<real>, factor: int)
    requires |s| >= 1 && factor >= 2
    ensures |GapPoints(s, factor)| == (|s| - 1) * (factor - 1)
    decreases |s|
  {
    if |s| >= 2 {
      var t := s[..|s| - 1];
      GapPointsCount(t, factor);
      assert |GapPoints(s, factor)| == |GapPoints(t, factor)| + (factor - 1);
      MulSuccInt(|t| - 1, factor - 1);
    }
  }

  lemma MulMono(x: real, y: real, d: real)
    requires x <= y && d >= 0.0
    ensures x * d <= y * d
  {
    assert (y - x) * d >= 0.0;
  }

  /** a + k/f of the way to b stays in [a, b] for 0 <= k <= f. */
  lemma FractionInside(a: real, b: real, k: real, f: real)
    requires a <= b && 0.0 <= k <= f && f > 0.0
    ensures a <= a + k * ((b - a) / f) <= b
  {
    var d := (b - a) / f;
    assert f * d == b - a;
    assert d >= 0.0;
    MulMono(0.0, k, d);
    MulMono(k, f, d);
  }

  lemma BetweenInside(a: real, b: real, factor: int)
    requires a <= b
    ensures forall x :: x in Between(a, b, factor) ==> a <= x <= b
  {
    if factor > 1 {
      forall x | x in Between(a, b, factor)
        ensures a <= x <= b
      {
        var n :| 0 <= n < factor - 1 && Between(a, b, factor)[n] == x;
        FractionInside(a, b, (n + 1) as real, factor as real);
      }
    }
  }

  /** Over ascending lines, every added point lies between the first and the last line. */
  lemma {:induction false} GapPointsInside(s: seq<real>, factor: int)
    requires Sorted(s) && |s| >= 1
    ensures forall x :: x in GapPoints(s, factor) ==> s[0] <= x <= s[|s| - 1]
    decreases |s|
  {
    if |s| >= 2 {
      var t := s[..|s| - 1];
      GapPointsInside(t, factor);
      BetweenInside(s[|s| - 2], s[|s| - 1], factor);
      assert t[0] == s[0] && t[|t| - 1] == s[|s| - 2];
    }
  }

  /** The refined lines of one direction: old lines plus the gap points, sorted and unique. */
  function Refined(s: seq<real>, factor: int): (r: seq<real>)
    ensures StrictlySorted(r)
    ensures Elems(s) <= Elems(r)
  {
    SortUnique(s + GapPoints(s, factor))
  }

  /** Refining ascending lines keeps the first and last line as the extremes. */
  lemma RefinedWithinBounds(s: seq<real>, factor: int)
    requires Sorted(s) && |s| >= 1
    ensures forall x :: x in Refined(s, factor) ==> s[0] <= x <= s[|s| - 1]
  {
    GapPointsInside(s, factor);
    assert Elems(Refined(s, factor)) == Elems(s + GapPoints(s, factor));
    forall x | x in Refined(s, factor)
      ensures s[0] <= x <= s[|s| - 1]
    {
      assert x in Elems(s + GapPoints(s, factor));
    }
  }

  /**
   * IncreaseResolution exactly as written: its early-return guard asks for
   * a factor that is both at most 1 and above 9, so every factor reaches
   * the refinement.
   */
  function IncreaseResolutionAsWritten(lines: seq<seq<real>>, nu: int, factor: int): (r: seq<seq<real>>)
    requires |lines| == 3
    ensures |r| == 3
  {
    if nu < 0 || nu >= GetDimension(lines) then lines
    else if factor <= 1 && factor > 9 then lines
    else lines[nu := Refined(lines[nu], factor)]
  }

  /** The guard intended: only factors 2 to 9 refine; any other factor leaves the grid alone. */
  function IncreaseResolutionSpec(lines: seq<seq<real>>, nu: int, factor: int): (r: seq<seq<real>>)
    requires |lines| == 3
    ensures |r| == 3
    ensures factor <= 1 || factor > 9 ==> r == lines
  {
    if nu < 0 || nu >= GetDimension(lines) then lines
    else if factor <= 1 || factor > 9 then lines
    else lines[nu := Refined(lines[nu], factor)]
  }

  /** With factor 10 the written guard lets the refinement through: a new line appears at 0.1. */
  lemma IncreaseResolutionFactorTen()
    ensures var lines := [[0.0, 1.0], [0.0, 1.0], [0.0, 1.0]];
            IncreaseResolutionAsWritten(lines, 0, 10) != lines
            && IncreaseResolutionSpec(lines, 0, 10) == lines
  {
    var lines := [[0.0, 1.0], [0.0, 1.0], [0.0, 1.0]];
    assert GetDimension(lines) == 3;
    var s := lines[0];
    assert s[..|s| - 1] == [0.0];
    assert GapPoints(s, 10) == GapPoints([0.0], 10) + Between(0.0, 1.0, 10);
    assert Between(0.0, 1.0, 10)[0] == 0.1;
    assert 0.1 in s + GapPoints(s, 10);
    assert 0.1 in Elems(Refined(s, 10));
    assert 0.1 !in Elems(s);
  }

  // ------------------------------------------------------------ the grid object

  class Grid {
    var lines: seq<seq<real>>
    var deltaUnit: real
    var meshType: CoordinateSystem

    ghost predicate Valid()
      reads this
    {
      |lines| == 3
    }

    /** An empty grid, drawing unit 1, Cartesian. */
    constructor ()
      ensures Valid() && lines == [[], [], []]
      ensures deltaUnit == 1.0 && meshType == Cartesian
    {
      lines := [[], [], []];
      deltaUnit := 1.0;
      meshType := Cartesian;
    }

    /** Appends `val` to direction `direct`; a bad direction is ignored. */
    method AddDiscLine(direct: int, val: real)
      requires Valid()
      modifies this`lines
      ensures Valid()
      ensures ValidDirection(direct) ==> lines == old(lines)[direct := old(lines)[direct] + [val]]
      ensures !ValidDirection(direct) ==> lines == old(lines)
    {
      if 0 <= direct < 3 {
        lines := lines[direct := lines[direct] + [val]];
      }
    }

    /** Removes the line at `index`; false, with nothing changed, for a bad direction or index. */
    method RemoveDiscLineAt(direct: int, index: int) returns (ok: bool)
      requires Valid()
      modifies this`lines
      ensures Valid()
      ensures ok <==> ValidDirection(direct) && 0 <= index < |old(lines)[direct]|
      ensures ok ==> lines == old(lines)[direct := RemoveAt(old(lines)[direct], index)]
      ensures !ok ==> lines == old(lines)
    {
      if direct < 0 || direct >= 3 {
        return false;
      }
      if index >= |lines[direct]| || index < 0 {
        return false;
      }
      lines := lines[direct := RemoveAt(lines[direct], index)];
      return true;
    }

    /** Removes the first line equal to `val`; false, with nothing changed, when there is none. */
    method RemoveDiscLineValue(direct: int, val: real) returns (ok: bool)
      requires Valid()
      modifies this`lines
      ensures Valid()
      ensures ok <==> ValidDirection(direct) && val in old(lines)[direct]
      ensures ok ==> lines == old(lines)[direct := RemoveAt(old(lines)[direct], IndexOf(old(lines)[direct], val))]
      ensures !ok ==> lines == old(lines)
    {
      if direct < 0 || direct >= 3 {
        return false;
      }
      var i := 0;
      while i < |lines[direct]|
        invariant 0 <= i <= |lines[direct]|
        invariant lines == old(lines)
        invariant forall j :: 0 <= j < i ==> lines[direct][j] != val
      {
        if lines[direct][i] == val {
          assert IndexOf(lines[direct], val) == i by {
            var f := IndexOf(lines[direct], val);
            assert !(f < i) && !(i < f);
          }
          ok := RemoveDiscLineAt(direct, i);
          return;
        }
        i := i + 1;
      }
      return false;
    }

    /** Empties every direction and restores drawing unit 1. */
    method Clear()
      modifies this`lines, this`deltaUnit
      ensures Valid() && lines == [[], [], []] && deltaUnit == 1.0
    {
      lines := [[], [], []];
      deltaUnit := 1.0;
    }

    /** Empties one direction; a bad direction is ignored. */
    method ClearLines(direct: int)
      requires Valid()
      modifies this`lines
      ensures Valid()
      ensures ValidDirection(direct) ==> lines == old(lines)[direct := []]
      ensures !ValidDirection(direct) ==> lines == old(lines)
    {
      if direct < 0 || direct >= 3 {
        return;
      }
      lines := lines[direct := []];
    }

    /** Overwrites one existing line; false, with nothing changed, for a bad direction or index. */
    method SetLine(direct: int, index: nat, value: real) returns (ok: bool)
      requires Valid()
      modifies this`lines
      ensures Valid()
      ensures ok <==> ValidDirection(direct) && index < |old(lines)[direct]|
      ensures ok ==> GetLine(lines, direct, index) == value
      ensures forall d: int, i: nat :: 0 <= d < 3 && (d, i) != (direct, index) ==> GetLine(lines, d, i) == GetLine(old(lines), d, i)
      ensures forall d :: 0 <= d < 3 ==> |lines[d]| == |old(lines)[d]|
    {
      if direct < 0 || direct >= 3 {
        return false;
      }
      if |lines[direct]| <= index {
        return false;
      }
      lines := lines[direct := lines[direct][index := value]];
      return true;
    }

    /** Sorts one direction ascending and drops repeated values; a bad direction is ignored. */
    method Sort(direct: int)
      requires Valid()
      modifies this`lines
      ensures Valid()
      ensures ValidDirection(direct) ==> lines == old(lines)[direct := SortUnique(old(lines)[direct])]
      ensures !ValidDirection(direct) ==> lines == old(lines)
    {
      if direct < 0 || direct >= 3 {
        return;
      }
      var r := SortLines(lines[direct]);
      lines := lines[direct := r];
    }

    /**
     * The index of the line `value` snaps to in direction `ny`, and whether
     * `value` lies between the first and the last line. Lines are taken in
     * stored order; for ascending lines the index is a nearest line.
     */
    method Snap2LineNumber(ny: int, value: real) returns (index: nat, inside: bool)
      requires Valid()
      ensures ValidDirection(ny) ==> (index, inside) == Snap(lines[ny], value)
      ensures !ValidDirection(ny) ==> index == NoLine && !inside
    {
      inside := false;
      if ny < 0 || ny > 2 {
        return NoLine, false;
      }
      var s := lines[ny];
      if |s| == 0 {
        return NoLine, false;
      }
      if value < s[0] {
        return 0, false;
      }
      if value > s[|s| - 1] {
        return |s| - 1, false;
      }
      inside := true;
      var n := 0;
      while n < |s| - 1
        invariant 0 <= n <= |s| - 1
        invariant SnapFrom(s, value, n) == SnapFrom(s, value, 0)
      {
        if value < 0.5 * (s[n] + s[n + 1]) {
          return n, true;
        }
        n := n + 1;
      }
      return |s| - 1, true;
    }

    /** Whether every direction has at least two lines. */
    method IsValid() returns (valid: bool)
      requires Valid()
      ensures valid <==> IsValidMesh(lines)
      ensures valid <==> GetDimension(lines) == 3
    {
      var n := 0;
      while n < 3
        invariant 0 <= n <= 3
        invariant forall d :: 0 <= d < n ==> |lines[d]| >= 2
      {
        if GetQtyLines(lines, n) < 2 {
          return false;
        }
        n := n + 1;
      }
      return true;
    }

    /** The inner loop of IncreaseResolution: appends the points splitting gap `i` of direction `nu`. */
    method AddGapPoints(nu: int, i: nat, factor: int)
      requires Valid() && ValidDirection(nu) && i + 1 < |lines[nu]| && factor >= 2
      modifies this`lines
      ensures Valid()
      ensures lines == old(lines)[nu := old(lines)[nu] + Between(old(lines)[nu][i], old(lines)[nu][i + 1], factor)]
    {
      var a := lines[nu][i];
      var b := lines[nu][i + 1];
      var delta := (b - a) / factor as real;
      ghost var before := lines[nu];
      ghost var points := Between(a, b, factor);
      var n := 1;
      while n < factor
        invariant 1 <= n <= factor && n - 1 <= |points|
        invariant |lines| == 3 && lines == old(lines)[nu := lines[nu]]
        invariant lines[nu] == before + points[..n - 1]
        invariant lines[nu][i] == a
      {
        assert points[n - 1] == a + n as real * delta;
        assert points[..n] == points[..n - 1] + [points[n - 1]];
        AddDiscLine(nu, lines[nu][i] + n as real * delta);
        n := n + 1;
      }
      assert points[..n - 1] == points;
    }

    /** The outer loop of IncreaseResolution: appends the points splitting every gap of direction `nu`. */
    method AddAllGapPoints(nu: int, factor: int)
      requires Valid() && ValidDirection(nu) && |lines[nu]| >= 1 && factor >= 2
      modifies this`lines
      ensures Valid()
      ensures lines == old(lines)[nu := old(lines)[nu] + GapPoints(old(lines)[nu], factor)]
    {
      ghost var s := lines[nu];
      var size := |lines[nu]|;
      var i := 0;
      assert GapPoints(s[..1], factor) == [] && s + [] == s;
      assert lines == old(lines)[nu := s];
      while i < size - 1
        invariant 0 <= i <= size - 1
        invariant lines == old(lines)[nu := s + GapPoints(s[..i + 1], factor)]
      {
        ghost var g := GapPoints(s[..i + 1], factor);
        ghost var between := Between(s[i], s[i + 1], factor);
        assert (s + g)[i] == s[i] && (s + g)[i + 1] == s[i + 1];
        AddGapPoints(nu, i, factor);
        AppendAssoc(s, g, between);
        GapPointsStep(s, i, factor);
        i := i + 1;
      }
      assert s[..size] == s;
    }

    /**
     * Splits every gap of direction `nu` into `factor` equal parts, then
     * sorts; nothing happens unless `nu` is below the dimension and the
     * factor is between 2 and 9.
     */
    method IncreaseResolution(nu: int, factor: int)
      requires Valid()
      modifies this`lines
      ensures Valid()
      ensures lines == IncreaseResolutionSpec(old(lines), nu, factor)
    {
      if nu < 0 || nu >= GetDimension(lines) {
        return;
      }
      if factor <= 1 || factor > 9 {
        return;
      }
      AddAllGapPoints(nu, factor);
      Sort(nu);
    }
  }
}

=== FILE: smooth_mesh_lines.dfy ===
/**
 * Adaptive smoothing of one-dimensional mesh lines: merging near-duplicate
 * lines, filling one gap with lines whose spacing grows geometrically from
 * its neighbours' spacing up to a maximum, and refining a whole line list
 * gap by gap. Coordinates are exact reals; the exponential and logarithm
 * that pick a taper ratio are supplied by the caller as `root`.
 */
module SmoothMesh {
  import opened SortedLines

  /** The tolerance Unique is called with by default. */
  const Tol: real := 0.0000001

  // ------------------------------------------------------------ arithmetic

  /** numpy's ceil on a real, as an integer. */
  function Ceil(x: real): (c: int)
    ensures x <= c as real < x + 1.0
  {
    -((-x).Floor)
  }

  /** The spacing after n growth steps: a * q^n. */
  function Term(a: real, q: real, n: nat): real
  {
    if n == 0 then a else Term(a, q, n - 1) * q
  }

  /** The sum a*q + a*q^2 + ... + a*q^n. */
  function GeomSum(a: real, q: real, n: nat): real
  {
    if n == 0 then 0.0 else GeomSum(a, q, n - 1) + Term(a, q, n)
  }

  lemma {:induction false} TermPositive(a: real, q: real, n: nat)
    requires a > 0.0 && q > 0.0
    ensures Term(a, q, n) > 0.0
  {
    if n > 0 {
      TermPositive(a, q, n - 1);
      MulPos(Term(a, q, n - 1), q);
    }
  }

  /** One more step of length x after n - 1 of them reaches n steps. */
  lemma MulSucc(base: real, p: real, x: real, n: nat)
    requires n >= 1 && p == base + x * ((n - 1) as real)
    ensures p + x == base + x * (n as real)
  {
  }

  lemma MulLtRight(x: real, y: real, a: real)
    requires a > 0.0 && x < y
    ensures x * a < y * a
  {
  }

  lemma LinearLt(base: real, g: real, x: real, y: real)
    requires g > 0.0 && x < y
    ensures base + x * g < base + y * g
  {
    MulLtRight(x, y, g);
  }

  lemma {:induction false} TermAtLeast(a: real, q: real, n: nat)
    requires a > 0.0 && q >= 1.0
    ensures Term(a, q, n) >= a
  {
    if n > 0 {
      TermAtLeast(a, q, n - 1);
      MulLe(Term(a, q, n - 1), 1.0, q);
    }
  }

  /** m added up n times. */
  function Times(m: real, n: nat): (t: real)
    ensures m >= 0.0 ==> t >= 0.0
  {
    if n == 0 then 0.0 else Times(m, n - 1) + m
  }

  lemma {:induction false} TimesIsProduct(m: real, n: nat)
    ensures Times(m, n) == m * (n as real)
  {
    if n > 0 {
      TimesIsProduct(m, n - 1);
      MulSucc(0.0, Times(m, n - 1), m, n);
    }
  }

  lemma DivBelow(x: real, q: real)
    requires x > 0.0 && q > 1.0
    ensures x / q < x
  {
    var y := x / q;
    assert y * q == x;
    MulLt(y, 1.0, q);
  }

  lemma LinearLe(base: real, g: real, x: real, y: real)
    requires g >= 0.0 && x <= y
    ensures base + x * g <= base + y * g
  {
    MulLe(g, x, y);
  }

  lemma MulPos(a: real, b: real)
    requires a > 0.0 && b > 0.0
    ensures a * b > 0.0
  {
  }

  lemma MulLe(a: real, x: real, y: real)
    requires a >= 0.0 && x <= y
    ensures a * x <= a * y
  {
  }

  lemma MulLt(a: real, x: real, y: real)
    requires a > 0.0 && x < y
    ensures a * x < a * y
  {
  }

  /** The partial geometric sums grow strictly with n when a and q are positive. */
  lemma {:induction false} GeomSumIncreasing(a: real, q: real, m: nat, n: nat)
    requires a > 0.0 && q > 0.0 && m < n
    ensures 0.0 <= GeomSum(a, q, m) < GeomSum(a, q, n)
    decreases n
  {
    TermPositive(a, q, n);
    if m < n - 1 {
      GeomSumIncreasing(a, q, m, n - 1);
    } else if m > 0 {
      GeomSumIncreasing(a, q, 0, m);
    }
  }

  /**
   * The number of steps of length at least `delta` that fit between `base`
   * and `limit`: a loop that climbs from base by such steps and runs only
   * while below limit runs at most this often.
   */
  function Steps(base: real, delta: real, limit: real): nat
    requires delta > 0.0
  {
    if limit <= base then 0 else ((limit - base) / delta).Floor + 1
  }

  lemma StepsBound(base: real, delta: real, limit: real, x: real, n: nat)
    requires delta > 0.0 && x >= base + delta * (n as real) && x < limit
    ensures n < Steps(base, delta, limit)
  {
    assert delta * (n as real) < limit - base;
    assert (n as real) < (limit - base) / delta;
  }

  /** StepsBound with the n steps as a repeated sum. */
  lemma StepsBoundTimes(base: real, delta: real, limit: real, x: real, n: nat)
    requires delta > 0.0 && x >= base + Times(delta, n) && x < limit
    ensures n < Steps(base, delta, limit)
  {
    TimesIsProduct(delta, n);
    StepsBound(base, delta, limit, x, n);
  }

  /** Multiplying a value of at least `a` by ratio > 1 adds at least a * (ratio - 1). */
  lemma GrowStep(a: real, res: real, ratio: real)
    requires a > 0.0 && res >= a && ratio > 1.0
    ensures res * ratio >= res + a * (ratio - 1.0)
  {
    MulLe(ratio - 1.0, a, res);
  }

  // ------------------------------------------------------------ sequences

  function Last(s: seq<real>): real
    requires |s| >= 1
  {
    s[|s| - 1]
  }

  /** Every element of `s` lies in [lo, hi]. */
  predicate Within(s: seq<real>, lo: real, hi: real)
  {
    forall i :: 0 <= i < |s| ==> lo <= s[i] <= hi
  }

  /** A strictly increasing list of offsets starting at 0. */
  predicate Ramp(s: seq<real>)
  {
    |s| >= 1 && s[0] == 0.0 && StrictlySorted(s)
  }

  function MaxOf(s: seq<real>): (m: real)
    requires |s| >= 1
    ensures m in s && forall i :: 0 <= i < |s| ==> s[i] <= m
  {
    if |s| == 1 then s[0]
    else if s[|s| - 1] > MaxOf(s[..|s| - 1]) then s[|s| - 1]
    else MaxOf(s[..|s| - 1])
  }

  function MinOf(s: seq<real>): (m: real)
    requires |s| >= 1
    ensures m in s && forall i :: 0 <= i < |s| ==> m <= s[i]
  {
    if |s| == 1 then s[0]
    else if s[|s| - 1] < MinOf(s[..|s| - 1]) then s[|s| - 1]
    else MinOf(s[..|s| - 1])
  }

  /** The last element of a strictly sorted list is the largest of the values it holds. */
  lemma SortedLastIsMax(u: seq<real>, s: seq<real>)
    requires StrictlySorted(u) && Elems(u) == Elems(s) && |s| >= 1
    ensures |u| >= 1 && Last(u) == MaxOf(s)
  {
    assert MaxOf(s) in Elems(s);
    var i :| 0 <= i < |u| && u[i] == MaxOf(s);
    assert Last(u) in Elems(s);
  }

  /** The first element of a strictly sorted list is the smallest of the values it holds. */
  lemma SortedFirstIsMin(u: seq<real>, s: seq<real>)
    requires StrictlySorted(u) && Elems(u) == Elems(s) && |s| >= 1
    ensures |u| >= 1 && u[0] == MinOf(s)
  {
    assert MinOf(s) in Elems(s);
    var i :| 0 <= i < |u| && u[i] == MinOf(s);
    assert u[0] in Elems(s);
  }

  // ------------------------------------------------------------ Unique

  /**
   * Drops every element whose gap to its successor is below `thr`; the
   * last element has no successor and always stays.
   */
  function DropClose(u: seq<real>, thr: real): (r: seq<real>)
    requires |u| >= 1
    ensures 1 <= |r| <= |u| && Last(r) == Last(u)
    ensures Elems(r) <= Elems(u)
    ensures forall i :: 0 <= i < |r| ==> u[0] <= r[i] || !StrictlySorted(u)
  {
    if |u| == 1 then u
    else
      var rest := DropClose(u[1..], thr);
      assert Elems(u[1..]) <= Elems(u);
      if u[1] - u[0] < thr then rest else [u[0]] + rest
  }

  lemma {:induction false} DropCloseSorted(u: seq<real>, thr: real)
    requires |u| >= 1 && StrictlySorted(u)
    ensures StrictlySorted(DropClose(u, thr))
  {
    if |u| > 1 {
      DropCloseSorted(u[1..], thr);
      var rest := DropClose(u[1..], thr);
      forall i | 0 <= i < |rest|
        ensures u[0] < rest[i]
      {
        assert rest[i] in Elems(u[1..]);
      }
    }
  }

  /** When every gap is at least `thr`, nothing is dropped. */
  lemma {:induction false} DropCloseKeepsSpaced(u: seq<real>, thr: real)
    requires |u| >= 1
    requires forall i :: 0 <= i < |u| - 1 ==> u[i + 1] - u[i] >= thr
    ensures DropClose(u, thr) == u
  {
    if |u| > 1 {
      DropCloseKeepsSpaced(u[1..], thr);
      assert [u[0]] + u[1..] == u;
    }
  }

  /** The mean gap of a sorted list with at least two elements, times `tol`. */
  function Threshold(u: seq<real>, tol: real): real
    requires |u| >= 2
  {
    (Last(u) - u[0]) / ((|u| - 1) as real) * tol
  }

  /**
   * numpy's unique (sort, remove duplicates) followed by the removal of
   * every line closer to its successor than `tol` times the mean spacing.
   */
  function Unique(l: seq<real>, tol: real): (r: seq<real>)
    ensures |r| <= |l| && (|l| >= 1 <==> |r| >= 1)
  {
    var u := SortUnique(l);
    ElemsEmpty(u);
    ElemsEmpty(l);
    if |u| < 2 then u else DropClose(u, Threshold(u, tol))
  }

  /**
   * Unique returns a strictly ascending list drawn from its input that
   * keeps the input's largest value.
   */
  lemma UniqueProperties(l: seq<real>, tol: real)
    ensures StrictlySorted(Unique(l, tol))
    ensures Elems(Unique(l, tol)) <= Elems(l)
    ensures |l| >= 1 ==> Last(Unique(l, tol)) == MaxOf(l)
  {
    var u := SortUnique(l);
    if |u| >= 2 {
      DropCloseSorted(u, Threshold(u, tol));
    }
    if |l| >= 1 {
      SortedLastIsMax(u, l);
    }
  }

  /** A strictly ascending list whose gaps all reach the threshold comes back unchanged. */
  lemma UniqueKeepsSpaced(l: seq<real>, tol: real)
    requires StrictlySorted(l)
    requires |l| >= 2 ==> forall i :: 0 <= i < |l| - 1 ==> l[i + 1] - l[i] >= Threshold(l, tol)
    ensures Unique(l, tol) == l
  {
    SortUniqueOfSorted(l);
    if |l| >= 2 {
      DropCloseKeepsSpaced(l, Threshold(l, tol));
    }
  }

  /** Two distinct lines survive Unique at any tolerance up to 1. */
  lemma UniquePair(a: real, b: real, tol: real)
    requires a < b && tol <= 1.0
    ensures Unique([a, b], tol) == [a, b]
  {
    var thr := Threshold([a, b], tol);
    assert thr == (b - a) * tol;
    MulLe(b - a, tol, 1.0);
    UniqueKeepsSpaced([a, b], tol);
  }

  /** Every element of Unique's result lies within the bounds of its input. */
  lemma UniqueWithin(l: seq<real>, tol: real, lo: real, hi: real)
    requires Within(l, lo, hi)
    ensures Within(Unique(l, tol), lo, hi)
  {
    UniqueProperties(l, tol);
    var r := Unique(l, tol);
    forall i | 0 <= i < |r|
      ensures lo <= r[i] <= hi
    {
      assert r[i] in Elems(l);
    }
  }

  // ------------------------------------------------------------ MeshLinesSymmetric

  function Abs(x: real): real
  {
    if x < 0.0 then -x else x
  }

  /** The middle of a line list: the mean of its ends for even length, the middle line for odd length. */
  function MidValue(l: seq<real>): real
    requires |l| >= 1
  {
    if |l| % 2 == 0 then 0.5 * (l[0] + Last(l)) else l[(|l| - 1) / 2]
  }

  /**
   * MeshLinesSymmetric as written: it compares the middle with the SUM of
   * each mirrored pair of lines.
   */
  function MeshLinesSymmetricAsWritten(l: seq<real>, relTol: real): (ok: bool)
    requires |l| >= 1
    ensures ok && |l| >= 2 && |l| % 2 == 0 ==> Abs(0.5 * (l[0] + Last(l))) <= (Last(l) - l[0]) * relTol
  {
    var n, rng, mid := |l|, Last(l) - l[0], MidValue(l);
    var ok := forall k :: 0 <= k < n / 2 ==> Abs(mid - (l[k] + l[n - k - 1])) <= rng * relTol;
    assert ok && n >= 2 && n % 2 == 0 ==> Abs(mid - (l[0] + l[n - 1])) <= rng * relTol;
    ok
  }

  /** The intended check: the middle is the mean of every mirrored pair. */
  function MeshLinesSymmetric(l: seq<real>, relTol: real): (ok: bool)
    requires |l| >= 1
    ensures ok && relTol == 0.0 ==> forall k :: 0 <= k < |l| ==> l[k] + l[|l| - k - 1] == 2.0 * MidValue(l)
  {
    var n, rng, mid := |l|, Last(l) - l[0], MidValue(l);
    var ok := forall k :: 0 <= k < n / 2 ==> Abs(mid - 0.5 * (l[k] + l[n - k - 1])) <= rng * relTol;
    if ok && relTol == 0.0 then ExactSymmetryMirrors(l); ok else ok
  }

  /** At zero tolerance the check asks every mirrored pair, from either end, to have the middle as its mean. */
  lemma ExactSymmetryMirrors(l: seq<real>)
    requires |l| >= 1
    requires forall k :: 0 <= k < |l| / 2 ==> Abs(MidValue(l) - 0.5 * (l[k] + l[|l| - k - 1])) <= (Last(l) - l[0]) * 0.0
    ensures forall k :: 0 <= k < |l| ==> l[k] + l[|l| - k - 1] == 2.0 * MidValue(l)
  {
    var n := |l|;
    forall k | 0 <= k < n
      ensures l[k] + l[n - k - 1] == 2.0 * MidValue(l)
    {
      if k < n / 2 {
        assert Abs(MidValue(l) - 0.5 * (l[k] + l[n - k - 1])) <= 0.0;
      } else if n - k - 1 < n / 2 {
        var j := n - k - 1;
        assert n - j - 1 == k;
        assert Abs(MidValue(l) - 0.5 * (l[j] + l[n - j - 1])) <= 0.0;
      } else {
        assert n % 2 == 1 && k == (n - 1) / 2 && n - k - 1 == k;
      }
    }
  }

  /** Lines mirrored about their middle pass the intended check at any non-negative tolerance. */
  lemma MirroredIsSymmetric(l: seq<real>, relTol: real)
    requires |l| >= 1 && l[0] <= Last(l) && relTol >= 0.0
    requires forall k :: 0 <= k < |l| ==> l[k] + l[|l| - k - 1] == l[0] + Last(l)
    ensures MeshLinesSymmetric(l, relTol)
  {
    var n := |l|;
    var m := (n - 1) / 2;
    if n % 2 == 1 {
      assert n - m - 1 == m;
      assert l[m] + l[m] == l[0] + Last(l);
    }
    MulLe(relTol, 0.0, Last(l) - l[0]);
  }

  /** The evenly spaced lines 1, 2, 3, 4 are symmetric, yet the check as written rejects them. */
  lemma SymmetricAsWrittenRejects()
    ensures MeshLinesSymmetric([1.0, 2.0, 3.0, 4.0], 0.000001)
    ensures !MeshLinesSymmetricAsWritten([1.0, 2.0, 3.0, 4.0], 0.000001)
  {
    var l := [1.0, 2.0, 3.0, 4.0];
    MirroredIsSymmetric(l, 0.000001);
    assert Abs(MidValue(l) - (l[0] + l[3])) == 2.5;
  }

  // ------------------------------------------------------------ ramps

  lemma RampSnoc(l: seq<real>, x: real)
    requires Ramp(l) && x > Last(l)
    ensures Ramp(l + [x]) && Last(l + [x]) == x
  {
    var r := l + [x];
    forall i, j | 0 <= i < j < |r|
      ensures r[i] < r[j]
    {
      if j == |r| - 1 && i < |l| - 1 {
        assert l[i] < Last(l);
      }
    }
  }

  /** A ramp's elements lie between 0 and its last element. */
  lemma RampWithin(l: seq<real>)
    requires Ramp(l)
    ensures Within(l, 0.0, Last(l))
  {
  }

  lemma DivLt(x: real, y: real, d: real)
    requires x < y && d > 0.0
    ensures x / d < y / d
  {
  }

  lemma DivLe(x: real, y: real, d: real)
    requires x <= y && d > 0.0
    ensures x / d <= y / d
  {
  }

  /** Every element multiplied by num / den. */
  function Scaled(l: seq<real>, num: real, den: real): (r: seq<real>)
    requires den != 0.0
    ensures |r| == |l|
  {
    seq(|l|, i requires 0 <= i < |l| => l[i] * num / den)
  }

  /** Scaling by a positive factor keeps the order; scaling by num / Last makes the list end at num. */
  lemma ScaledSorted(l: seq<real>, num: real, den: real)
    requires StrictlySorted(l) && num > 0.0 && den > 0.0
    ensures StrictlySorted(Scaled(l, num, den))
    ensures |l| >= 1 && den == Last(l) ==> Last(Scaled(l, num, den)) == num
  {
    var r := Scaled(l, num, den);
    forall i, j | 0 <= i < j < |r|
      ensures r[i] < r[j]
    {
      MulLt(num, l[i], l[j]);
      DivLt(l[i] * num, l[j] * num, den);
    }
  }

  /** Scaling a ramp by a positive factor gives a ramp; scaling by num / Last gives one ending at num. */
  lemma ScaledRamp(l: seq<real>, num: real, den: real)
    requires Ramp(l) && num > 0.0 && den > 0.0
    ensures Ramp(Scaled(l, num, den))
    ensures den == Last(l) ==> Last(Scaled(l, num, den)) == num
  {
    ScaledSorted(l, num, den);
  }

  /** The partial geometric sums for 0, 1, ..., n terms. */
  function Sums(a: real, q: real, n: nat): (r: seq<real>)
    ensures |r| == n + 1
  {
    if n == 0 then [0.0] else Sums(a, q, n - 1) + [GeomSum(a, q, n)]
  }

  /** The k-th of the sums has k terms; with positive a and q they form a ramp. */
  lemma {:induction false} SumsRamp(a: real, q: real, n: nat)
    requires a > 0.0 && q > 0.0
    ensures forall k :: 0 <= k <= n ==> Sums(a, q, n)[k] == GeomSum(a, q, k)
    ensures Ramp(Sums(a, q, n)) && Last(Sums(a, q, n)) == GeomSum(a, q, n)
  {
    if n > 0 {
      SumsRamp(a, q, n - 1);
      GeomSumIncreasing(a, q, n - 1, n);
      RampSnoc(Sums(a, q, n - 1), GeomSum(a, q, n));
    }
  }

  /**
   * The lines 0, a*q, a*q + a*q^2, ..., up to n terms: the spacing starts
   * at a and grows by the factor q at every line.
   */
  method PartialSums(a: real, q: real, n: nat) returns (l: seq<real>)
    requires a > 0.0 && q > 0.0
    ensures l == Sums(a, q, n)
    ensures forall k :: 0 <= k <= n ==> l[k] == GeomSum(a, q, k)
    ensures Ramp(l) && Last(l) == GeomSum(a, q, n)
  {
    l := [0.0];
    var pos := 0.0;
    var res := a;
    var k: nat := 0;
    while k < n
      invariant k <= n && l == Sums(a, q, k)
      invariant pos == GeomSum(a, q, k) && res == Term(a, q, k)
    {
      res := res * q;
      pos := pos + res;
      l := l + [pos];
      k := k + 1;
    }
    SumsRamp(a, q, n);
  }

  /** `l` followed by c more lines, each `step` beyond the one before. */
  function Extend(l: seq<real>, step: real, c: nat): (r: seq<real>)
    requires |l| >= 1
    ensures |r| == |l| + c && r[..|l|] == l
  {
    if c == 0 then l
    else
      var p := Extend(l, step, c - 1);
      p + [Last(p) + step]
  }

  /** The last of the extended lines lies c steps beyond the last of `l`. */
  lemma {:induction false} ExtendLast(l: seq<real>, step: real, c: nat)
    requires |l| >= 1
    ensures Last(Extend(l, step, c)) == Last(l) + step * (c as real)
  {
    if c > 0 {
      var p := Extend(l, step, c - 1);
      ExtendLast(l, step, c - 1);
      assert Last(Extend(l, step, c)) == Last(p) + step;
      MulSucc(Last(l), Last(p), step, c);
    }
  }

  /** Extending a ramp by positive steps gives a ramp ending c steps further. */
  lemma {:induction false} ExtendRamp(l: seq<real>, step: real, c: nat)
    requires Ramp(l) && step > 0.0
    ensures Ramp(Extend(l, step, c))
    ensures Last(Extend(l, step, c)) == Last(l) + step * (c as real)
  {
    if c > 0 {
      var p := Extend(l, step, c - 1);
      ExtendRamp(l, step, c - 1);
      RampSnoc(p, Last(p) + step);
    }
    ExtendLast(l, step, c);
  }

  /** Appends exactly c lines, each `step` beyond the last. */
  method AppendSteps(l: seq<real>, step: real, c: nat) returns (r: seq<real>)
    requires Ramp(l) && step > 0.0
    ensures r == Extend(l, step, c)
    ensures Ramp(r) && Last(r) == Last(l) + step * (c as real)
  {
    r := l;
    var n := 0;
    while n < c
      invariant 0 <= n <= c && r == Extend(l, step, n)
    {
      ExtendRamp(l, step, n);
      r := r + [Last(r) + step];
      n := n + 1;
    }
    ExtendRamp(l, step, c);
  }

  /**
   * Appends lines `step` apart until the last reaches `rng`: the last line is
   * at or past rng and, when a line was added, the one before is below it.
   */
  method FillToRange(l: seq<real>, step: real, rng: real) returns (r: seq<real>, ghost c: nat)
    requires Ramp(l) && step > 0.0
    ensures r == Extend(l, step, c)
    ensures Ramp(r) && Last(r) >= rng
    ensures c > 0 ==> r[|r| - 2] < rng
  {
    r := l;
    c := 0;
    var pos := Last(l);
    while pos < rng
      invariant r == Extend(l, step, c) && pos == Last(r)
      invariant c > 0 ==> r[|r| - 2] < rng
      decreases Steps(Last(l), step, rng) - c
    {
      ExtendRamp(l, step, c);
      StepsBound(Last(l), step, rng, pos, c);
      pos := pos + step;
      r := r + [pos];
      c := c + 1;
    }
    ExtendRamp(l, step, c);
  }

  /** The taper ratios are e^((log hi - log lo) / n), which is positive whatever the caller's exp and log. */
  ghost predicate PositiveRoot(root: (real, real, nat) -> real)
  {
    forall lo, hi, n :: root(lo, hi, n) > 0.0
  }

  /** One round of the taper loops: the new spacing and position, and the step bound that makes them stop. */
  lemma TaperStep(startRes: real, ratio: real, maxRes: real, delta: real, res: real, pos: real, n: nat)
    requires startRes > 0.0 && ratio > 1.0 && delta == startRes * (ratio - 1.0)
    requires res == Term(startRes, ratio, n) && pos == GeomSum(startRes, ratio, n)
    requires res >= startRes + Times(delta, n) && res < maxRes
    ensures delta > 0.0 && n < Steps(startRes, delta, maxRes)
    ensures res * ratio == Term(startRes, ratio, n + 1) && pos + res * ratio == GeomSum(startRes, ratio, n + 1)
    ensures res * ratio >= startRes + Times(delta, n + 1)
  {
    MulPos(startRes, ratio - 1.0);
    TimesIsProduct(delta, n);
    StepsBound(startRes, delta, maxRes, res, n);
    GrowStep(startRes, res, ratio);
  }

  /**
   * The first loop of the one-sided taper: multiplies the spacing by
   * `ratio` and adds it, while the spacing is below maxRes and the position
   * below rng. It runs at least once, and it stops at the first count
   * where either limit is reached: one step earlier the position was below
   * rng and the spacing below maxRes.
   */
  method TaperCount(startRes: real, ratio: real, maxRes: real, rng: real) returns (res: real, pos: real, n: nat)
    requires startRes > 0.0 && ratio > 1.0 && startRes < maxRes && rng > 0.0
    ensures n >= 1 && res == Term(startRes, ratio, n) && pos == GeomSum(startRes, ratio, n)
    ensures res >= maxRes || pos >= rng
    ensures pos - res < rng && Term(startRes, ratio, n - 1) < maxRes
  {
    res := startRes;
    pos := 0.0;
    n := 0;
    ghost var delta := startRes * (ratio - 1.0);
    while res < maxRes && pos < rng
      invariant res == Term(startRes, ratio, n) && pos == GeomSum(startRes, ratio, n)
      invariant res >= startRes + Times(delta, n)
      invariant n > 0 ==> pos - res < rng
      invariant n > 0 ==> Term(startRes, ratio, n - 1) < maxRes
      decreases Steps(startRes, delta, maxRes) - n
    {
      TaperStep(startRes, ratio, maxRes, delta, res, pos, n);
      res := res * ratio;
      pos := pos + res;
      n := n + 1;
    }
  }

  /**
   * The offsets of a gap of length `rng` tapered from spacing `startRes`
   * towards maxRes: they start at 0, end at `rng` and increase strictly.
   * When the range is used up before the spacing reaches maxRes the
   * offsets are the partial sums scaled down onto rng; otherwise the
   * spacing grows by the ratio root(startRes, maxRes, n) over the same
   * number of steps and continues at maxRes.
   */
  method OneSideTaper(startRes: real, ratio: real, maxRes: real, rng: real, root: (real, real, nat) -> real)
    returns (l: seq<real>)
    requires startRes > 0.0 && ratio > 1.0 && startRes < maxRes && rng > 0.0 && PositiveRoot(root)
    ensures Ramp(l) && |l| >= 2 && Last(l) == rng
  {
    var res, pos, n := TaperCount(startRes, ratio, maxRes, rng);
    if pos > rng {
      var sums := PartialSums(startRes, ratio, n);
      GeomSumIncreasing(startRes, ratio, 0, n);
      ScaledRamp(sums, rng, pos);
      l := Scaled(sums, rng, pos);
      return;
    }
    var q := root(startRes, maxRes, n);
    l := PartialSums(startRes, q, n);
    GeomSumIncreasing(startRes, q, 0, n);
    ghost var c;
    l, c := FillToRange(l, maxRes, rng);
    ScaledRamp(l, rng, Last(l));
    l := Scaled(l, rng, Last(l));
  }

  // ------------------------------------------------------------ moving and mirroring lines

  /** Every element moved by d. */
  function Shift(l: seq<real>, d: real): (r: seq<real>)
    ensures |r| == |l|
  {
    seq(|l|, i requires 0 <= i < |l| => d + l[i])
  }

  /** Every element reflected about d, as in `d - l`. */
  function Mirror(l: seq<real>, d: real): (r: seq<real>)
    ensures |r| == |l|
  {
    seq(|l|, i requires 0 <= i < |l| => d - l[i])
  }

  /** Moving keeps the order and moves the bounds and the last element by d. */
  lemma ShiftProperties(l: seq<real>, d: real, lo: real, hi: real)
    ensures StrictlySorted(l) ==> StrictlySorted(Shift(l, d))
    ensures Within(l, lo, hi) ==> Within(Shift(l, d), d + lo, d + hi)
    ensures |l| >= 1 ==> Last(Shift(l, d)) == d + Last(l)
  {
  }

  /** A ramp reflected about d lies in [d - Last, d] and holds d itself. */
  lemma MirrorRamp(l: seq<real>, d: real)
    requires Ramp(l)
    ensures Within(Mirror(l, d), d - Last(l), d) && d in Elems(Mirror(l, d))
  {
    RampWithin(l);
    assert Mirror(l, d)[0] == d;
  }

  lemma MulDivLe(x: real, num: real, den: real)
    requires 0.0 <= x <= den && num > 0.0 && den > 0.0
    ensures 0.0 <= x * num / den <= num
  {
    MulLe(num, x, den);
    assert x * num <= den * num;
    DivLe(x * num, den * num, den);
    DivLe(0.0, x * num, den);
  }

  /** Scaling by num / den maps [0, den] into [0, num]. */
  lemma ScaledWithin(l: seq<real>, num: real, den: real)
    requires Within(l, 0.0, den) && num > 0.0 && den > 0.0
    ensures Within(Scaled(l, num, den), 0.0, num)
  {
    forall i | 0 <= i < |l|
      ensures 0.0 <= Scaled(l, num, den)[i] <= num
    {
      MulDivLe(l[i], num, den);
    }
  }

  /** The largest value of a list that holds m and nothing above it is m. */
  lemma MaxOfIs(s: seq<real>, m: real)
    requires m in s && forall i :: 0 <= i < |s| ==> s[i] <= m
    ensures MaxOf(s) == m
  {
  }

  /** A strictly ascending list whose values lie in [lo, hi] and include hi ends at hi. */
  lemma SortedEndsAtTop(u: seq<real>, lo: real, hi: real)
    requires StrictlySorted(u) && Within(u, lo, hi) && hi in Elems(u)
    ensures |u| >= 1 && Last(u) == hi
  {
    var i :| 0 <= i < |u| && u[i] == hi;
    SortedLe(u, i, |u| - 1);
  }

  lemma SortedLe(u: seq<real>, i: nat, j: nat)
    requires StrictlySorted(u) && i <= j < |u|
    ensures u[i] <= u[j]
  {
  }

  // ------------------------------------------------------------ linspace

  /** numpy's linspace(start, stop, n + 1): n equal steps from start to stop. */
  function Linspace(start: real, stop: real, n: nat): (r: seq<real>)
    requires n >= 1
    ensures |r| == n + 1
  {
    seq(n + 1, k requires 0 <= k <= n => start + (k as real) * ((stop - start) / (n as real)))
  }

  /** Every gap of the linspace is (stop - start) / n. */
  lemma LinspaceGaps(start: real, stop: real, n: nat)
    requires n >= 1
    ensures forall k :: 0 <= k < n ==> Linspace(start, stop, n)[k + 1] - Linspace(start, stop, n)[k] == (stop - start) / (n as real)
  {
    var r, g := Linspace(start, stop, n), (stop - start) / (n as real);
    forall k | 0 <= k < n
      ensures r[k + 1] - r[k] == g
    {
      MulSucc(0.0, (k as real) * g, g, k + 1);
    }
  }

  /**
   * The lines begin at start and end at stop, rise strictly, and every gap
   * is (stop - start) / n.
   */
  lemma LinspaceProperties(start: real, stop: real, n: nat)
    requires n >= 1 && start < stop
    ensures Linspace(start, stop, n)[0] == start && Last(Linspace(start, stop, n)) == stop
    ensures forall k :: 0 <= k < n ==> Linspace(start, stop, n)[k + 1] - Linspace(start, stop, n)[k] == (stop - start) / (n as real)
    ensures StrictlySorted(Linspace(start, stop, n)) && Within(Linspace(start, stop, n), start, stop)
  {
    LinspaceGaps(start, stop, n);
    LinspaceSorted(start, stop, n);
    LinspaceWithin(start, stop, n);
  }

  lemma LinspaceSorted(start: real, stop: real, n: nat)
    requires n >= 1 && start < stop
    ensures StrictlySorted(Linspace(start, stop, n))
  {
    var r, g := Linspace(start, stop, n), (stop - start) / (n as real);
    assert g > 0.0;
    forall i, j | 0 <= i < j <= n
      ensures r[i] < r[j]
    {
      assert r[i] == start + (i as real) * g && r[j] == start + (j as real) * g;
      LinearLt(start, g, i as real, j as real);
    }
  }

  lemma LinspaceWithin(start: real, stop: real, n: nat)
    requires n >= 1 && start < stop
    ensures Linspace(start, stop, n)[0] == start && Last(Linspace(start, stop, n)) == stop
    ensures Within(Linspace(start, stop, n), start, stop)
  {
    var r, g := Linspace(start, stop, n), (stop - start) / (n as real);
    assert g > 0.0;
    assert (n as real) * g == stop - start;
    forall k | 0 <= k <= n
      ensures start <= r[k] <= stop
    {
      assert r[k] == start + (k as real) * g;
      LinearLe(start, g, 0.0, k as real);
      LinearLe(start, g, k as real, n as real);
    }
  }

  /** With n = ceil(rng / maxRes) steps the gap rng / n is at most maxRes. */
  lemma CeilGap(rng: real, maxRes: real)
    requires rng > 0.0 && maxRes > 0.0
    ensures Ceil(rng / maxRes) >= 1 && rng / (Ceil(rng / maxRes) as real) <= maxRes
  {
    var n := Ceil(rng / maxRes);
    assert rng / maxRes <= n as real;
    assert rng <= (n as real) * maxRes;
  }

  /** Every element of b is one of a's, so b stays within a's bounds. */
  lemma WithinSubset(a: seq<real>, b: seq<real>, lo: real, hi: real)
    requires Within(a, lo, hi) && Elems(b) <= Elems(a)
    ensures Within(b, lo, hi)
  {
    forall i | 0 <= i < |b|
      ensures lo <= b[i] <= hi
    {
      assert b[i] in Elems(a);
    }
  }

  // ------------------------------------------------------------ two-sided taper

  /**
   * The lines of a gap tapered from both ends: the start side `l` and the
   * stop side `r` (as offsets from their ends) are laid end to end, merged
   * by Unique, and scaled and moved onto [start, start + rng].
   */
  function Combine(start: real, rng: real, l: seq<real>, r: seq<real>): (c: seq<real>)
    requires |l| >= 1 && |r| >= 1 && Last(l) + Last(r) != 0.0
    ensures |c| <= |l| + |r|
  {
    var length := Last(l) + Last(r);
    Shift(Scaled(Unique(l + Mirror(r, length), Tol), rng, length), start)
  }

  /**
   * The combined lines rise strictly, lie in [start, start + rng] and end
   * exactly at start + rng.
   */
  lemma CombineProperties(start: real, rng: real, l: seq<real>, r: seq<real>)
    requires Ramp(l) && Ramp(r) && Last(l) + Last(r) > 0.0 && rng > 0.0
    ensures |Combine(start, rng, l, r)| >= 1 && StrictlySorted(Combine(start, rng, l, r))
    ensures Within(Combine(start, rng, l, r), start, start + rng)
    ensures Last(Combine(start, rng, l, r)) == start + rng
  {
    var length := Last(l) + Last(r);
    var m := Mirror(r, length);
    var joined := l + m;
    RampWithin(l);
    MirrorRamp(r, length);
    assert Within(joined, 0.0, length);
    assert joined[|l|] == length;
    MaxOfIs(joined, length);
    UniqueProperties(joined, Tol);
    UniqueWithin(joined, Tol, 0.0, length);
    var u := Unique(joined, Tol);
    ScaledSorted(u, rng, length);
    ScaledWithin(u, rng, length);
    ShiftProperties(Scaled(u, rng, length), start, 0.0, rng);
  }

  /**
   * The count of the loop `while res < maxRes: res *= ratio`: the first n
   * at which the spacing res0 * ratio^n reaches maxRes.
   */
  method TaperLength(res0: real, ratio: real, maxRes: real) returns (n: nat)
    requires res0 > 0.0 && ratio > 1.0
    ensures Term(res0, ratio, n) >= maxRes
    ensures n >= 1 <==> res0 < maxRes
    ensures n >= 1 ==> Term(res0, ratio, n - 1) < maxRes
  {
    var res := res0;
    var pos := 0.0;
    n := 0;
    ghost var delta := res0 * (ratio - 1.0);
    while res < maxRes
      invariant res == Term(res0, ratio, n) && pos == GeomSum(res0, ratio, n)
      invariant res >= res0 + Times(delta, n)
      invariant n >= 1 ==> Term(res0, ratio, n - 1) < maxRes
      invariant n >= 1 ==> res0 < maxRes
      decreases Steps(res0, delta, maxRes) - n
    {
      TaperStep(res0, ratio, maxRes, delta, res, pos, n);
      res := res * ratio;
      pos := pos + res;
      n := n + 1;
    }
  }

  /** The start side's sums step by step: the spacing grows by ratio and is added. */
  lemma SumsStep(a: real, q: real, n: nat, l: seq<real>, res: real)
    requires a > 0.0 && q >= 1.0 && l == Sums(a, q, n) && res == Term(a, q, n)
    ensures l + [Last(l) + res * q] == Sums(a, q, n + 1)
    ensures res * q == Term(a, q, n + 1) && res * q >= a
  {
    SumsRamp(a, q, n);
    TermAtLeast(a, q, n + 1);
    assert Term(a, q, n + 1) == res * q;
    assert GeomSum(a, q, n + 1) == Last(l) + res * q;
    assert Sums(a, q, n + 1) == Sums(a, q, n) + [GeomSum(a, q, n + 1)];
  }

  /**
   * The alternating loop with the evident intent: the side with the finer
   * spacing grows its spacing by ratio and gains a line, until the two
   * sides together cover rng. Each side is then the partial sums of its own
   * geometric series.
   */
  method Alternate(startRes: real, stopRes: real, ratio: real, rng: real) returns (l: seq<real>, r: seq<real>)
    requires startRes > 0.0 && stopRes > 0.0 && ratio > 1.0
    ensures Ramp(l) && Ramp(r) && Last(l) + Last(r) >= rng
    ensures l == Sums(startRes, ratio, |l| - 1) && r == Sums(stopRes, ratio, |r| - 1)
  {
    l, r := [0.0], [0.0];
    var sRes, tRes := startRes, stopRes;
    ghost var m := if startRes < stopRes then startRes else stopRes;
    ghost var count: nat := 0;
    while Last(l) + Last(r) < rng
      invariant |l| >= 1 && |r| >= 1
      invariant l == Sums(startRes, ratio, |l| - 1) && r == Sums(stopRes, ratio, |r| - 1)
      invariant sRes == Term(startRes, ratio, |l| - 1) && tRes == Term(stopRes, ratio, |r| - 1)
      invariant Last(l) + Last(r) >= Times(m, count)
      decreases Steps(0.0, m, rng) - count
    {
      StepsBoundTimes(0.0, m, rng, Last(l) + Last(r), count);
      l, r, sRes, tRes := AlternateRound(startRes, stopRes, ratio, l, r, sRes, tRes);
      count := count + 1;
    }
    assert Ramp(l) by { SumsRamp(startRes, ratio, |l| - 1); }
    assert Ramp(r) by { SumsRamp(stopRes, ratio, |r| - 1); }
  }

  /** One round of the alternating loop: the finer side grows its spacing by ratio and gains a line. */
  method AlternateRound(startRes: real, stopRes: real, ratio: real, l: seq<real>, r: seq<real>, sRes: real, tRes: real)
    returns (l': seq<real>, r': seq<real>, sRes': real, tRes': real)
    requires startRes > 0.0 && stopRes > 0.0 && ratio > 1.0 && |l| >= 1 && |r| >= 1
    requires l == Sums(startRes, ratio, |l| - 1) && r == Sums(stopRes, ratio, |r| - 1)
    requires sRes == Term(startRes, ratio, |l| - 1) && tRes == Term(stopRes, ratio, |r| - 1)
    ensures |l'| >= 1 && |r'| >= 1 && |l'| + |r'| == |l| + |r| + 1
    ensures l' == Sums(startRes, ratio, |l'| - 1) && r' == Sums(stopRes, ratio, |r'| - 1)
    ensures sRes' == Term(startRes, ratio, |l'| - 1) && tRes' == Term(stopRes, ratio, |r'| - 1)
    ensures Last(l') + Last(r') >= Last(l) + Last(r) + (if startRes < stopRes then startRes else stopRes)
  {
    if sRes < tRes {
      SumsStep(startRes, ratio, |l| - 1, l, sRes);
      sRes' := sRes * ratio;
      l' := l + [Last(l) + sRes'];
      r', tRes' := r, tRes;
    } else {
      SumsStep(stopRes, ratio, |r| - 1, r, tRes);
      tRes' := tRes * ratio;
      r' := r + [Last(r) + tRes'];
      l', sRes' := l, sRes;
    }
  }

  /**
   * One round of the alternating loop as written: when the stop side is
   * the finer one its spacing grows, yet the line it gains is placed at the
   * START side's spacing.
   */
  function AlternateRoundAsWritten(l: seq<real>, r: seq<real>, sRes: real, tRes: real, ratio: real)
    : (s: (seq<real>, seq<real>, real, real))
    requires |l| >= 1 && |r| >= 1
    ensures sRes < tRes ==> s.0 == l + [Last(l) + sRes * ratio] && s.1 == r
    ensures sRes >= tRes ==> s.0 == l && |s.1| == |r| + 1 && Last(s.1) - Last(r) == sRes
  {
    if sRes < tRes then (l + [Last(l) + sRes * ratio], r, sRes * ratio, tRes)
    else (l, r + [Last(r) + sRes], sRes, tRes * ratio)
  }

  /** The spacings a, a*q, ..., a*q^n of a geometric series. */
  function Spacings(a: real, q: real, n: nat): (sp: set<real>)
    ensures Term(a, q, n) in sp
  {
    if n == 0 then {a} else Spacings(a, q, n - 1) + {Term(a, q, n)}
  }

  /** Every step of `r` is one of the spacings a, a*q, ..., a*q^n. */
  predicate StepsOfSeries(r: seq<real>, a: real, q: real, n: nat)
  {
    forall i :: 0 <= i < |r| - 1 ==> r[i + 1] - r[i] in Spacings(a, q, n)
  }

  /** A line placed one start-side spacing beyond the last keeps the steps in the series. */
  lemma StepsOfSeriesSnoc(r: seq<real>, a: real, q: real, n: nat)
    requires |r| >= 1 && StepsOfSeries(r, a, q, n)
    ensures StepsOfSeries(r + [Last(r) + Term(a, q, n)], a, q, n)
  {
    var r' := r + [Last(r) + Term(a, q, n)];
    forall i | 0 <= i < |r'| - 1
      ensures r'[i + 1] - r'[i] in Spacings(a, q, n)
    {
      if i < |r| - 1 {
        assert r'[i + 1] - r'[i] == r[i + 1] - r[i];
      }
    }
  }

  /** A longer series offers every spacing a shorter one does. */
  lemma StepsOfSeriesGrow(r: seq<real>, a: real, q: real, n: nat)
    requires StepsOfSeries(r, a, q, n)
    ensures StepsOfSeries(r, a, q, n + 1)
  {
    assert Spacings(a, q, n) <= Spacings(a, q, n + 1);
  }

  /**
   * One round as written keeps the start side the partial sums of its
   * series and the stop side a ramp of start-side spacings, and covers at
   * least startRes more.
   */
  lemma AsWrittenRoundStep(startRes: real, ratio: real, l: seq<real>, r: seq<real>, sRes: real, tRes: real)
    requires startRes > 0.0 && ratio > 1.0 && |l| >= 1 && Ramp(r)
    requires l == Sums(startRes, ratio, |l| - 1) && sRes == Term(startRes, ratio, |l| - 1)
    requires StepsOfSeries(r, startRes, ratio, |l| - 1)
    ensures var next := AlternateRoundAsWritten(l, r, sRes, tRes, ratio);
            |next.0| >= 1 && Ramp(next.1)
            && next.0 == Sums(startRes, ratio, |next.0| - 1) && next.2 == Term(startRes, ratio, |next.0| - 1)
            && StepsOfSeries(next.1, startRes, ratio, |next.0| - 1)
            && Last(next.0) + Last(next.1) >= Last(l) + Last(r) + startRes
  {
    var n := |l| - 1;
    TermAtLeast(startRes, ratio, n);
    if sRes < tRes {
      SumsStep(startRes, ratio, n, l, sRes);
      StepsOfSeriesGrow(r, startRes, ratio, n);
      var next := AlternateRoundAsWritten(l, r, sRes, tRes, ratio);
      assert next.0 == l + [Last(l) + sRes * ratio] && |next.0| - 1 == n + 1;
    } else {
      RampSnoc(r, Last(r) + sRes);
      StepsOfSeriesSnoc(r, startRes, ratio, n);
    }
  }

  /**
   * The alternating loop as written: the finer side grows its spacing by
   * ratio, but every line the stop side gains is placed at the start side's
   * current spacing. The start side is the partial sums of its own series;
   * each step of the stop side is one of the start side's spacings.
   */
  method AlternateAsWritten(startRes: real, stopRes: real, ratio: real, rng: real) returns (l: seq<real>, r: seq<real>)
    requires startRes > 0.0 && stopRes > 0.0 && ratio > 1.0
    ensures Ramp(l) && Ramp(r) && Last(l) + Last(r) >= rng
    ensures l == Sums(startRes, ratio, |l| - 1)
    ensures StepsOfSeries(r, startRes, ratio, |l| - 1)
  {
    l, r := [0.0], [0.0];
    var sRes, tRes := startRes, stopRes;
    ghost var count: nat := 0;
    while Last(l) + Last(r) < rng
      invariant |l| >= 1 && Ramp(r)
      invariant l == Sums(startRes, ratio, |l| - 1) && sRes == Term(startRes, ratio, |l| - 1)
      invariant StepsOfSeries(r, startRes, ratio, |l| - 1)
      invariant Last(l) + Last(r) >= Times(startRes, count)
      decreases Steps(0.0, startRes, rng) - count
    {
      StepsBoundTimes(0.0, startRes, rng, Last(l) + Last(r), count);
      AsWrittenRoundStep(startRes, ratio, l, r, sRes, tRes);
      var next := AlternateRoundAsWritten(l, r, sRes, tRes, ratio);
      l, r, sRes, tRes := next.0, next.1, next.2, next.3;
      count := count + 1;
    }
    SumsRamp(startRes, ratio, |l| - 1);
  }

  /**
   * From equal spacings 1 and ratio 2 the round as written gives the stop
   * side the line 1, where the stop side's series 1*2 asks for 2.
   */
  lemma AlternateAsWrittenMismatch()
    ensures AlternateRoundAsWritten([0.0], [0.0], 1.0, 1.0, 2.0).1 == [0.0, 1.0]
    ensures Sums(1.0, 2.0, 1) == [0.0, 2.0]
  {
    assert Term(1.0, 2.0, 1) == 2.0;
    assert GeomSum(1.0, 2.0, 1) == 2.0;
  }

  /**
   * Both ends tapered towards maxRes, for spacings below maxRes / ratio at
   * both ends. When the two full tapers fit, the start side is followed by
   * lines maxRes apart until the gap is covered; otherwise the two sides
   * grow alternately. Either way the sides are combined onto [start, start + rng].
   */
  method TwoSided(start: real, rng: real, startRes: real, stopRes: real, maxRes: real, ratio: real,
                  root: (real, real, nat) -> real)
    returns (lines: seq<real>)
    requires startRes > 0.0 && stopRes > 0.0 && startRes < maxRes && stopRes < maxRes
    requires ratio > 1.0 && rng > 0.0 && PositiveRoot(root)
    ensures |lines| >= 1 && StrictlySorted(lines)
    ensures Within(lines, start, start + rng) && Last(lines) == start + rng
  {
    var n1 := TaperLength(startRes, ratio, maxRes);
    var ratio1 := root(startRes, maxRes, n1);
    var pos1 := GeomSum(startRes, ratio1, n1);
    var n2 := TaperLength(stopRes, ratio, maxRes);
    var ratio2 := root(stopRes, maxRes, n2);
    var pos2 := GeomSum(stopRes, ratio2, n2);
    var l, r;
    if pos1 + pos2 < rng {
      l := PartialSums(startRes, ratio1, n1);
      r := PartialSums(stopRes, ratio2, n2);
      var left := rng - pos1 - pos2;
      CeilGap(left, maxRes);
      var n := Ceil(left / maxRes);
      GeomSumIncreasing(startRes, ratio1, 0, n1);
      GeomSumIncreasing(stopRes, ratio2, 0, n2);
      l := AppendSteps(l, maxRes, n);
      MulLe(maxRes, 0.0, n as real);
    } else {
      l, r := AlternateAsWritten(startRes, stopRes, ratio, rng);
    }
    lines := Combine(start, rng, l, r);
    CombineProperties(start, rng, l, r);
  }

  // ------------------------------------------------------------ SmoothRange

  /** The gap needs no lines between its ends: it is shorter than maxRes and than either neighbour's spacing times ratio. */
  predicate VerySmall(rng: real, startRes: real, stopRes: real, maxRes: real, ratio: real)
  {
    rng < maxRes && rng < startRes * ratio && rng < stopRes * ratio
  }

  /**
   * The lines that fill the gap [start, stop] so the spacing grows from
   * startRes at start and from stopRes at stop by at most `ratio` per line
   * towards maxRes. The result rises strictly; for start < stop it lies in
   * [start, stop] and ends at stop. A very small gap gets just its ends; a
   * gap between two coarse neighbours is divided evenly into steps of at
   * most maxRes.
   */
  method SmoothRange(start: real, stop: real, startRes: real, stopRes: real, maxRes: real, ratio: real,
                     root: (real, real, nat) -> real)
    returns (lines: seq<real>)
    requires startRes > 0.0 && stopRes > 0.0 && maxRes > 0.0 && ratio > 1.0 && PositiveRoot(root)
    ensures |lines| >= 1 && StrictlySorted(lines)
    ensures start < stop ==> Within(lines, start, stop) && Last(lines) == stop
    ensures start < stop && VerySmall(stop - start, startRes, stopRes, maxRes, ratio) ==> lines == [start, stop]
    ensures start < stop && !VerySmall(stop - start, startRes, stopRes, maxRes, ratio)
              && startRes >= maxRes / ratio && stopRes >= maxRes / ratio ==>
              lines == Linspace(start, stop, Ceil((stop - start) / maxRes))
              && lines[0] == start && forall k :: 0 <= k < |lines| - 1 ==> lines[k + 1] - lines[k] <= maxRes
  {
    var rng := stop - start;
    if VerySmall(rng, startRes, stopRes, maxRes, ratio) {
      lines := Unique([start, stop], Tol);
      UniqueProperties([start, stop], Tol);
      if start < stop {
        UniquePair(start, stop, Tol);
      }
      return;
    }
    MulPos(startRes, ratio);
    MulPos(stopRes, ratio);
    assert rng > 0.0;
    if startRes >= maxRes / ratio && stopRes >= maxRes / ratio {
      CeilGap(rng, maxRes);
      var n := Ceil(rng / maxRes);
      lines := Linspace(start, stop, n);
      LinspaceProperties(start, stop, n);
      return;
    }
    DivBelow(maxRes, ratio);
    if startRes < maxRes / ratio && stopRes >= maxRes / ratio {
      var t := OneSideTaper(startRes, ratio, maxRes, rng, root);
      lines := Shift(t, start);
      RampWithin(t);
      ShiftProperties(t, start, 0.0, rng);
      return;
    }
    if startRes >= maxRes / ratio && stopRes < maxRes / ratio {
      var t := OneSideTaper(stopRes, ratio, maxRes, rng, root);
      lines := SortUnique(Mirror(t, stop));
      MirrorRamp(t, stop);
      WithinSubset(Mirror(t, stop), lines, start, stop);
      SortedEndsAtTop(lines, start, stop);
      return;
    }
    lines := TwoSided(start, rng, startRes, stopRes, maxRes, ratio, root);
  }

  // ------------------------------------------------------------ SmoothMeshLines

  /** numpy's diff: the gaps between neighbouring lines. */
  function Diff(s: seq<real>): (d: seq<real>)
    ensures |d| == if |s| == 0 then 0 else |s| - 1
  {
    if |s| == 0 then [] else seq(|s| - 1, i requires 0 <= i < |s| - 1 => s[i + 1] - s[i])
  }

  /** Some gap is wider than maxRes. */
  predicate HasCoarse(dl: seq<real>, maxRes: real)
  {
    exists i :: 0 <= i < |dl| && dl[i] > maxRes
  }

  /**
   * The gap to refine next: numpy's argmin over the gaps after every gap
   * of at most maxRes has been raised above all others, that is the first
   * of the narrowest gaps that are wider than maxRes.
   */
  method PickGap(dl: seq<real>, maxRes: real) returns (idx: nat)
    requires HasCoarse(dl, maxRes)
    ensures idx < |dl| && dl[idx] > maxRes
    ensures forall j :: 0 <= j < |dl| && dl[j] > maxRes ==> dl[idx] <= dl[j]
    ensures forall j :: 0 <= j < idx && dl[j] > maxRes ==> dl[idx] < dl[j]
  {
    ghost var w :| 0 <= w < |dl| && dl[w] > maxRes;
    var found := false;
    idx := 0;
    var i := 0;
    while i < |dl|
      invariant 0 <= i <= |dl| && idx <= |dl|
      invariant found ==> idx < i && dl[idx] > maxRes
      invariant found ==> forall j :: 0 <= j < i && dl[j] > maxRes ==> dl[idx] <= dl[j]
      invariant found ==> forall j :: 0 <= j < idx && dl[j] > maxRes ==> dl[idx] < dl[j]
      invariant !found ==> forall j :: 0 <= j < i ==> dl[j] <= maxRes
    {
      if dl[i] > maxRes && (!found || dl[i] < dl[idx]) {
        idx := i;
        found := true;
      }
      i := i + 1;
    }
  }

  /**
   * The refinement loop with its fuel spent: lines keep rising strictly,
   * stay within the input's bounds and keep its largest value.
   */
  predicate Refined(out: seq<real>, lines: seq<real>)
  {
    StrictlySorted(out) && (|lines| == 0 <==> |out| == 0)
      && (|lines| >= 1 ==> Within(out, MinOf(lines), MaxOf(lines)) && Last(out) == MaxOf(lines))
  }

  /** Unique of refined lines is refined. */
  lemma UniqueRefined(out: seq<real>, lines: seq<real>)
    requires Refined(out, lines)
    ensures Refined(Unique(out, Tol), lines)
  {
    UniqueProperties(out, Tol);
    if |lines| >= 1 {
      UniqueWithin(out, Tol, MinOf(lines), MaxOf(lines));
      SortedLastIsMax(out, out);
      MaxOfIs(out, Last(out));
    }
  }

  /** Adding lines from inside the bounds and merging keeps the lines refined. */
  lemma MergeRefined(out: seq<real>, l: seq<real>, lines: seq<real>)
    requires Refined(out, lines) && |lines| >= 1 && Within(l, MinOf(lines), MaxOf(lines))
    ensures Refined(Unique(out + l, Tol), lines)
  {
    var joined := out + l;
    assert Within(joined, MinOf(lines), MaxOf(lines));
    assert joined[|out| - 1] == MaxOf(lines);
    MaxOfIs(joined, MaxOf(lines));
    UniqueProperties(joined, Tol);
    UniqueWithin(joined, Tol, MinOf(lines), MaxOf(lines));
  }

  /**
   * SmoothMeshLines: merges near-duplicate lines, then refines the
   * narrowest gap wider than maxRes with SmoothRange, the neighbouring gaps
   * (or maxRes at either end) as its end spacings, until no gap is wider
   * than maxRes or a round adds no line, and merges once more. The result
   * rises strictly, lies within the bounds of the input and keeps its
   * largest value; an empty input gives an empty result. The loop runs at
   * most `fuel` rounds.
   */
  method SmoothMeshLines(lines: seq<real>, maxRes: real, ratio: real, root: (real, real, nat) -> real, fuel: nat)
    returns (out: seq<real>)
    requires maxRes > 0.0 && ratio > 1.0 && PositiveRoot(root)
    ensures Refined(out, lines)
  {
    out := Unique(lines, Tol);
    UniqueProperties(lines, Tol);
    if |lines| >= 1 {
      UniqueWithin(lines, Tol, MinOf(lines), MaxOf(lines));
    }
    var dl := Diff(out);
    var rounds := 0;
    while HasCoarse(dl, maxRes) && rounds < fuel
      invariant Refined(out, lines) && dl == Diff(out)
      decreases fuel - rounds
    {
      var n := |out|;
      var idx := PickGap(dl, maxRes);
      var startRes := if idx > 0 then dl[idx - 1] else maxRes;
      var stopRes := if idx < |dl| - 1 then dl[idx + 1] else maxRes;
      assert startRes > 0.0 && stopRes > 0.0;
      var l := SmoothRange(out[idx], out[idx + 1], startRes, stopRes, maxRes, ratio, root);
      assert Within(l, MinOf(lines), MaxOf(lines));
      MergeRefined(out, l, lines);
      out := Unique(out + l, Tol);
      dl := Diff(out);
      if |out| == n {
        break;
      }
      rounds := rounds + 1;
    }
    UniqueRefined(out, lines);
    out := Unique(out, Tol);
  }
}

=== FILE: sorted_lines.dfy ===
// Sorting with duplicate removal for sequences of coordinates: what
// std::sort followed by std::unique, and numpy's unique, produce.
module SortedLines {

  predicate StrictlySorted(s: seq<real>)
  {
    forall i, j :: 0 <= i < j < |s| ==> s[i] < s[j]
  }

  predicate Sorted(s: seq<real>)
  {
    forall i, j :: 0 <= i < j < |s| ==> s[i] <= s[j]
  }

  function Elems(s: seq<real>): set<real>
  {
    set x | x in s
  }

  /** Inserts `x` into a strictly ascending sequence, dropping it when already present. */
  function Insert(x: real, s: seq<real>): (r: seq<real>)
    requires StrictlySorted(s)
    ensures StrictlySorted(r)
    ensures Elems(r) == Elems(s) + {x}
    ensures |r| <= |s| + 1
  {
    if s == [] then [x]
    else if x < s[0] then [x] + s
    else if x == s[0] then s
    else
      var t := Insert(x, s[1..]);
      ElemsCons(s[0], s[1..]);
      ElemsCons(s[0], t);
      HeadBelowTail(s);
      ConsStrictlySorted(s[0], t);
      [s[0]] + t
  }

  lemma ElemsCons(h: real, t: seq<real>)
    ensures Elems([h] + t) == {h} + Elems(t)
  {
    assert forall y :: y in [h] + t <==> y == h || y in t;
  }

  /** In a strictly ascending sequence the head is below every later value. */
  lemma HeadBelowTail(s: seq<real>)
    requires StrictlySorted(s) && |s| > 0
    ensures forall y :: y in Elems(s[1..]) ==> s[0] < y
  {
    forall y | y in Elems(s[1..])
      ensures s[0] < y
    {
      var k :| 0 <= k < |s[1..]| && s[1..][k] == y;
      assert s[k + 1] == y;
    }
  }

  lemma ConsStrictlySorted(h: real, t: seq<real>)
    requires StrictlySorted(t)
    requires forall y :: y in Elems(t) ==> h < y
    ensures StrictlySorted([h] + t)
  {
    forall i, j | 0 <= i < j < |[h] + t|
      ensures ([h] + t)[i] < ([h] + t)[j]
    {
      assert t[j - 1] in Elems(t);
    }
  }

  /** The distinct values of `s` in ascending order. */
  function SortUnique(s: seq<real>): (r: seq<real>)
    ensures StrictlySorted(r)
    ensures Elems(r) == Elems(s)
    ensures |r| <= |s|
  {
    if s == [] then []
    else
      var r := Insert(s[|s| - 1], SortUnique(s[..|s| - 1]));
      assert Elems(s) == Elems(s[..|s| - 1]) + {s[|s| - 1]};
      r
  }

  lemma SortUniqueSnoc(s: seq<real>, i: nat)
    requires i < |s|
    ensures SortUnique(s[..i + 1]) == Insert(s[i], SortUnique(s[..i]))
  {
    assert s[..i + 1][..i] == s[..i];
  }

  /** Sorts ascending and drops repeated values, one insertion at a time. */
  method SortLines(s: seq<real>) returns (r: seq<real>)
    ensures r == SortUnique(s)
  {
    r := [];
    var i := 0;
    while i < |s|
      invariant 0 <= i <= |s|
      invariant r == SortUnique(s[..i])
    {
      SortUniqueSnoc(s, i);
      r := Insert(s[i], r);
      i := i + 1;
    }
    assert s[..|s|] == s;
  }

  /** A strictly ascending sequence is determined by its set of values. */
  lemma {:induction false} StrictlySortedBySet(a: seq<real>, b: seq<real>)
    requires StrictlySorted(a) && StrictlySorted(b)
    requires Elems(a) == Elems(b)
    ensures a == b
    decreases |a|
  {
    ElemsEmpty(a);
    ElemsEmpty(b);
    if a != [] && b != [] {
      assert b[0] in Elems(a);
      assert a[0] in Elems(b);
      assert a[0] == b[0] by {
        var i :| 0 <= i < |a| && a[i] == b[0];
        var j :| 0 <= j < |b| && b[j] == a[0];
        assert a[0] <= a[i] && b[0] <= b[j];
      }
      assert Elems(a[1..]) == Elems(a) - {a[0]} by {
        assert a == [a[0]] + a[1..];
      }
      assert Elems(b[1..]) == Elems(b) - {b[0]} by {
        assert b == [b[0]] + b[1..];
      }
      StrictlySortedBySet(a[1..], b[1..]);
      assert a == [a[0]] + a[1..];
      assert b == [b[0]] + b[1..];
    }
  }

  lemma ElemsEmpty(s: seq<real>)
    ensures Elems(s) == {} <==> s == []
  {
    if s != [] {
      assert s[0] in Elems(s);
    }
  }

  /** Sorting an already strictly ascending sequence changes nothing. */
  lemma SortUniqueOfSorted(s: seq<real>)
    requires StrictlySorted(s)
    ensures SortUnique(s) == s
  {
    StrictlySortedBySet(SortUnique(s), s);
  }

  /** Sort-unique is idempotent. */
  lemma SortUniqueIdempotent(s: seq<real>)
    ensures SortUnique(SortUnique(s)) == SortUnique(s)
  {
    SortUniqueOfSorted(SortUnique(s));
  }

  lemma StrictlyImpliesSorted(s: seq<real>)
    requires StrictlySorted(s)
    ensures Sorted(s)
  {
  }
}

=== FILE: transform.dfy ===
// Affine transform bookkeeping: a 4x4 row-major matrix that maps a point
// (x, y, z, 1), and the list of operations (with their arguments) that built it.
module Transform {

  datatype TransformType = Scale | Scale3 | Translate | RotateOrigin | RotateX | RotateY | RotateZ | Matrix

  /** The enumerator's value, in declaration order. */
  function Code(t: TransformType): (c: int)
    ensures 0 <= c < 8
  {
    match t
    case Scale => 0
    case Scale3 => 1
    case Translate => 2
    case RotateOrigin => 3
    case RotateX => 4
    case RotateY => 5
    case RotateZ => 6
    case Matrix => 7
  }

  /** Name and argument count of an operation code; any other code is "Unknown" with 0 arguments. */
  function GetNameByType(code: int): (r: (string, nat))
    ensures r.0 != "Unknown" <==> 0 <= code < 8
    ensures r.1 == 0 <==> r.0 == "Unknown"
  {
    if code == 0 then ("Scale", 1)
    else if code == 1 then ("Scale3", 3)
    else if code == 2 then ("Translate", 3)
    else if code == 3 then ("Rotate_Origin", 4)
    else if code == 4 then ("Rotate_X", 1)
    else if code == 5 then ("Rotate_Y", 1)
    else if code == 6 then ("Rotate_Z", 1)
    else if code == 7 then ("Matrix", 16)
    else ("Unknown", 0)
  }

  /** Operation code and argument count of a name; an unknown name gives -1 and 0 arguments. */
  function GetTypeByName(name: string): (r: (int, nat))
    ensures -1 <= r.0 < 8
    ensures r.0 == -1 <==> r.1 == 0
  {
    if name == "Scale" then (0, 1)
    else if name == "Scale3" then (1, 3)
    else if name == "Translate" then (2, 3)
    else if name == "Rotate_Origin" then (3, 4)
    else if name == "Rotate_X" then (4, 1)
    else if name == "Rotate_Y" then (5, 1)
    else if name == "Rotate_Z" then (6, 1)
    else if name == "Matrix" then (7, 16)
    else (-1, 0)
  }

  /** Every operation's name reads back as the same operation with the same argument count. */
  lemma NameTypeRoundTrip(code: int)
    requires 0 <= code < 8
    ensures GetTypeByName(GetNameByType(code).0) == (code, GetNameByType(code).1)
  {
  }

  /** And every name that is recognised is the name of the operation it yields. */
  lemma TypeNameRoundTrip(name: string)
    requires GetTypeByName(name).0 != -1
    ensures GetNameByType(GetTypeByName(name).0) == (name, GetTypeByName(name).1)
  {
  }

  /** The default name is not recognised: an unknown code and an unknown name agree. */
  lemma UnknownName()
    ensures GetTypeByName(GetNameByType(8).0) == (-1, GetNameByType(8).1)
  {
  }

  function ArgCount(t: TransformType): nat
  {
    GetNameByType(Code(t)).1
  }

  // ------------------------------------------------------------ matrices

  predicate IsDiagonal(i: int) { i == 0 || i == 5 || i == 10 || i == 15 }

  function Identity(): (m: seq<real>)
    ensures |m| == 16
  {
    seq(16, i => if IsDiagonal(i) then 1.0 else 0.0)
  }

  function TranslationMatrix(t: seq<real>): (m: seq<real>)
    requires |t| == 3
    ensures |m| == 16
  {
    seq(16, i requires 0 <= i < 16 => if i == 3 || i == 7 || i == 11 then t[i / 4] else Identity()[i])
  }

  function ScalingMatrix(s: seq<real>): (m: seq<real>)
    requires |s| == 3
    ensures |m| == 16
  {
    seq(16, i requires 0 <= i < 16 => if i == 0 || i == 5 || i == 10 then s[i / 5] else Identity()[i])
  }

  /** Sum of the first n products of row `row` of `m` with (p, 1). */
  function RowSum(m: seq<real>, row: nat, p: seq<real>, n: nat): real
    requires |m| == 16 && row < 4 && |p| == 3 && n <= 4
  {
    if n == 0 then 0.0
    else RowSum(m, row, p, n - 1) + m[4 * row + n - 1] * (if n - 1 < 3 then p[n - 1] else 1.0)
  }

  /** The point `m` maps `p` to. */
  function Apply(m: seq<real>, p: seq<real>): (q: seq<real>)
    requires |m| == 16 && |p| == 3
    ensures |q| == 3
  {
    seq(3, row requires 0 <= row < 3 => RowSum(m, row, p, 4))
  }

  /** Entry (row, col) of a*b: the first n terms of the dot product. */
  function DotSum(a: seq<real>, b: seq<real>, row: nat, col: nat, n: nat): real
    requires |a| == 16 && |b| == 16 && row < 4 && col < 4 && n <= 4
  {
    if n == 0 then 0.0 else DotSum(a, b, row, col, n - 1) + a[4 * row + n - 1] * b[4 * (n - 1) + col]
  }

  function MatMul(a: seq<real>, b: seq<real>): (c: seq<real>)
    requires |a| == 16 && |b| == 16
    ensures |c| == 16
  {
    seq(16, i requires 0 <= i < 16 => DotSum(a, b, i / 4, i % 4, 4))
  }

  /** The bottom row is (0, 0, 0, 1): the matrix is affine. */
  predicate Affine(m: seq<real>)
    requires |m| == 16
  {
    m[12] == 0.0 && m[13] == 0.0 && m[14] == 0.0 && m[15] == 1.0
  }

  lemma RowSumExpanded(m: seq<real>, row: nat, p: seq<real>)
    requires |m| == 16 && row < 4 && |p| == 3
    ensures RowSum(m, row, p, 4) == m[4 * row] * p[0] + m[4 * row + 1] * p[1] + m[4 * row + 2] * p[2] + m[4 * row + 3]
  {
    assert RowSum(m, row, p, 1) == m[4 * row] * p[0];
    assert RowSum(m, row, p, 2) == RowSum(m, row, p, 1) + m[4 * row + 1] * p[1];
    assert RowSum(m, row, p, 3) == RowSum(m, row, p, 2) + m[4 * row + 2] * p[2];
  }

  lemma DotSumExpanded(a: seq<real>, b: seq<real>, row: nat, col: nat)
    requires |a| == 16 && |b| == 16 && row < 4 && col < 4
    ensures DotSum(a, b, row, col, 4) == a[4 * row] * b[col] + a[4 * row + 1] * b[4 + col] + a[4 * row + 2] * b[8 + col] + a[4 * row + 3] * b[12 + col]
  {
    assert DotSum(a, b, row, col, 1) == a[4 * row] * b[col];
    assert DotSum(a, b, row, col, 2) == DotSum(a, b, row, col, 1) + a[4 * row + 1] * b[4 + col];
    assert DotSum(a, b, row, col, 3) == DotSum(a, b, row, col, 2) + a[4 * row + 2] * b[8 + col];
  }

  lemma ApplyIdentity(p: seq<real>)
    requires |p| == 3
    ensures Apply(Identity(), p) == p
  {
    var q := Apply(Identity(), p);
    RowSumExpanded(Identity(), 0, p);
    RowSumExpanded(Identity(), 1, p);
    RowSumExpanded(Identity(), 2, p);
    assert q[0] == p[0] && q[1] == p[1] && q[2] == p[2];
  }

  lemma IdentityEntries()
    ensures Identity()[0] == 1.0 && Identity()[5] == 1.0 && Identity()[10] == 1.0
    ensures forall i :: 0 <= i < 16 && !IsDiagonal(i) ==> Identity()[i] == 0.0
  {
  }

  /** A translation matrix adds the translation vector. */
  lemma ApplyTranslation(t: seq<real>, p: seq<real>)
    requires |t| == 3 && |p| == 3
    ensures Apply(TranslationMatrix(t), p) == [p[0] + t[0], p[1] + t[1], p[2] + t[2]]
  {
    var m := TranslationMatrix(t);
    var q := Apply(m, p);
    IdentityEntries();
    assert m[0] == 1.0 && m[1] == 0.0 && m[2] == 0.0 && m[3] == t[0];
    assert m[4] == 0.0 && m[5] == 1.0 && m[6] == 0.0 && m[7] == t[1];
    assert m[8] == 0.0 && m[9] == 0.0 && m[10] == 1.0 && m[11] == t[2];
    RowSumExpanded(m, 0, p);
    RowSumExpanded(m, 1, p);
    RowSumExpanded(m, 2, p);
    assert q[0] == p[0] + t[0] && q[1] == p[1] + t[1] && q[2] == p[2] + t[2];
  }

  /** A scaling matrix multiplies coordinate by coordinate. */
  lemma ApplyScaling(s: seq<real>, p: seq<real>)
    requires |s| == 3 && |p| == 3
    ensures Apply(ScalingMatrix(s), p) == [p[0] * s[0], p[1] * s[1], p[2] * s[2]]
  {
    var m := ScalingMatrix(s);
    var q := Apply(m, p);
    IdentityEntries();
    assert m[0] == s[0] && m[1] == 0.0 && m[2] == 0.0 && m[3] == 0.0;
    assert m[4] == 0.0 && m[5] == s[1] && m[6] == 0.0 && m[7] == 0.0;
    assert m[8] == 0.0 && m[9] == 0.0 && m[10] == s[2] && m[11] == 0.0;
    RowSumExpanded(m, 0, p);
    RowSumExpanded(m, 1, p);
    RowSumExpanded(m, 2, p);
    assert q[0] == p[0] * s[0] && q[1] == p[1] * s[1] && q[2] == p[2] * s[2];
  }

  /** One row of the composition, with every entry named: a polynomial identity. */
  lemma ComposeRow(a0: real, a1: real, a2: real, a3: real,
                   b00: real, b01: real, b02: real, b03: real,
                   b10: real, b11: real, b12: real, b13: real,
                   b20: real, b21: real, b22: real, b23: real,
                   b30: real, b31: real, b32: real, b33: real,
                   p0: real, p1: real, p2: real,
                   c0: real, c1: real, c2: real, c3: real)
    requires b30 == 0.0 && b31 == 0.0 && b32 == 0.0 && b33 == 1.0
    requires c0 == a0 * b00 + a1 * b10 + a2 * b20 + a3 * b30
    requires c1 == a0 * b01 + a1 * b11 + a2 * b21 + a3 * b31
    requires c2 == a0 * b02 + a1 * b12 + a2 * b22 + a3 * b32
    requires c3 == a0 * b03 + a1 * b13 + a2 * b23 + a3 * b33
    ensures c0 * p0 + c1 * p1 + c2 * p2 + c3
         == a0 * (b00 * p0 + b01 * p1 + b02 * p2 + b03) + a1 * (b10 * p0 + b11 * p1 + b12 * p2 + b13)
            + a2 * (b20 * p0 + b21 * p1 + b22 * p2 + b23) + a3
  {
    assert c0 * p0 + c1 * p1 + c2 * p2 + c3
        == (a0 * b00 + a1 * b10 + a2 * b20) * p0 + (a0 * b01 + a1 * b11 + a2 * b21) * p1
           + (a0 * b02 + a1 * b12 + a2 * b22) * p2 + (a0 * b03 + a1 * b13 + a2 * b23 + a3);
  }

  /** The three coordinates of Apply(m, p), written out. */
  lemma ApplyEntries(m: seq<real>, p: seq<real>)
    requires |m| == 16 && |p| == 3
    ensures Apply(m, p)[0] == m[0] * p[0] + m[1] * p[1] + m[2] * p[2] + m[3]
    ensures Apply(m, p)[1] == m[4] * p[0] + m[5] * p[1] + m[6] * p[2] + m[7]
    ensures Apply(m, p)[2] == m[8] * p[0] + m[9] * p[1] + m[10] * p[2] + m[11]
  {
    RowSumExpanded(m, 0, p);
    RowSumExpanded(m, 1, p);
    RowSumExpanded(m, 2, p);
  }

  /** Row `row` of a*b, written out. */
  lemma MatMulRowEntries(a: seq<real>, b: seq<real>, row: nat)
    requires |a| == 16 && |b| == 16 && row < 4
    ensures MatMul(a, b)[4 * row] == a[4 * row] * b[0] + a[4 * row + 1] * b[4] + a[4 * row + 2] * b[8] + a[4 * row + 3] * b[12]
    ensures MatMul(a, b)[4 * row + 1] == a[4 * row] * b[1] + a[4 * row + 1] * b[5] + a[4 * row + 2] * b[9] + a[4 * row + 3] * b[13]
    ensures MatMul(a, b)[4 * row + 2] == a[4 * row] * b[2] + a[4 * row + 1] * b[6] + a[4 * row + 2] * b[10] + a[4 * row + 3] * b[14]
    ensures MatMul(a, b)[4 * row + 3] == a[4 * row] * b[3] + a[4 * row + 1] * b[7] + a[4 * row + 2] * b[11] + a[4 * row + 3] * b[15]
  {
    var c := MatMul(a, b);
    var i := 4 * row;
    assert i / 4 == row && i % 4 == 0;
    assert (i + 1) / 4 == row && (i + 1) % 4 == 1;
    assert (i + 2) / 4 == row && (i + 2) % 4 == 2;
    assert (i + 3) / 4 == row && (i + 3) % 4 == 3;
    assert c[i] == DotSum(a, b, row, 0, 4);
    assert c[i + 1] == DotSum(a, b, row, 1, 4);
    assert c[i + 2] == DotSum(a, b, row, 2, 4);
    assert c[i + 3] == DotSum(a, b, row, 3, 4);
    DotSumExpanded(a, b, row, 0);
    DotSumExpanded(a, b, row, 1);
    DotSumExpanded(a, b, row, 2);
    DotSumExpanded(a, b, row, 3);
  }

  /** Row `row` of a*b applied to p, written out through the rows of b. */
  lemma MatMulRowApplied(a: seq<real>, b: seq<real>, p: seq<real>, row: nat)
    requires |a| == 16 && |b| == 16 && |p| == 3 && row < 3
    requires Affine(b)
    ensures RowSum(MatMul(a, b), row, p, 4)
         == a[4 * row] * (b[0] * p[0] + b[1] * p[1] + b[2] * p[2] + b[3])
            + a[4 * row + 1] * (b[4] * p[0] + b[5] * p[1] + b[6] * p[2] + b[7])
            + a[4 * row + 2] * (b[8] * p[0] + b[9] * p[1] + b[10] * p[2] + b[11]) + a[4 * row + 3]
  {
    var c := MatMul(a, b);
    RowSumExpanded(c, row, p);
    MatMulRowEntries(a, b, row);
    ComposeRow(a[4 * row], a[4 * row + 1], a[4 * row + 2], a[4 * row + 3],
               b[0], b[1], b[2], b[3], b[4], b[5], b[6], b[7], b[8], b[9], b[10], b[11],
               b[12], b[13], b[14], b[15],
               p[0], p[1], p[2],
               c[4 * row], c[4 * row + 1], c[4 * row + 2], c[4 * row + 3]);
  }

  /** Row `row` of the composition: applying a*b agrees with applying b, then a. */
  lemma ApplyMatMulRow(a: seq<real>, b: seq<real>, p: seq<real>, row: nat)
    requires |a| == 16 && |b| == 16 && |p| == 3 && row < 3
    requires Affine(b)
    ensures RowSum(MatMul(a, b), row, p, 4) == RowSum(a, row, Apply(b, p), 4)
  {
    MatMulRowApplied(a, b, p, row);
    RowSumExpanded(a, row, Apply(b, p));
    ApplyEntries(b, p);
  }

  /** Applying a*b is applying b, then a, when b is affine. */
  lemma ApplyMatMul(a: seq<real>, b: seq<real>, p: seq<real>)
    requires |a| == 16 && |b| == 16 && |p| == 3
    requires Affine(b)
    ensures Apply(MatMul(a, b), p) == Apply(a, Apply(b, p))
  {
    ApplyMatMulRow(a, b, p, 0);
    ApplyMatMulRow(a, b, p, 1);
    ApplyMatMulRow(a, b, p, 2);
  }

  lemma AffineMatMul(a: seq<real>, b: seq<real>)
    requires |a| == 16 && |b| == 16 && Affine(a) && Affine(b)
    ensures Affine(MatMul(a, b))
  {
    var c := MatMul(a, b);
    assert c[12] == DotSum(a, b, 3, 0, 4);
    assert c[13] == DotSum(a, b, 3, 1, 4);
    assert c[14] == DotSum(a, b, 3, 2, 4);
    assert c[15] == DotSum(a, b, 3, 3, 4);
    DotSumExpanded(a, b, 3, 0);
    DotSumExpanded(a, b, 3, 1);
    DotSumExpanded(a, b, 3, 2);
    DotSumExpanded(a, b, 3, 3);
  }

  /** The 4x4 product a*b, entry by entry, each entry a four-term dot product. */
  method Multiply(a: seq<real>, b: seq<real>) returns (c: seq<real>)
    requires |a| == 16 && |b| == 16
    ensures c == MatMul(a, b)
  {
    c := [];
    var i := 0;
    while i < 16
      invariant 0 <= i <= 16 && |c| == i
      invariant forall j :: 0 <= j < i ==> c[j] == MatMul(a, b)[j]
    {
      var acc := 0.0;
      var k := 0;
      while k < 4
        invariant 0 <= k <= 4
        invariant acc == DotSum(a, b, i / 4, i % 4, k)
      {
        acc := acc + a[4 * (i / 4) + k] * b[4 * k + i % 4];
        k := k + 1;
      }
      c := c + [acc];
      i := i + 1;
    }
  }

  /** Overwrites the 16 entries of `dst` with `src`. */
  method CopyInto(dst: array<real>, src: seq<real>)
    requires dst.Length == |src|
    modifies dst
    ensures dst[..] == src
  {
    var i := 0;
    while i < dst.Length
      invariant 0 <= i <= dst.Length
      invariant forall j :: 0 <= j < i ==> dst[j] == src[j]
    {
      dst[i] := src[i];
      i := i + 1;
    }
  }

  /** MakeUnitMatrix: writes the 4x4 identity into `m`. */
  method MakeUnitMatrix(m: array<real>)
    requires m.Length == 16
    modifies m
    ensures m[..] == Identity()
  {
    var n := 0;
    while n < 4
      invariant 0 <= n <= 4
      invariant forall i :: 0 <= i < 16 && i % 4 < n ==> m[i] == Identity()[i]
    {
      var r := 0;
      while r < 4
        invariant 0 <= r <= 4
        invariant forall i :: 0 <= i < 16 && (i % 4 < n || (i % 4 == n && i / 4 < r)) ==> m[i] == Identity()[i]
      {
        m[4 * r + n] := if n == r then 1.0 else 0.0;
        r := r + 1;
      }
      n := n + 1;
    }
  }

  /** TranslateMatrix: the identity with the translation in the last column. */
  method TranslateMatrix(m: array<real>, t: seq<real>)
    requires m.Length == 16 && |t| == 3
    modifies m
    ensures m[..] == TranslationMatrix(t)
  {
    MakeUnitMatrix(m);
    var n := 0;
    while n < 3
      invariant 0 <= n <= 3
      invariant forall i :: 0 <= i < 16 && !(i == 3 && n <= 0) && !(i == 7 && n <= 1) && !(i == 11 && n <= 2) ==> m[i] == TranslationMatrix(t)[i]
    {
      m[4 * n + 3] := t[n];
      n := n + 1;
    }
  }

  /** ScaleMatrix with one factor for all three axes. */
  method ScaleMatrix(m: array<real>, s: real)
    requires m.Length == 16
    modifies m
    ensures m[..] == ScalingMatrix([s, s, s])
  {
    MakeUnitMatrix(m);
    var n := 0;
    while n < 3
      invariant 0 <= n <= 3
      invariant forall i :: 0 <= i < 16 && !(i == 0 && n <= 0) && !(i == 5 && n <= 1) && !(i == 10 && n <= 2) ==> m[i] == ScalingMatrix([s, s, s])[i]
    {
      m[4 * n + n] := s;
      n := n + 1;
    }
  }

  /** ScaleMatrix with one factor per axis. */
  method ScaleMatrix3(m: array<real>, s: seq<real>)
    requires m.Length == 16 && |s| == 3
    modifies m
    ensures m[..] == ScalingMatrix(s)
  {
    MakeUnitMatrix(m);
    var n := 0;
    while n < 3
      invariant 0 <= n <= 3
      invariant forall i :: 0 <= i < 16 && !(i == 0 && n <= 0) && !(i == 5 && n <= 1) && !(i == 10 && n <= 2) ==> m[i] == ScalingMatrix(s)[i]
    {
      m[4 * n + n] := s[n];
      n := n + 1;
    }
  }

  class CSTransform {
    /** m_TMatrix, row-major. */
    var matrix: array<real>
    var postMultiply: bool
    var angleRadian: bool
    var ops: seq<TransformType>
    var args: seq<seq<real>>

    /** The operation list and the argument list run in step, each entry with its operation's argument count. */
    ghost predicate Valid()
      reads this
    {
      matrix.Length == 16 && |ops| == |args|
      && forall i :: 0 <= i < |ops| ==> |args[i]| == ArgCount(ops[i])
    }

    /** Whether any operation has been recorded; in a consistent transform, whether any arguments have been. */
    predicate HasTransform()
      reads this
      ensures Valid() ==> (HasTransform() <==> args != [])
    {
      |ops| > 0
    }

    constructor ()
      ensures Valid() && fresh(matrix)
      ensures matrix[..] == Identity() && !HasTransform() && postMultiply && angleRadian
    {
      matrix := new real[16];
      ops := [];
      args := [];
      postMultiply := true;
      angleRadian := true;
      new;
      MakeUnitMatrix(matrix);
    }

    /** Back to the identity with no operations, post-multiplying, angles in radians. */
    method Reset()
      requires Valid()
      modifies this, matrix
      ensures Valid() && matrix == old(matrix)
      ensures matrix[..] == Identity() && !HasTransform() && args == []
      ensures postMultiply && angleRadian
    {
      postMultiply := true;
      angleRadian := true;
      ops := [];
      args := [];
      MakeUnitMatrix(matrix);
    }

    /** The image of `p` under the current matrix. */
    method TransformPoint(p: seq<real>) returns (q: seq<real>)
      requires Valid() && |p| == 3
      ensures q == Apply(matrix[..], p)
    {
      var out := [0.0, 0.0, 0.0];
      var row := 0;
      while row < 3
        invariant 0 <= row <= 3 && |out| == 3
        invariant forall r :: 0 <= r < row ==> out[r] == RowSum(matrix[..], r, p, 4)
      {
        var acc := 0.0;
        var n := 0;
        while n < 4
          invariant 0 <= n <= 4
          invariant acc == RowSum(matrix[..], row, p, n)
        {
          acc := acc + matrix[4 * row + n] * (if n < 3 then p[n] else 1.0);
          n := n + 1;
        }
        out := out[row := acc];
        row := row + 1;
      }
      q := out;
    }

    /**
     * Concatenating: the new matrix is m*T when post-multiplying (m acts
     * after the existing transform), T*m otherwise. Not concatenating: the
     * operation lists are cleared and m replaces the matrix.
     */
    method ApplyMatrix(m: seq<real>, concatenate: bool)
      requires Valid() && |m| == 16
      modifies this, matrix
      ensures Valid() && matrix == old(matrix)
      ensures postMultiply == old(postMultiply) && angleRadian == old(angleRadian)
      ensures concatenate ==> ops == old(ops) && args == old(args)
      ensures concatenate ==> matrix[..] == if postMultiply then MatMul(m, old(matrix[..])) else MatMul(old(matrix[..]), m)
      ensures !concatenate ==> ops == [] && args == [] && matrix[..] == m
    {
      if concatenate {
        var t := matrix[..];
        var product;
        if postMultiply {
          product := Multiply(m, t);
        } else {
          product := Multiply(t, m);
        }
        CopyInto(matrix, product);
      } else {
        CopyInto(matrix, m);
        ops := [];
        args := [];
      }
    }

    /** Records an operation and its arguments at the end of the lists. */
    method AppendList(t: TransformType, a: seq<real>)
      requires Valid() && |a| == ArgCount(t)
      modifies this`ops, this`args
      ensures Valid()
      ensures ops == old(ops) + [t] && args == old(args) + [a]
    {
      ops := ops + [t];
      args := args + [a];
    }

    method Translate(t: seq<real>, concatenate: bool)
      requires Valid() && |t| == 3
      modifies this, matrix
      ensures Valid() && matrix == old(matrix) && postMultiply == old(postMultiply)
      ensures ops == (if concatenate then old(ops) else []) + [TransformType.Translate]
      ensures args == (if concatenate then old(args) else []) + [t]
      ensures !concatenate ==> matrix[..] == TranslationMatrix(t)
      ensures concatenate && postMultiply ==> matrix[..] == MatMul(TranslationMatrix(t), old(matrix[..]))
      ensures concatenate && !postMultiply ==> matrix[..] == MatMul(old(matrix[..]), TranslationMatrix(t))
    {
      var m := new real[16];
      TranslateMatrix(m, t);
      ApplyMatrix(m[..], concatenate);
      AppendList(TransformType.Translate, t);
    }

    method ScaleUniform(s: real, concatenate: bool)
      requires Valid()
      modifies this, matrix
      ensures Valid() && matrix == old(matrix) && postMultiply == old(postMultiply)
      ensures ops == (if concatenate then old(ops) else []) + [Scale]
      ensures args == (if concatenate then old(args) else []) + [[s]]
      ensures !concatenate ==> matrix[..] == ScalingMatrix([s, s, s])
      ensures concatenate && postMultiply ==> matrix[..] == MatMul(ScalingMatrix([s, s, s]), old(matrix[..]))
      ensures concatenate && !postMultiply ==> matrix[..] == MatMul(old(matrix[..]), ScalingMatrix([s, s, s]))
    {
      var m := new real[16];
      ScaleMatrix(m, s);
      ApplyMatrix(m[..], concatenate);
      AppendList(Scale, [s]);
    }

    method ScalePerAxis(s: seq<real>, concatenate: bool)
      requires Valid() && |s| == 3
      modifies this, matrix
      ensures Valid() && matrix == old(matrix) && postMultiply == old(postMultiply)
      ensures ops == (if concatenate then old(ops) else []) + [Scale3]
      ensures args == (if concatenate then old(args) else []) + [s]
      ensures !concatenate ==> matrix[..] == ScalingMatrix(s)
      ensures concatenate && postMultiply ==> matrix[..] == MatMul(ScalingMatrix(s), old(matrix[..]))
      ensures concatenate && !postMultiply ==> matrix[..] == MatMul(old(matrix[..]), ScalingMatrix(s))
    {
      var m := new real[16];
      ScaleMatrix3(m, s);
      ApplyMatrix(m[..], concatenate);
      AppendList(Scale3, s);
    }

    method SetMatrix(m: seq<real>, concatenate: bool)
      requires Valid() && |m| == 16
      modifies this, matrix
      ensures Valid() && matrix == old(matrix) && postMultiply == old(postMultiply)
      ensures ops == (if concatenate then old(ops) else []) + [Matrix]
      ensures args == (if concatenate then old(args) else []) + [m]
      ensures !concatenate ==> matrix[..] == m
      ensures concatenate && postMultiply ==> matrix[..] == MatMul(m, old(matrix[..]))
      ensures concatenate && !postMultiply ==> matrix[..] == MatMul(old(matrix[..]), m)
    {
      ApplyMatrix(m, concatenate);
      AppendList(Matrix, m);
    }
  }

  /** After a reset and one non-concatenated translation, every point moves by the translation vector. */
  method TranslateFromReset(tr: CSTransform, t: seq<real>, p: seq<real>) returns (q: seq<real>)
    requires tr.Valid() && |t| == 3 && |p| == 3
    modifies tr, tr.matrix
    ensures q == [p[0] + t[0], p[1] + t[1], p[2] + t[2]]
    ensures tr.HasTransform()
  {
    tr.Reset();
    tr.Translate(t, false);
    q := tr.TransformPoint(p);
    ApplyTranslation(t, p);
  }
}

=== FILE: useful.dfy ===
// String helpers: integer <-> decimal text, splitting a string at a
// one-character delimiter, and joining values with a delimiter.
module Useful {

  datatype Option<T> = None | Some(value: T)

  const IntMin: int := -0x8000_0000
  const IntMax: int := 0x7FFF_FFFF

  /** A value of the platform's 32-bit signed `int`. */
  predicate IsInt32(n: int) { IntMin <= n <= IntMax }

  // ---------------------------------------------------------------- digits

  predicate IsDigit(c: char) { '0' <= c <= '9' }

  /** The characters the stream extraction skips before a number. */
  predicate IsSpace(c: char) { c == ' ' || c == '\t' || c == '\n' || c == '\r' || c == '\U{B}' || c == '\U{C}' }

  function DigitChar(d: int): (c: char)
    requires 0 <= d < 10
    ensures IsDigit(c) && c as int - '0' as int == d
  {
    ('0' as int + d) as char
  }

  function DigitValue(c: char): (v: nat)
    requires IsDigit(c)
    ensures v < 10
  {
    c as int - '0' as int
  }

  /** Decimal digits of a non-negative number, without leading zeros. */
  function NatDigits(n: nat): (s: string)
    ensures |s| > 0 && forall i :: 0 <= i < |s| ==> IsDigit(s[i])
    ensures |s| > 1 ==> s[0] != '0'
    decreases n
  {
    if n < 10 then [DigitChar(n)] else NatDigits(n / 10) + [DigitChar(n % 10)]
  }

  /** The value of a string of decimal digits, most significant first. */
  function DigitsValue(s: string): nat
    requires forall i :: 0 <= i < |s| ==> IsDigit(s[i])
    decreases |s|
  {
    if s == [] then 0 else DigitsValue(s[..|s| - 1]) * 10 + DigitValue(s[|s| - 1])
  }

  /** The longest prefix of `s` made of digits. */
  function LeadingDigits(s: string): (p: string)
    ensures |p| <= |s| && p == s[..|p|]
    ensures forall i :: 0 <= i < |p| ==> IsDigit(p[i])
    ensures |p| < |s| ==> !IsDigit(s[|p|])
  {
    if s == [] || !IsDigit(s[0]) then [] else [s[0]] + LeadingDigits(s[1..])
  }

  function Clamp32(n: int): (r: int)
    ensures IsInt32(r)
    ensures IsInt32(n) ==> r == n
  {
    if n < IntMin then IntMin else if n > IntMax then IntMax else n
  }

  /** ConvertInt: the decimal text of a 32-bit integer, '-' first when negative. */
  function ConvertInt(n: int): (s: string)
    requires IsInt32(n)
    ensures |s| > 0 && (s[0] == '-' <==> n < 0)
    ensures forall i :: (if n < 0 then 1 else 0) <= i < |s| ==> IsDigit(s[i])
  {
    if n < 0 then "-" + NatDigits(-n) else NatDigits(n)
  }

  /**
   * String2Int: formatted extraction of an `int` from a string stream. Leading
   * white space is skipped, one optional sign is taken, then as many digits as
   * follow; the rest is ignored. Without digits the extraction fails and the
   * result is 0; a value beyond the 32-bit range saturates at its bound.
   */
  function String2Int(s: string): (r: int)
    ensures IsInt32(r)
  {
    if s != [] && IsSpace(s[0]) then String2Int(s[1..]) else SignedDigits(s)
  }

  /** The number at the head of `t` (no leading white space): sign, then digits. */
  function SignedDigits(t: string): (r: int)
    ensures IsInt32(r)
  {
    var negative := t != [] && t[0] == '-';
    var body := if t != [] && (t[0] == '-' || t[0] == '+') then t[1..] else t;
    var digits := LeadingDigits(body);
    if digits == [] then 0
    else Clamp32(if negative then -(DigitsValue(digits) as int) else DigitsValue(digits))
  }

  lemma {:induction false} NatDigitsValue(n: nat)
    ensures DigitsValue(NatDigits(n)) == n
    decreases n
  {
    if n >= 10 {
      NatDigitsValue(n / 10);
      var s := NatDigits(n);
      assert s[..|s| - 1] == NatDigits(n / 10);
    }
  }

  lemma {:induction false} LeadingDigitsOfDigits(s: string)
    requires forall i :: 0 <= i < |s| ==> IsDigit(s[i])
    ensures LeadingDigits(s) == s
    decreases |s|
  {
    if s != [] {
      LeadingDigitsOfDigits(s[1..]);
    }
  }

  /** Reading back the text ConvertInt writes gives the number again. */
  lemma ConvertIntRoundTrip(n: int)
    requires IsInt32(n)
    ensures String2Int(ConvertInt(n)) == n
  {
    var m: nat := if n < 0 then -n else n;
    NatDigitsValue(m);
    LeadingDigitsOfDigits(NatDigits(m));
    var s := ConvertInt(n);
    assert !IsSpace(s[0]);
    if n < 0 {
      assert s[1..] == NatDigits(m);
    } else {
      assert s[0] != '-' && s[0] != '+';
    }
  }

  // ------------------------------------------------------------- splitting

  /** Position of the first `d` in `s`, or |s| when there is none. */
  function FindFirst(s: string, d: char): (p: nat)
    ensures p <= |s|
    ensures p < |s| ==> s[p] == d
    ensures forall i :: 0 <= i < p ==> s[i] != d
  {
    if s == [] then 0 else if s[0] == d then 0 else 1 + FindFirst(s[1..], d)
  }

  /**
   * The fields the split loops walk through: the text up to the first
   * delimiter, then the fields of the rest, where an empty rest ends the walk
   * (so a delimiter at the very end opens no further field).
   */
  function Fields(s: string, d: char): (fs: seq<string>)
    ensures |fs| > 0
    ensures forall k :: 0 <= k < |fs| ==> d !in fs[k]
    decreases |s|
  {
    var p := FindFirst(s, d);
    if p + 1 >= |s| then [s[..p]] else [s[..p]] + Fields(s[p + 1..], d)
  }

  function NonEmpty(fs: seq<string>): (r: seq<string>)
    ensures |r| <= |fs|
  {
    if fs == [] then []
    else if fs[0] == [] then NonEmpty(fs[1..])
    else [fs[0]] + NonEmpty(fs[1..])
  }

  /** Every field NonEmpty keeps is non-empty and is one of the given fields. */
  lemma {:induction false} NonEmptyAt(fs: seq<string>, k: nat)
    requires k < |NonEmpty(fs)|
    ensures NonEmpty(fs)[k] != [] && NonEmpty(fs)[k] in fs
    decreases |fs|
  {
    if fs[0] == [] {
      NonEmptyAt(fs[1..], k);
    } else if k > 0 {
      NonEmptyAt(fs[1..], k - 1);
    }
  }

  /** The fields that are non-empty and that `parse` accepts as a whole, parsed. */
  function ParsedFields(fs: seq<string>, parse: string -> Option<real>): (r: seq<real>)
    ensures |r| <= |fs|
  {
    if fs == [] then []
    else if fs[0] != [] && parse(fs[0]).Some? then [parse(fs[0]).value] + ParsedFields(fs[1..], parse)
    else ParsedFields(fs[1..], parse)
  }

  /**
   * The pieces SplitString2Int reads: like Fields, but every piece that ends at
   * a delimiter keeps that delimiter.
   */
  function Chunks(s: string, d: char): (cs: seq<string>)
    ensures |cs| > 0
    decreases |s|
  {
    var p := FindFirst(s, d);
    if p + 1 >= |s| then [s] else [s[..p + 1]] + Chunks(s[p + 1..], d)
  }

  function Join(parts: seq<string>, sep: string): string
  {
    if parts == [] then "" else if |parts| == 1 then parts[0] else parts[0] + sep + Join(parts[1..], sep)
  }

  lemma {:induction false} JoinSnoc(parts: seq<string>, x: string, sep: string)
    requires parts != []
    ensures Join(parts + [x], sep) == Join(parts, sep) + sep + x
    decreases |parts|
  {
    if |parts| == 1 {
      assert (parts + [x])[1..] == [x];
    } else {
      assert (parts + [x])[1..] == parts[1..] + [x];
      JoinSnoc(parts[1..], x, sep);
    }
  }

  /** Joining the fields with the delimiter gives the text back, unless it ends in the delimiter. */
  lemma {:induction false} JoinFields(s: string, d: char)
    requires s == [] || s[|s| - 1] != d
    ensures Join(Fields(s, d), [d]) == s
    decreases |s|
  {
    var p := FindFirst(s, d);
    if p + 1 >= |s| {
      assert p == |s|;
      assert s[..p] == s;
    } else {
      var rest := s[p + 1..];
      var fs := Fields(rest, d);
      JoinFields(rest, d);
      JoinCons(s[..p], fs, [d]);
      assert s == s[..p] + [d] + rest;
    }
  }

  lemma JoinCons(a: string, xs: seq<string>, sep: string)
    requires xs != []
    ensures Join([a] + xs, sep) == a + sep + Join(xs, sep)
  {
    assert ([a] + xs)[1..] == xs;
  }

  lemma {:induction false} NonEmptyAll(fs: seq<string>)
    requires forall k :: 0 <= k < |fs| ==> fs[k] != []
    ensures NonEmpty(fs) == fs
    decreases |fs|
  {
    if fs != [] {
      NonEmptyAll(fs[1..]);
    }
  }

  /** The fields of a join of non-empty, delimiter-free parts are those parts. */
  lemma {:induction false} FieldsOfJoin(parts: seq<string>, d: char)
    requires parts != []
    requires forall k :: 0 <= k < |parts| ==> parts[k] != [] && d !in parts[k]
    ensures Fields(Join(parts, [d]), d) == parts
    decreases |parts|
  {
    var s := Join(parts, [d]);
    var a := parts[0];
    if |parts| == 1 {
      FindFirstOfFree(a, d, []);
      assert a + [] == a;
      assert s[..|a|] == a;
    } else {
      var tail := Join(parts[1..], [d]);
      JoinCons(a, parts[1..], [d]);
      assert s == a + ([d] + tail);
      FindFirstOfFree(a, d, [d] + tail);
      FieldsOfJoin(parts[1..], d);
      JoinNonEmpty(parts[1..], [d]);
      assert s[|a| + 1..] == tail;
      assert s[..|a|] == a;
      assert parts == [a] + parts[1..];
    }
  }

  lemma {:induction false} JoinNonEmpty(parts: seq<string>, sep: string)
    requires parts != [] && parts[0] != []
    ensures Join(parts, sep) != []
  {
    if |parts| > 1 {
      JoinCons(parts[0], parts[1..], sep);
    }
  }

  lemma {:induction false} FindFirstOfFree(a: string, d: char, b: string)
    requires d !in a
    requires b == [] || b[0] == d
    ensures FindFirst(a + b, d) == |a|
    decreases |a|
  {
    if a != [] {
      assert (a + b)[1..] == a[1..] + b;
      FindFirstOfFree(a[1..], d, b);
    }
  }

  lemma AppendAssoc<T>(a: seq<T>, b: seq<T>, c: seq<T>)
    ensures (a + b) + c == a + (b + c)
  {
  }

  lemma NonEmptyCons(a: string, fs: seq<string>)
    ensures NonEmpty([a] + fs) == (if a == [] then [] else [a]) + NonEmpty(fs)
  {
    assert ([a] + fs)[1..] == fs;
  }

  lemma ParsedCons(a: string, fs: seq<string>, parse: string -> Option<real>)
    ensures ParsedFields([a] + fs, parse) == (if a != [] && parse(a).Some? then [parse(a).value] else []) + ParsedFields(fs, parse)
  {
    assert ([a] + fs)[1..] == fs;
  }

  method SplitString2Vector(str: string, d: char) returns (values: seq<string>)
    ensures values == NonEmpty(Fields(str, d))
  {
    var rest := str;
    var done := false;
    ghost var todo := Fields(str, d);
    values := [];
    while !done
      invariant values + NonEmpty(todo) == NonEmpty(Fields(str, d))
      invariant !done ==> todo == Fields(rest, d)
      invariant done ==> todo == []
      decreases |rest|, if done then 0 else 1
    {
      var pos := FindFirst(rest, d);
      var sub := rest[..pos];
      ghost var next: seq<string> := if pos + 1 >= |rest| then [] else Fields(rest[pos + 1..], d);
      assert todo == [sub] + next;
      NonEmptyCons(sub, next);
      if sub != [] {
        AppendAssoc(values, [sub], NonEmpty(next));
        values := values + [sub];
      }
      rest := if pos < |rest| then rest[pos + 1..] else [];
      done := |rest| == 0;
      todo := next;
    }
  }

  method SplitString2Double(str: string, d: char, parse: string -> Option<real>) returns (values: seq<real>)
    ensures values == ParsedFields(Fields(str, d), parse)
  {
    var rest := str;
    var done := false;
    ghost var todo := Fields(str, d);
    values := [];
    while !done
      invariant values + ParsedFields(todo, parse) == ParsedFields(Fields(str, d), parse)
      invariant !done ==> todo == Fields(rest, d)
      invariant done ==> todo == []
      decreases |rest|, if done then 0 else 1
    {
      var pos := FindFirst(rest, d);
      var sub := rest[..pos];
      ghost var next: seq<string> := if pos + 1 >= |rest| then [] else Fields(rest[pos + 1..], d);
      assert todo == [sub] + next;
      ParsedCons(sub, next, parse);
      if sub != [] {
        var v := parse(sub);
        if v.Some? {
          values := values + [v.value];
        }
      }
      rest := if pos < |rest| then rest[pos + 1..] else [];
      done := |rest| == 0;
      todo := next;
    }
  }

  function String2IntAll(cs: seq<string>): (r: seq<int>)
    ensures |r| == |cs|
  {
    if cs == [] then [] else [String2Int(cs[0])] + String2IntAll(cs[1..])
  }

  lemma {:induction false} String2IntAllSnoc(cs: seq<string>, c: string)
    ensures String2IntAll(cs + [c]) == String2IntAll(cs) + [String2Int(c)]
    decreases |cs|
  {
    if cs != [] {
      assert (cs + [c])[1..] == cs[1..] + [c];
      String2IntAllSnoc(cs[1..], c);
    }
  }

  lemma ChunksUnfold(rest: string, d: char, pos: nat)
    requires pos == (if FindFirst(rest, d) < |rest| then FindFirst(rest, d) + 1 else FindFirst(rest, d))
    ensures Chunks(rest, d) == [rest[..pos]] + (if pos >= |rest| then [] else Chunks(rest[pos..], d))
  {
    if pos >= |rest| {
      ChunksLast(rest, d);
      assert rest[..pos] == rest;
    } else {
      ChunksNext(rest, d, pos);
    }
  }

  lemma ChunksLast(rest: string, d: char)
    requires FindFirst(rest, d) + 1 >= |rest|
    ensures Chunks(rest, d) == [rest]
  {
  }

  lemma ChunksNext(rest: string, d: char, pos: nat)
    requires pos == FindFirst(rest, d) + 1 && pos < |rest|
    ensures Chunks(rest, d) == [rest[..pos]] + Chunks(rest[pos..], d)
  {
  }

  method SplitString2Int(str: string, d: char) returns (values: seq<int>)
    ensures values == String2IntAll(NonEmpty(Chunks(str, d)))
  {
    var rest := str;
    var done := false;
    ghost var todo := Chunks(str, d);
    ghost var pieces: seq<string> := [];
    values := [];
    while !done
      invariant pieces + NonEmpty(todo) == NonEmpty(Chunks(str, d))
      invariant !done ==> todo == Chunks(rest, d)
      invariant done ==> todo == []
      invariant values == String2IntAll(pieces)
      decreases |rest|, if done then 0 else 1
    {
      var pos := FindFirst(rest, d);
      if pos < |rest| {
        pos := pos + 1;
      }
      var sub := rest[..pos];
      ghost var next: seq<string> := if pos >= |rest| then [] else Chunks(rest[pos..], d);
      ChunksUnfold(rest, d, pos);
      NonEmptyCons(sub, next);
      if sub != [] {
        values := values + [String2Int(sub)];
        String2IntAllSnoc(pieces, sub);
        AppendAssoc(pieces, [sub], NonEmpty(next));
        pieces := pieces + [sub];
      }
      rest := rest[pos..];
      done := |rest| == 0;
      todo := next;
    }
    assert pieces + NonEmpty([]) == pieces;
  }

  method CombineVector2String(values: seq<real>, d: char, format: real -> string) returns (s: string)
    ensures s == Join(seq(|values|, k requires 0 <= k < |values| => format(values[k])), [d])
  {
    s := "";
    var i := 0;
    ghost var texts := seq(|values|, k requires 0 <= k < |values| => format(values[k]));
    while i < |values|
      invariant 0 <= i <= |values|
      invariant s == Join(texts[..i], [d])
    {
      if i > 0 {
        s := s + [d];
        JoinSnoc(texts[..i], texts[i], [d]);
      }
      s := s + format(values[i]);
      assert texts[..i + 1] == texts[..i] + [texts[i]];
      i := i + 1;
    }
    assert texts[..|values|] == texts;
  }

  // ------------------------------------------------------- split properties

  /** With no empty field and no trailing delimiter, joining the tokens gives the input back. */
  lemma SplitVectorJoinRoundTrip(s: string, d: char)
    requires s == [] || s[|s| - 1] != d
    requires forall k :: 0 <= k < |Fields(s, d)| ==> Fields(s, d)[k] != []
    ensures Join(NonEmpty(Fields(s, d)), [d]) == s
  {
    NonEmptyAll(Fields(s, d));
    JoinFields(s, d);
  }

  /**
   * Splitting what CombineVector2String wrote gives the values back, provided
   * each value's text is non-empty, holds no delimiter and parses back to it.
   */
  lemma CombineSplitRoundTrip(values: seq<real>, d: char, format: real -> string, parse: string -> Option<real>)
    requires values != []
    requires forall k :: 0 <= k < |values| ==> format(values[k]) != [] && d !in format(values[k])
    requires forall k :: 0 <= k < |values| ==> parse(format(values[k])) == Some(values[k])
    ensures ParsedFields(Fields(Join(seq(|values|, k requires 0 <= k < |values| => format(values[k])), [d]), d), parse) == values
  {
    var texts := seq(|values|, k requires 0 <= k < |values| => format(values[k]));
    FieldsOfJoin(texts, d);
    ParsedTexts(values, format, parse);
  }

  lemma {:induction false} ParsedTexts(values: seq<real>, format: real -> string, parse: string -> Option<real>)
    requires forall k :: 0 <= k < |values| ==> format(values[k]) != []
    requires forall k :: 0 <= k < |values| ==> parse(format(values[k])) == Some(values[k])
    ensures ParsedFields(seq(|values|, k requires 0 <= k < |values| => format(values[k])), parse) == values
    decreases |values|
  {
    var texts := seq(|values|, k requires 0 <= k < |values| => format(values[k]));
    if values != [] {
      ParsedTexts(values[1..], format, parse);
      assert texts[1..] == seq(|values| - 1, k requires 0 <= k < |values| - 1 => format(values[1..][k]));
      assert values == [values[0]] + values[1..];
    }
  }

  lemma {:induction false} LeadingDigitsSnoc(b: string, d: char)
    requires !IsDigit(d)
    ensures LeadingDigits(b + [d]) == LeadingDigits(b)
    decreases |b|
  {
    if b != [] {
      assert (b + [d])[1..] == b[1..] + [d];
      LeadingDigitsSnoc(b[1..], d);
    }
  }

  /** A trailing non-digit does not change the number read from a piece. */
  lemma {:induction false} String2IntSnoc(f: string, d: char)
    requires !IsDigit(d)
    ensures String2Int(f + [d]) == String2Int(f)
    decreases |f|
  {
    if f == [] {
      assert String2Int([]) == 0;
      if IsSpace(d) {
        assert [d][1..] == [];
      } else {
        assert LeadingDigits([d]) == [];
        assert [d][1..] == [];
        assert LeadingDigits([]) == [];
      }
    } else if IsSpace(f[0]) {
      assert (f + [d])[1..] == f[1..] + [d];
      String2IntSnoc(f[1..], d);
    } else {
      var body := if f[0] == '-' || f[0] == '+' then f[1..] else f;
      assert (if f[0] == '-' || f[0] == '+' then (f + [d])[1..] else f + [d]) == body + [d];
      LeadingDigitsSnoc(body, d);
    }
  }

  /**
   * SplitString2Int yields one value per field, empty fields included (they
   * read as 0), whenever the delimiter is not a digit and the input is not empty.
   */
  lemma {:induction false} SplitIntPerField(s: string, d: char)
    requires !IsDigit(d) && s != []
    ensures String2IntAll(NonEmpty(Chunks(s, d))) == String2IntAll(Fields(s, d))
    decreases |s|
  {
    var p := FindFirst(s, d);
    if p + 1 >= |s| {
      if p < |s| {
        assert s == s[..p] + [d];
        String2IntSnoc(s[..p], d);
      } else {
        assert s[..p] == s;
      }
    } else {
      var rest := s[p + 1..];
      SplitIntPerField(rest, d);
      assert s[..p + 1] == s[..p] + [d];
      String2IntSnoc(s[..p], d);
      var cs := Chunks(rest, d);
      assert Chunks(s, d) == [s[..p + 1]] + cs;
      assert ([s[..p + 1]] + cs)[1..] == cs;
      var fs := Fields(rest, d);
      assert Fields(s, d) == [s[..p]] + fs;
      assert ([s[..p]] + fs)[1..] == fs;
    }
  }
}
